=== FILE: README.md ===
# GeoSolveAI core, modelled in Dafny

GeoSolveAI is a maths-tutoring web application: a Flask server (`app.py`) that
cleans up and routes maths queries, checks geometry commands, registers users
and scores quizzes, and a React client whose components include an exam-hall
seating planner, a quiz builder, a community chat board and a device-detection
hook. This project models the decision logic of those pieces as pure Dafny
functions and proves what they promise.

Modules, one per part of the program:

- `Text` (text.dfy): the string primitives both languages use. It covers
  Python `strip`/`split`/`lower`/`replace`/`in` and JavaScript
  `trim`/`includes`, with the two whitespace sets kept apart. It also has
  decimal printing and reading of naturals.
- `Collections` (collections.dfy): counting, first failure, distinctness and
  element sets over sequences, stated for any predicate.
- `StringOrder` (order.dfy): JavaScript's default string sort, proved to
  return a sorted permutation. Characters are compared as Dafny `char`
  values (code points). JavaScript compares UTF-16 code units, and the two
  orders differ only for characters outside the Basic Multilingual Plane;
  the sorted seat ids are ASCII.
- `Expression` (expression.dfy): the character passes of `clean_expression`.
- `Textbook` (textbook.dfy): `format_textbook_solution` and `clean_markdown`.
- `Solve` (solve.dfy): the keyword dispatch of `/api/solve`, including the
  trigonometric pattern search and the `lhs, rhs = cleaned.split('=')`
  unpacking.
- `Geometry` (geometry.dfy): argument validation of `/api/geometry`.
- `Register` (register.dfy): field validation of `/api/register`, with the
  `users` table as a map keyed by email.
- `QuizScore` (quizscore.dfy): the scoring loop of `/api/quiz-submit`.
- `Seating` (seating.dfy): the seating planner as a state machine. It has a
  validity invariant that every handler preserves: the selection never holds
  an allocated seat, and allocations are pairwise disjoint.
- `QuizCreate` (quizcreate.dfy): the quiz builder form.
- `Community` (community.dfy): chat messages, reactions, document uploads and
  the search filter.
- `Device` (device.dfy): the device classification of `detectDevice`.

Components hold their state in React; here each state is one immutable
record and each handler is a function from the old record to the new one.
I/O and randomness become parameters:

- the database becomes maps and sets;
- Python's `float` becomes `toFloat`;
- `handle_trig_constant` becomes `answers`;
- the regex passes of `clean_expression` become `rewrite`;
- password hashing becomes `hash`;
- the clock and the random colour are plain arguments.

## Model

| member | source | states |
|---|---|---|
| Expression.ExpandCarets | GeoSolveAI/app.py:110 | no `^` is left, and the only character that can appear new is `*` |
| Expression.ExpandCaretsOnlyTouchesCarets | GeoSolveAI/app.py:110 | with `*` and `^` ignored, the rewritten text equals the input |
| Expression.ExpandCaretsConcat | GeoSolveAI/app.py:110 | the rewrite of a concatenation is the concatenation of the rewrites, so it acts character by character |
| Expression.ExpandCaretsChar | GeoSolveAI/app.py:110 | a single `^` becomes `**` and every other character stays as it is |
| Expression.ImplicitMultiplication | GeoSolveAI/app.py:134-148 | the loop emits every input character in order, each at its computed output position; a `*` follows index i exactly when the digit/letter/paren rule holds for s[i], s[i+1]; the output length is the input length plus the number of stars |
| Expression.PiecesLayout | GeoSolveAI/app.py:134-146 | after n iterations, character i sits at i plus the stars inserted before it, with the star right after it when one is due |
| Expression.PiecesOnlyInsertStars | GeoSolveAI/app.py:134-146 | deleting every `*` from input and output gives the same text: the pass only inserts stars |
| Expression.PiecesChars | GeoSolveAI/app.py:134-146 | every output character is an input character or `*` |
| Expression.StarGuardVacuous | GeoSolveAI/app.py:141-146 | whenever a star is due, the character just appended is neither `*` nor a space, so the `'* '` guard never suppresses one |
| Expression.ImplicitMultiplicationExamples | GeoSolveAI/app.py:134-146 | "2x" becomes "2*x" and "sin(x)" becomes "sin*(x)" |
| Expression.CollapseSpaces | GeoSolveAI/app.py:151 | `' '.join(s.split())` has no outer whitespace and only single spaces between non-space characters; it has the same words as `s` and adds no character but a space |
| Expression.CollapseSpacesIdempotent | GeoSolveAI/app.py:151 | collapsing twice equals collapsing once |
| Expression.CleanExpression | GeoSolveAI/app.py:100-153 | the cleaned expression is single-spaced with no outer whitespace; a `^` in it can only come from the regex step |
| Expression.CleanExpressionNoCaret | GeoSolveAI/app.py:107-110 | when the regex step introduces no caret, the cleaned expression holds no `^` |
| Textbook.PrintedIndices | GeoSolveAI/app.py:324-326 | lists, in increasing order, exactly the positions of the steps that are non-blank after stripping |
| Textbook.NumberedStepsSpec | GeoSolveAI/app.py:324-326 | the numbered steps are exactly the printed steps in order, each paired with its original 1-based position, so a blank step still consumes a number |
| Textbook.NoPrintedIndices | GeoSolveAI/app.py:325 | no step is printed exactly when every step is blank |
| Textbook.FormatTextbookSolution | GeoSolveAI/app.py:321-329 | the text is the numbered lines joined by newlines, then an empty line and `Final Answer: <solution>`; with every step blank it is just `\nFinal Answer: <solution>` |
| Textbook.NumberedStepsExample | GeoSolveAI/app.py:324-326 | for steps "x + 1 = 3", "  ", "x = 2" the printed numbers are 1 and 3 |
| Textbook.HeaderMatch | GeoSolveAI/app.py:883 | `^#+\s+` matches at i exactly when i starts a line and one or more `#` are followed by one or more whitespace characters; the match is that whole run of `#` and then of whitespace, inside the text |
| Textbook.HeaderMatchChars | GeoSolveAI/app.py:883 | a header match consumes only `#` and whitespace |
| Textbook.RemoveHeadersOnlyDeletes | GeoSolveAI/app.py:883 | once `#` and whitespace are ignored, the text after header removal equals the input: the substitution only deletes such characters |
| Textbook.RemoveHeadersIdentity | GeoSolveAI/app.py:883 | text with no `#+\s+` at any line start is left unchanged |
| Textbook.RemoveHeadersExample | GeoSolveAI/app.py:883 | "## Area\nA = 6" becomes "Area\nA = 6" |
| Textbook.RemoveMarkup | GeoSolveAI/app.py:885-892 | the six removals leave exactly the input with every `*`, `_`, backtick and `$` deleted |
| Textbook.CleanLineIsSlice | GeoSolveAI/app.py:896-904 | a cleaned line is a contiguous slice of the original line |
| Textbook.CollapseBlankLinesSpec | GeoSolveAI/app.py:906-915 | after squeezing, every blank entry is exactly `""`, no two empty entries are adjacent, and the non-blank lines are those of the input, in order |
| Textbook.CollapseBlankLinesIdempotent | GeoSolveAI/app.py:906-915 | squeezing twice equals squeezing once |
| Textbook.CollapseBlankLinesConcat | GeoSolveAI/app.py:906-915 | squeezing a list in two parts is squeezing the first part and then the second, started from whether the first part ended blank |
| Textbook.CollapseBlankLinesOne | GeoSolveAI/app.py:906-915 | one content line is kept as it is; one blank line becomes `""` unless the line before was blank, and then it is dropped; with the concatenation lemma this fixes the result for every list |
| Textbook.CollapseBlankLinesExample | GeoSolveAI/app.py:906-915 | `["", "a", "", " ", "b"]` becomes `["", "a", "", "b"]`: the run of two blank lines is kept as one empty line |
| Textbook.JoinNoTripleBreak | GeoSolveAI/app.py:916 | newline-free lines with no two adjacent empty ones join into text without three consecutive newlines |
| Textbook.CleanMarkdown | GeoSolveAI/app.py:879-916 | the cleaned text has no markup character, no outer whitespace, and never two blank lines in a row |
| Textbook.CleanMarkdownKeepsLines | GeoSolveAI/app.py:879-916 | no content is lost: the result is empty exactly when no cleaned line has content; otherwise its lines are exactly the squeezed cleaned lines from the first to the last content line, so a blank run between two content lines stays as one empty line, and only the first line is also stripped on the left by the final `strip()` |
| Solve.Payload | GeoSolveAI/app.py:422-490 | the text handed to a branch consists only of characters of the query and has no outer whitespace; a query holding none of the branch's keywords is handed on only stripped |
| Solve.RemoveWordsLeading | GeoSolveAI/app.py:423-489 | a query that is one keyword followed by keyword-free text, with no earlier keyword in it, loses exactly that keyword |
| Solve.PayloadAfterKeyword | GeoSolveAI/app.py:423-489 | such a query is handed on as the remainder after the keyword, stripped |
| Solve.PayloadExample | GeoSolveAI/app.py:423 | "solve x + 1 = 3" hands "x + 1 = 3" to the equation solver |
| Solve.Search | GeoSolveAI/app.py:510 | `re.search` finds the leftmost position where the trig pattern matches, and nothing when it matches nowhere |
| Solve.AngleAt | GeoSolveAI/app.py:510-512 | group 1 is a slice of the query at the first digit: digits with at most one `.`, starting and ending in a digit |
| Solve.FindAngle | GeoSolveAI/app.py:510-512 | an angle is found exactly when the pattern matches somewhere |
| Solve.TrigLoop | GeoSolveAI/app.py:509-516 | the trig branch answers for a function that both matches and is answered, and leaves the result untyped exactly when no function in sin, cos, tan order is both |
| Solve.RouteQuery | GeoSolveAI/app.py:422-571 | a trimmed non-empty query is never refused as missing |
| Solve.ErrorOf | GeoSolveAI/app.py:408-409 | exactly the missing-query route stops with a 400 |
| Solve.DispatchBlank | GeoSolveAI/app.py:406-409 | the query is refused with "No query provided" exactly when it is blank after stripping |
| Solve.RouteBranch | GeoSolveAI/app.py:422-519 | the route produced belongs to the branch the if/elif chain takes |
| Solve.TakenBranchIsFirstFiring | GeoSolveAI/app.py:422-519 | the branch taken is the first, in the order solve/`=`, integrate/`∫`, differentiate, factor, sin/cos/tan, simplify, whose keyword test holds |
| Solve.TrigBranchOutcome | GeoSolveAI/app.py:507-516 | in the trig branch the result stays untyped (falling through to line 573) exactly when no function both matches and is answered |
| Solve.SplitEquation | GeoSolveAI/app.py:428-434 | text without `=` is solved whole; with one `=` it is exactly lhs + "=" + rhs with no `=` in either side; the unpacking fails only when there are two `=` |
| Solve.SinExample | GeoSolveAI/app.py:510 | in "sin45" the angle is "45" |
| Solve.CosExample | GeoSolveAI/app.py:510 | in "cos(30.5)" the angle is "30.5" |
| Solve.DistanceReachesTrig | GeoSolveAI/app.py:422-507 | "distance" fails every earlier keyword test and reaches the trig branch because it holds "tan" |
| Solve.DistanceExample | GeoSolveAI/app.py:507-516 | "distance" comes back untyped whatever `handle_trig_constant` does |
| Geometry.StrictTriangleIffLongest | GeoSolveAI/app.py:754 | the three-inequality test holds exactly when all sides are positive and the longest is shorter than the other two together |
| Geometry.TriangleOf | GeoSolveAI/app.py:750-801 | with sides as exact reals, a triangle is drawn exactly when there are at least three parts, the first three parse, and the strict triangle inequality holds; fewer than three parts is refused for arity, an unparsable side is a 500, and the perimeter is the sum of the sides |
| Geometry.CircleOf | GeoSolveAI/app.py:804-841 | with the radius as an exact real, a circle is drawn exactly when there is a part and it parses, with that radius; no part is refused, an unparsable radius is a 500 |
| Geometry.RouteCommand | GeoSolveAI/app.py:749-843 | "triangle" is checked before "circle": a command holding "triangle" is handled as a triangle, one holding "circle" but not "triangle" as a circle, and the command is refused as unknown exactly when it holds neither |
| Geometry.AcceptedTriangleIsProper | GeoSolveAI/app.py:754-756 | an accepted triangle has positive sides and a positive Heron radicand |
| Geometry.HeronPositive | GeoSolveAI/app.py:755-756 | sides satisfying the strict triangle inequality give s(s-a)(s-b)(s-c) > 0 |
| Geometry.TriangleUsesFirstThree | GeoSolveAI/app.py:751-752 | parts beyond the third do not change the outcome |
| Geometry.NegativeRadiusAccepted | GeoSolveAI/app.py:805-806 | a negative radius is drawn: the radius has no sign check |
| Register.Register | GeoSolveAI/app.py:160-191 | an accepted registration stores the stripped name, the stripped email and the hash of the stripped password under the stripped email |
| Register.RegisterAcceptsExactly | GeoSolveAI/app.py:160-194 | the account is created exactly when every field has a non-space character, the stripped password has at least 8 characters, the email holds `@`, and the stripped email is not registered |
| Register.RegisterAddsOne | GeoSolveAI/app.py:181-191 | an accepted registration adds exactly one key, the stripped email, which was free before, and keeps every other row |
| Register.RegisterRefusalOrder | GeoSolveAI/app.py:165-172 | each refusal happens exactly when its own check fails and all earlier ones passed: missing field for a blank field; short password for filled fields and a stripped password under 8; invalid email for those passed and no `@`; taken email for all those passed and the stripped email registered |
| Register.SecondRegistrationRefused | GeoSolveAI/app.py:36 | a second registration with the same email, however padded, is refused with 409 because the email column is UNIQUE |
| QuizScore.ParseIntOfString | GeoSolveAI/app.py:1196 | `int` reads back the decimal text of every integer |
| QuizScore.PointsCountsEarners | GeoSolveAI/app.py:1193-1200 | the score is the number of responses whose id parses, belongs to the quiz, and whose answer equals the stored one |
| QuizScore.ScoreResponses | GeoSolveAI/app.py:1193-1203 | the loop scores exactly when every id parses, with score = count of earning responses and total = number of responses; otherwise it refuses with the first unparsable id |
| QuizScore.SubmitQuiz | GeoSolveAI/app.py:1172-1214 | each refusal (missing field, no answers, unknown quiz, invalid id) happens exactly under its condition, checked in that order; a scored submission has 0 <= score <= responses and total_questions = number of responses |
| Seating.SeatIdInjective | GeoSolveAI/client/src/components/SeatingArrangement.jsx:17 | different (row, seat) pairs get different `r-s` ids |
| Seating.GridMembers | GeoSolveAI/client/src/components/SeatingArrangement.jsx:15-18 | the grid holds exactly the ids `r-s` with 1 <= r <= rows and 1 <= s <= seatsPerRow |
| Seating.GridDistinct | GeoSolveAI/client/src/components/SeatingArrangement.jsx:15-18 | no id is generated twice |
| Seating.GenerateSeatMap | GeoSolveAI/client/src/components/SeatingArrangement.jsx:13-21 | the nested loops build a map whose keys are exactly the grid ids, all free |
| Seating.GridSize | GeoSolveAI/client/src/components/SeatingArrangement.jsx:15-18 | the grid has rows x seatsPerRow distinct ids (no rounds for a non-positive bound) |
| Seating.Generate | GeoSolveAI/client/src/components/SeatingArrangement.jsx:13-24 | the new hall has exactly rows x seatsPerRow free seats, an empty selection and no allocations, and is valid |
| Seating.Toggle | GeoSolveAI/client/src/components/SeatingArrangement.jsx:26-34 | the seat's membership flips, no other seat's changes, and the selection stays without repeats |
| Seating.ToggleTwice | GeoSolveAI/client/src/components/SeatingArrangement.jsx:26-34 | toggling twice restores the selection's members, and the exact list when the seat was not selected |
| Seating.Click | GeoSolveAI/client/src/components/SeatingArrangement.jsx:133-141 | only a drawn, unallocated seat toggles; any other click changes nothing |
| Seating.MarkAll | GeoSolveAI/client/src/components/SeatingArrangement.jsx:190-193 | exactly the selected seats become true and every other entry keeps its value |
| Seating.AllocateGuards | GeoSolveAI/client/src/components/SeatingArrangement.jsx:170-181 | blank exam name, blank roll number and empty selection alert in that order and leave the hall unchanged |
| Seating.AllocateEffect | GeoSolveAI/client/src/components/SeatingArrangement.jsx:182-198 | a successful allocation appends one allocation named `<exam> - Roll: <roll>` holding the selected seats in ascending string order; it marks exactly those seats, keeps every other map entry, and clears the selection, exam name and roll number |
| Seating.FirstHolding | GeoSolveAI/client/src/components/SeatingArrangement.jsx:107-111 | finds the first allocation containing the seat, or reports that none does |
| Seating.SeatColorOfOwner | GeoSolveAI/client/src/components/SeatingArrangement.jsx:106-111 | in a valid hall an allocated seat shows the colour of the allocation that holds it |
| Seating.SeatColorUnallocated | GeoSolveAI/client/src/components/SeatingArrangement.jsx:112-113 | an unallocated seat is `#ffd700` when selected and `#e0e0e0` otherwise |
| Seating.ClearAll | GeoSolveAI/client/src/components/SeatingArrangement.jsx:37-43 | clearing returns to the setup screen with no allocations, selection, exam name or roll number |
| Seating.ChangeSetup | GeoSolveAI/client/src/components/SeatingArrangement.jsx:222 | Change Setup returns to the setup screen and changes nothing but the seat map |
| Seating.Report | GeoSolveAI/client/src/components/SeatingArrangement.jsx:45-56 | a report exists exactly when there is an allocation |
| Seating.ReportBlocksHoldEach | GeoSolveAI/client/src/components/SeatingArrangement.jsx:53-56 | the report holds, for every allocation, its block numbered by its 1-based position with its seats joined by ", " |
| Seating.InitialValid | GeoSolveAI/client/src/components/SeatingArrangement.jsx:5-11 | the initial state is valid |
| Seating.ClickKeepsValid | GeoSolveAI/client/src/components/SeatingArrangement.jsx:134-141 | a click keeps the hall valid: an allocated seat can never be selected |
| Seating.AllocateKeepsValid | GeoSolveAI/client/src/components/SeatingArrangement.jsx:182-196 | allocating from the hall keeps it valid: the new allocation is disjoint from the earlier ones and has no repeated seat |
| Seating.ValidAfterAllocation | GeoSolveAI/client/src/components/SeatingArrangement.jsx:182-196 | any step that moves the selection into a new allocation and marks it keeps the hall valid |
| Seating.ResetsKeepValid | GeoSolveAI/client/src/components/SeatingArrangement.jsx:37-43 | Clear All and Change Setup keep the hall valid |
| QuizCreate.AddQuestionSpec | GeoSolveAI/client/src/components/QuizCreate.jsx:36-56 | a blank question or option only sets "All fields required"; otherwise exactly one untrimmed question is appended, the draft is emptied with answer a, and the error cleared |
| QuizCreate.WithoutSpec | GeoSolveAI/client/src/components/QuizCreate.jsx:58-60 | removing index i drops exactly that question and keeps the rest in order; an out-of-range index changes nothing |
| QuizCreate.AddThenRemove | GeoSolveAI/client/src/components/QuizCreate.jsx:42-60 | removing the question just added restores the list |
| QuizCreate.SubmitSpec | GeoSolveAI/client/src/components/QuizCreate.jsx:62-99 | a request is sent exactly when the title is non-blank and a question exists, and carries title, description and questions; ok clears them; a failure keeps the questions and sets "Failed to create quiz" or the thrown message |
| Community.InitialIds | GeoSolveAI/client/src/components/Community.js:5-10 | the seed messages have ids 1..4 in order |
| Community.Avatar | GeoSolveAI/client/src/components/Community.js:39-40 | the avatar is the upper-cased initial of the author shown with the message, "You" for a missing name, although the source spells its fallback "Y" separately |
| Community.SendSpec | GeoSolveAI/client/src/components/Community.js:32-48 | a blank message changes nothing; otherwise one untrimmed message is appended under id length+1, with no reactions, author name-or-"You", that author's avatar and the given time, the earlier messages are kept, and the input is cleared |
| Community.SendKeepsIds | GeoSolveAI/client/src/components/Community.js:35-38 | sending keeps message ids equal to positions 1..n |
| Community.BumpSpec | GeoSolveAI/client/src/components/Community.js:53-58 | a reaction adds exactly one to that emoji's tally and keeps every other emoji's count |
| Community.React | GeoSolveAI/client/src/components/Community.js:50-63 | every message with the given id gets the emoji counted; every other message is unchanged |
| Community.ReactSpec | GeoSolveAI/client/src/components/Community.js:50-63 | with ids 1..n, a reaction touches only message id, by one on that emoji; an unknown id changes nothing |
| Community.InitialDocumentIds | GeoSolveAI/client/src/components/Community.js:12-16 | the three seed documents have distinct ids within 1..3 |
| Community.UploadSpec | GeoSolveAI/client/src/components/Community.js:65-82 | with no file name nothing happens; otherwise one document by the user, with no downloads, size "1.5 MB" and date "Just now", is prepended under id length+1, the rest follow unchanged, and the file name is cleared |
| Community.UploadKeepsIds | GeoSolveAI/client/src/components/Community.js:65-77 | uploading keeps document ids distinct and within 1..length, because the new id is one past every id in use |
| Community.KeepSpec | GeoSolveAI/client/src/components/Community.js:88-90 | the filter keeps exactly the messages whose text or author contains the query ignoring case, as many as match |
| Community.KeepConcat | GeoSolveAI/client/src/components/Community.js:88-90 | filtering two runs of messages one after the other gives the first run's matches followed by the second's, so the filter keeps the feed's order |
| Community.KeepOne | GeoSolveAI/client/src/components/Community.js:88-90 | a single message is kept exactly when it matches; with the concatenation lemma this fixes the filtered list for every feed |
| Community.SearchSpec | GeoSolveAI/client/src/components/Community.js:88-90 | an empty search shows every message; otherwise exactly the matching ones |
| Community.SearchConcat | GeoSolveAI/client/src/components/Community.js:88-90 | the shown list of two runs of messages is the first run's followed by the second's, for the empty search as for any other |
| Device.TabletAgentIsMobile | GeoSolveAI/client/src/hooks/useDeviceDetection.js:28-29 | a tablet user agent always matches the mobile pattern too, so only the separate non-tablet test keeps the override of line 61 off tablet agents |
| Device.Detect | GeoSolveAI/client/src/hooks/useDeviceDetection.js:21-24 | portrait and landscape are never both set, and both are clear for a square window |
| Device.DetectKind | GeoSolveAI/client/src/hooks/useDeviceDetection.js:36-65 | mobile exactly for width <= 480 or under the UA override; tablet for 480-768, or 768-1024 with a tablet agent, without the override; desktop otherwise; `isMobile` and `isDesktop` agree with the kind |
| Device.MobileAndTablet | GeoSolveAI/client/src/hooks/useDeviceDetection.js:41-65 | for 600 < width <= 768 with a mobile, non-tablet agent both `isMobile` and `isTablet` are set |
| Device.MobileAndTabletExample | GeoSolveAI/client/src/hooks/useDeviceDetection.js:41-65 | an iPhone agent on a 700 x 900 window is reported both mobile and tablet |
| Device.DetectExclusive | GeoSolveAI/client/src/hooks/useDeviceDetection.js:61-65 | with the override also clearing `isTablet`, each flag holds exactly for its kind |
| Device.DetectExclusiveOneFlag | GeoSolveAI/client/src/hooks/useDeviceDetection.js:31-65 | the corrected detection sets exactly one of the three flags |

## Left out

- The regex rewrites of `clean_expression` (GeoSolveAI/app.py:118-131) are the parameter `rewrite`. They depend on Python's `\b` and on match offsets computed before earlier splices.
- sympy parsing, solving and simplification, `eval`, and matplotlib are outside the model. So are `handle_trig_constant` (GeoSolveAI/app.py:331-400) and `/api/plot`. The trig helper is the parameter `answers`; the symbolic branches end in a `Route` naming the text they would hand to sympy.
- Solve.RouteQuery: the 400 messages sympy failures produce (for example "Error solving equation: …") are not modelled, except the failed `lhs, rhs` unpacking. Neither are the `steps` lists.
- Geometry.TriangleOf: floating-point area, angles, rounding and the plot (GeoSolveAI/app.py:755-797, 808-839) are left out. Sides are exact reals, so NaN and infinities that `float` accepts cannot be represented. `float` itself is the parameter `toFloat`.
- Geometry.TriangleOf: "drawn exactly when the inequality holds" is a statement about exact reals. Floating-point addition absorbs small sides: "triangle 1 1e17 1e17" passes the exact test but is refused with 400 at GeoSolveAI/app.py:754, because 1 + 1e17 == 1e17 in floating point. With huge sides such as "triangle 1e200 1e200 1e200" the Heron product becomes infinite, and `b**2` at GeoSolveAI/app.py:759 raises OverflowError. The request ends in the 500 of GeoSolveAI/app.py:847-848 instead of a drawing.
- Geometry.CircleOf: floating-point overflow is not modelled. "circle 1e200" raises OverflowError in `radius ** 2` (GeoSolveAI/app.py:808) and ends in the 500 of GeoSolveAI/app.py:847-848, while the model draws it.
- Register.Register: SHA-256 is the parameter `hash`. Database errors other than the UNIQUE violation (the 500 path) are not modelled.
- The second `/api/register` route (GeoSolveAI/app.py:267-296) is not modelled. It is a duplicate URL and the first definition is the one modelled.
- QuizScore.ParseInt: Python `int` also accepts `_` between digits and non-ASCII decimal digits; the model accepts ASCII digits only. Since CPython 3.11, `int` also refuses strings of more than 4300 digits with ValueError; the model parses any length, so such an id is not reported as "Invalid question ID".
- QuizScore.SubmitQuiz: storing the submission row, the submission id and the 500 path for database errors are left out. In particular an id whose value lies outside the signed 64-bit range, such as any 20-digit id, parses, but binding it to the query at GeoSolveAI/app.py:1197 raises OverflowError. The inner `except` does not catch that, so the request ends in the 500 of GeoSolveAI/app.py:1215. The model looks such an id up like any other.
- Solve.SplitEquation: the 400 text `TooManySidesError` is the unpacking message of Python up to 3.12. Python 3.13 appends the count found, as in "(expected 2, got 3)".
- Character classes are ASCII-only: `isdigit`, `isalpha`, `lower` and `toUpperCase`/`toLowerCase` leave non-ASCII characters unchanged. Python whitespace is the full `str.isspace` set and JavaScript's is the `trim` set.
- Seating: the random `hsl` colour is a parameter. Alerts are returned as text. The text-field and dimension inputs of the setup screen are plain field updates with no handler of their own. The DOM download plumbing of the report is left out.
- Seating.AllocateKeepsValid: assumes the allocate button is pressed on the hall screen, the only place it is drawn.
- QuizCreate: these are left out:
  - the `sessionStorage` mirror of the question list;
  - the timer that clears the success notice;
  - the `onQuizCreated` callback;
  - the `loading` flag's value while the request is in flight;
  - the admin-key header.
- Community: these are left out:
  - the clock, which is the parameter `now`;
  - scrolling and tab switching;
  - the download alert;
  - the distinction between a `user` object and a name string, reduced to a name that is empty when missing. A `null` user is not modelled: `typeof null` is `'object'`, so `user.name` throws at Community.js:34 and :71;
  - UTF-16: the avatar letter is `charAt(0)`, one UTF-16 code unit, while the model takes the first `char` of the name. The two differ for names starting outside the Basic Multilingual Plane.
- Device: the initial state before mount (useDeviceDetection.js:8-17) and the resize and orientation listeners are left out. The user-agent regexes are alternations of literal words, so they are modelled exactly as substring tests on the lower-cased agent.
- `History.js`, `MathTab.js` and `AITutor.js` are not part of this model: they hold no logic beyond calls to the server and alerts.
- The diagram renderer is not part of this model. Its source is not among the repository files.

## Findings

| source | as written | input that shows it | evidently intended | confidence | as-written member | corrected member |
|---|---|---|---|---|---|---|
| GeoSolveAI/client/src/hooks/useDeviceDetection.js:41-44, 61-65 | the user-agent override sets `device = 'mobile'` and `isMobile` but leaves `isTablet` as the width rule set it | width 700, height 900, agent "iPhone": device mobile, `isMobile` and `isTablet` both true | the override clears `isTablet` too, so the three flags describe the one kind returned, as the single `device` value and the flag names suggest | medium, not executed | Device.MobileAndTablet | Device.DetectExclusive |

=== FILE: collections.dfy ===
/**
 * Counting and searching over sequences, stated once for any predicate so
 * that the handlers' own predicates stay folded while these are reasoned
 * about.
 */
module Collections {
  import opened Text

  /** How many elements satisfy `P`. */
  function Count<T>(xs: seq<T>, P: T -> bool): (n: nat)
    ensures n <= |xs|
  {
    if |xs| == 0 then 0
    else Count(xs[..|xs| - 1], P) + (if P(xs[|xs| - 1]) then 1 else 0)
  }

  /** The positions whose element satisfies `P`. */
  function Positions<T>(xs: seq<T>, P: T -> bool): (s: set<nat>)
    ensures forall i: nat :: i in s <==> i < |xs| && P(xs[i])
  {
    set i: nat | i < |xs| && P(xs[i])
  }

  /** The count is the number of positions whose element satisfies `P`. */
  lemma {:induction false} CountIsCardinality<T>(xs: seq<T>, P: T -> bool)
    ensures Count(xs, P) == |Positions(xs, P)|
  {
    if |xs| > 0 {
      var front := xs[..|xs| - 1];
      CountIsCardinality(front, P);
      var before := Positions(front, P);
      var all := Positions(xs, P);
      assert forall i :: 0 <= i < |front| ==> front[i] == xs[i];
      if P(xs[|xs| - 1]) {
        assert all == before + {|xs| - 1};
      } else {
        assert all == before;
      }
    }
  }

  /** The first position whose element fails `P`, if any. */
  function FirstFailing<T>(xs: seq<T>, P: T -> bool): (r: Option<nat>)
    ensures r.Some? ==> r.value < |xs| && !P(xs[r.value])
    ensures r.Some? ==> forall i :: 0 <= i < r.value ==> P(xs[i])
    ensures r.None? ==> forall i :: 0 <= i < |xs| ==> P(xs[i])
  {
    if |xs| == 0 then None
    else if !P(xs[0]) then Some(0)
    else
      var rest := FirstFailing(xs[1..], P);
      assert forall i :: 1 <= i < |xs| ==> xs[i] == xs[1..][i - 1];
      if rest.None? then None else Some(rest.value + 1)
  }

  /** No element occurs twice: a JavaScript `Set` read as a list. */
  predicate Distinct<T(==)>(xs: seq<T>) {
    forall i, j :: 0 <= i < j < |xs| ==> xs[i] != xs[j]
  }

  function Elements<T(==,!new)>(xs: seq<T>): (s: set<T>)
    ensures forall x :: x in s <==> x in xs
  {
    set x | x in xs
  }

  /** A list without repeats has as many distinct elements as entries. */
  lemma {:induction false} DistinctCardinality<T(!new)>(xs: seq<T>)
    requires Distinct(xs)
    ensures |Elements(xs)| == |xs|
  {
    if |xs| > 0 {
      var front := xs[..|xs| - 1];
      DistinctCardinality(front);
      assert Elements(xs) == Elements(front) + {xs[|xs| - 1]};
      assert xs[|xs| - 1] !in Elements(front);
    }
  }
}

=== FILE: community.dfy ===
/**
 * The community chat and document board
 * (GeoSolveAI/client/src/components/Community.js). Messages and documents are
 * lists held in component state; the signed-in user's name, the clock's
 * time-of-day string and the form fields are parameters. An empty name
 * stands for a missing (falsy) one.
 */
module Community {
  import opened Text
  import opened Collections

  datatype Message = Message(
    id: int,
    author: string,
    avatar: string,
    text: string,
    timestamp: string,
    reactions: map<string, nat>)

  datatype Document = Document(
    id: int,
    name: string,
    uploader: string,
    downloads: nat,
    size: string,
    date: string,
    subject: string)

  const ThumbsUp: string := "\U{1F44D}"
  const Heart: string := "\U{2764}\U{FE0F}"
  const Fire: string := "\U{1F525}"

  /** The four messages the chat starts with. */
  const InitialMessages: seq<Message> := [
    Message(1, "Priya Sharma", "P", "Hey everyone! Who wants to discuss integration problems?",
            "10:30 AM", map[ThumbsUp := 5, Heart := 2]),
    Message(2, "Arjun Patel", "A", "I'm stuck on u-substitution. Can anyone help?",
            "10:32 AM", map[ThumbsUp := 3]),
    Message(3, "Admin", "A", "Check the pinned resource on calculus shortcuts!",
            "10:35 AM", map[ThumbsUp := 8, Fire := 4]),
    Message(4, "New User ", "V", "Thanks! That really helped. The shortcut trick was amazing \U{1F64C}",
            "10:00 AM", map[Heart := 96])
  ]

  /** Message ids are their positions counted from 1. */
  predicate IdsArePositions(msgs: seq<Message>) {
    forall i :: 0 <= i < |msgs| ==> msgs[i].id == i + 1
  }

  /** The three documents the board starts with. */
  const InitialDocuments: seq<Document> := [
    Document(1, "Calculus_Notes.pdf", "Vedant Kumar", 124, "2.4 MB", "3 days ago", "Calculus"),
    Document(2, "Geometry_Shortcuts.pdf", "Priya Sharma", 89, "1.8 MB", "1 week ago", "Geometry"),
    Document(3, "Algebra_Formulas.pdf", "Admin", 256, "3.2 MB", "2 weeks ago", "Algebra")
  ]

  /** Document ids are distinct and lie in 1..|docs|, so they number the
      documents once each, in whatever order. */
  predicate DocIdsValid(docs: seq<Document>) {
    && (forall i :: 0 <= i < |docs| ==> 1 <= docs[i].id <= |docs|)
    && (forall i, j :: 0 <= i < j < |docs| ==> docs[i].id != docs[j].id)
  }

  lemma InitialIds()
    ensures IdsArePositions(InitialMessages)
  {
  }

  lemma InitialDocumentIds()
    ensures DocIdsValid(InitialDocuments)
  {
  }

  // ---------------------------------------------------------------------
  // Sending

  /** The author shown for `userName`. */
  function Author(userName: string): string {
    if userName == "" then "You" else userName
  }

  /** The avatar letter. The source falls back to "Y" rather than to the
      author "You", but the two agree on their first letter, so the avatar is
      always the upper-cased initial of the author shown next to it. */
  function Avatar(userName: string): (r: string)
    ensures r == [UpperChar(Author(userName)[0])]
  {
    var n := if userName == "" then "Y" else userName;
    [UpperChar(n[0])]
  }

  /** `handleSendMessage`: the new message list and the new input text. */
  function Send(msgs: seq<Message>, draft: string, userName: string, now: string): (r: (seq<Message>, string))
  {
    if |JsTrim(draft)| > 0 then
      (msgs + [Message(|msgs| + 1, Author(userName), Avatar(userName), draft, now, map[])], "")
    else (msgs, draft)
  }

  /** A blank draft changes nothing; any other is appended untrimmed, with no
      reactions, under the next id and with the author's avatar, and the input
      is cleared. */
  lemma SendSpec(msgs: seq<Message>, draft: string, userName: string, now: string)
    ensures Blank(draft, IsJsSpace) ==> Send(msgs, draft, userName, now) == (msgs, draft)
    ensures !Blank(draft, IsJsSpace) ==>
      var r := Send(msgs, draft, userName, now);
      && r.1 == ""
      && |r.0| == |msgs| + 1 && r.0[..|msgs|] == msgs
      && r.0[|msgs|].text == draft && r.0[|msgs|].reactions == map[]
      && r.0[|msgs|].author == (if userName == "" then "You" else userName)
      && r.0[|msgs|].timestamp == now
      && r.0[|msgs|].id == |msgs| + 1
      && r.0[|msgs|].avatar == Avatar(userName)
  {
    var r := Send(msgs, draft, userName, now);
    if !Blank(draft, IsJsSpace) {
      assert r.0[..|msgs|] == msgs;
    }
  }

  /** Sending keeps ids equal to positions, so the new id is never one
      already in use. */
  lemma SendKeepsIds(msgs: seq<Message>, draft: string, userName: string, now: string)
    requires IdsArePositions(msgs)
    ensures IdsArePositions(Send(msgs, draft, userName, now).0)
  {
  }

  // ---------------------------------------------------------------------
  // Reactions

  /** The reaction counts after one more `emoji`: a missing or zero count
      becomes 1, any other goes up by one. */
  function Bump(reactions: map<string, nat>, emoji: string): (r: map<string, nat>)
  {
    if emoji in reactions && reactions[emoji] != 0 then reactions[emoji := reactions[emoji] + 1]
    else reactions[emoji := 1]
  }

  /** The count a reaction shows, zero when absent. */
  function Tally(reactions: map<string, nat>, emoji: string): nat {
    if emoji in reactions then reactions[emoji] else 0
  }

  /** Bumping adds exactly one to that emoji's tally and leaves every other
      emoji's count as it was. */
  lemma BumpSpec(reactions: map<string, nat>, emoji: string)
    ensures Tally(Bump(reactions, emoji), emoji) == Tally(reactions, emoji) + 1
    ensures OthersKept(reactions, Bump(reactions, emoji), emoji)
  {
  }

  /** `after` has the keys of `before` plus `emoji`, and every other count is
      unchanged. */
  predicate OthersKept(before: map<string, nat>, after: map<string, nat>, emoji: string) {
    && after.Keys == before.Keys + {emoji}
    && forall e :: e in before && e != emoji ==> after[e] == before[e]
  }

  /** `handleReaction`: every message with the given id gets the emoji. */
  function React(msgs: seq<Message>, id: int, emoji: string): (r: seq<Message>)
    ensures |r| == |msgs|
    ensures forall i :: 0 <= i < |msgs| ==>
      r[i] == (if msgs[i].id == id then msgs[i].(reactions := Bump(msgs[i].reactions, emoji)) else msgs[i])
  {
    if |msgs| == 0 then []
    else
      var m := msgs[|msgs| - 1];
      React(msgs[..|msgs| - 1], id, emoji)
        + [if m.id == id then m.(reactions := Bump(m.reactions, emoji)) else m]
  }

  /** With ids equal to positions, a reaction touches exactly the message at
      position id - 1 and only its `emoji` tally, by one; an unknown id
      changes nothing. */
  lemma ReactSpec(msgs: seq<Message>, id: int, emoji: string)
    requires IdsArePositions(msgs)
    ensures IdsArePositions(React(msgs, id, emoji))
    ensures !(1 <= id <= |msgs|) ==> React(msgs, id, emoji) == msgs
    ensures 1 <= id <= |msgs| ==>
      var r := React(msgs, id, emoji);
      && (forall i :: 0 <= i < |msgs| && i != id - 1 ==> r[i] == msgs[i])
      && r[id - 1] == msgs[id - 1].(reactions := r[id - 1].reactions)
      && Tally(r[id - 1].reactions, emoji) == Tally(msgs[id - 1].reactions, emoji) + 1
      && OthersKept(msgs[id - 1].reactions, r[id - 1].reactions, emoji)
  {
    var r := React(msgs, id, emoji);
    if 1 <= id <= |msgs| {
      BumpSpec(msgs[id - 1].reactions, emoji);
    } else {
      assert forall i :: 0 <= i < |msgs| ==> r[i] == msgs[i];
    }
  }

  // ---------------------------------------------------------------------
  // Documents

  const UploadNotice: string := "Document uploaded successfully!"

  /** `handleUploadDocument`: the new list, the new file-name field, and the
      alert shown. `file` is `None` before anything was typed. */
  function Upload(docs: seq<Document>, file: Option<string>, userName: string, subject: string)
    : (r: (seq<Document>, Option<string>, Option<string>))
  {
    if file.Some? && file.value != "" then
      ([Document(|docs| + 1, file.value, userName, 0, "1.5 MB", "Just now", subject)] + docs, None, Some(UploadNotice))
    else (docs, file, None)
  }

  /** Without a file name nothing happens; otherwise the document goes to the
      front under id length + 1, by the user, with no downloads and the fixed
      size and date, the rest follow unchanged, and the field is cleared. */
  lemma UploadSpec(docs: seq<Document>, file: Option<string>, userName: string, subject: string)
    ensures (file.None? || file.value == "") ==> Upload(docs, file, userName, subject) == (docs, file, None)
    ensures file.Some? && file.value != "" ==>
      var r := Upload(docs, file, userName, subject);
      && |r.0| == |docs| + 1 && r.0[1..] == docs
      && r.0[0].id == |docs| + 1 && r.0[0].name == file.value && r.0[0].uploader == userName
      && r.0[0].downloads == 0 && r.0[0].size == "1.5 MB" && r.0[0].date == "Just now"
      && r.0[0].subject == subject
      && r.1.None? && r.2 == Some(UploadNotice)
  {
  }

  /** Uploading keeps the ids distinct and within 1..length: the new id is
      one past every id in use. */
  lemma UploadKeepsIds(docs: seq<Document>, file: Option<string>, userName: string, subject: string)
    requires DocIdsValid(docs)
    ensures DocIdsValid(Upload(docs, file, userName, subject).0)
  {
    var r := Upload(docs, file, userName, subject);
    if file.Some? && file.value != "" {
      assert forall i :: 1 <= i < |r.0| ==> r.0[i] == docs[i - 1];
    }
  }

  // ---------------------------------------------------------------------
  // Search

  /** The message's text or author contains the query, ignoring case. */
  predicate Matches(m: Message, query: string) {
    Contains(Lower(m.text), Lower(query)) || Contains(Lower(m.author), Lower(query))
  }

  /** The messages kept by `filter`, in order. */
  function Keep(msgs: seq<Message>, query: string): seq<Message> {
    if |msgs| == 0 then []
    else
      var m := msgs[|msgs| - 1];
      Keep(msgs[..|msgs| - 1], query) + (if Matches(m, query) then [m] else [])
  }

  /** `filteredMessages`: an empty query shows every message. */
  function Search(msgs: seq<Message>, query: string): seq<Message> {
    if query == "" then msgs else Keep(msgs, query)
  }

  /** The kept messages are exactly those that match, each once for each
      time it occurs, so their number is the count of matching positions. */
  lemma {:induction false} KeepSpec(msgs: seq<Message>, query: string)
    ensures forall m :: m in Keep(msgs, query) <==> m in msgs && Matches(m, query)
    ensures |Keep(msgs, query)| == Count(msgs, m => Matches(m, query))
  {
    if |msgs| > 0 {
      var front := msgs[..|msgs| - 1];
      KeepSpec(front, query);
      assert msgs == front + [msgs[|msgs| - 1]];
    }
  }

  /** The filter reads the messages one at a time and keeps chat order:
      filtering a concatenation is filtering each part. With `KeepOne` this
      fixes the result on every list. */
  lemma {:induction false} KeepConcat(a: seq<Message>, b: seq<Message>, query: string)
    ensures Keep(a + b, query) == Keep(a, query) + Keep(b, query)
    decreases |b|
  {
    if |b| == 0 {
      assert a + b == a;
    } else {
      var front, last := b[..|b| - 1], b[|b| - 1];
      var more := if Matches(last, query) then [last] else [];
      assert (a + b)[..|a + b| - 1] == a + front && (a + b)[|a + b| - 1] == last;
      KeepConcat(a, front, query);
      assert Keep(a + b, query) == (Keep(a, query) + Keep(front, query)) + more;
      assert Keep(b, query) == Keep(front, query) + more;
    }
  }

  /** One message is kept exactly when it matches. */
  lemma KeepOne(m: Message, query: string)
    ensures Keep([m], query) == if Matches(m, query) then [m] else []
  {
    assert [m][..0] == [];
  }

  /** The shown list of a concatenation is the shown lists of the parts, in
      order, whatever the query. */
  lemma SearchConcat(a: seq<Message>, b: seq<Message>, query: string)
    ensures Search(a + b, query) == Search(a, query) + Search(b, query)
  {
    if query != "" {
      KeepConcat(a, b, query);
    }
  }

  /** Every message contains the empty string, so a non-empty search for ""
      and no search agree; any query shows a subset of the messages. */
  lemma SearchSpec(msgs: seq<Message>, query: string)
    ensures query == "" ==> Search(msgs, query) == msgs
    ensures forall m :: m in Search(msgs, query) <==> m in msgs && (query == "" || Matches(m, query))
  {
    KeepSpec(msgs, query);
  }
}

=== FILE: device.dfy ===
/**
 * The device-detection hook (GeoSolveAI/client/src/hooks/useDeviceDetection.js).
 * One detection reads the window's inner width and height and the browser's
 * user-agent string; the resize and orientation listeners only repeat it.
 */
module Device {
  import opened Text

  datatype Kind = Mobile | Tablet | Desktop

  datatype Detection = Detection(
    device: Kind,
    isMobile: bool,
    isTablet: bool,
    isDesktop: bool,
    width: int,
    height: int,
    isPortrait: bool,
    isLandscape: bool)

  /** The alternatives of the mobile user-agent pattern. */
  const MobileWords: seq<string> :=
    ["android", "webos", "iphone", "ipad", "ipod", "blackberry", "iemobile", "opera mini"]

  /** The lower-cased user agent names a phone or tablet platform. */
  predicate MobileAgent(ua: string) {
    exists i :: 0 <= i < |MobileWords| && Contains(Lower(ua), MobileWords[i])
  }

  /** The lower-cased user agent names an iPad or Android without "mobile". */
  predicate TabletAgent(ua: string) {
    var l := Lower(ua);
    (Contains(l, "ipad") || Contains(l, "android")) && !Contains(l, "mobile")
  }

  /** Both tablet platforms are among the mobile ones, so a tablet agent is
      always a mobile agent too. This is why the override below needs its own
      `!tabletUA` test: the mobile pattern alone would also fire for every
      tablet agent, and it is that test, not the pattern, that keeps the
      override off a tablet agent. The proof only names the matching word. */
  lemma TabletAgentIsMobile(ua: string)
    ensures TabletAgent(ua) ==> MobileAgent(ua)
  {
    if TabletAgent(ua) {
      if Contains(Lower(ua), "ipad") {
        assert MobileWords[3] == "ipad";
      } else {
        assert MobileWords[0] == "android";
      }
    }
  }

  const PhoneMax: int := 480
  const TabletMax: int := 768
  const LaptopMax: int := 1024
  const AgentMin: int := 600

  /** `detectDevice`, as written: the width decides first, then a mobile
      non-tablet agent on a screen wider than 600 pixels overrides the kind
      and sets `isMobile`, without clearing `isTablet`. */
  function Detect(width: int, height: int, ua: string): (r: Detection)
    ensures !(r.isPortrait && r.isLandscape)
    ensures r.isPortrait <==> height > width
    ensures r.isLandscape <==> width > height
    ensures r.width == width && r.height == height
  {
    var isPortrait := height > width;
    var isLandscape := width > height;
    var mobileUA := MobileAgent(ua);
    var tabletUA := TabletAgent(ua);
    var (device, isMobile, isTablet, isDesktop) :=
      if width <= PhoneMax then (Mobile, true, false, false)
      else if width > PhoneMax && width <= TabletMax then (Tablet, false, true, false)
      else if width > TabletMax && width <= LaptopMax then
        (if tabletUA || (isPortrait && width < AgentMin) then (Tablet, false, true, false)
         else (Desktop, false, false, true))
      else (Desktop, false, false, true);
    if width > AgentMin && mobileUA && !tabletUA then
      Detection(Mobile, true, isTablet, false, width, height, isPortrait, isLandscape)
    else
      Detection(device, isMobile, isTablet, isDesktop, width, height, isPortrait, isLandscape)
  }

  /** The user-agent fallback applies. */
  predicate AgentOverride(width: int, ua: string) {
    width > AgentMin && MobileAgent(ua) && !TabletAgent(ua)
  }

  /** The kind as a decision table: mobile for phone widths or under the
      override; otherwise tablet up to 768 pixels, and up to 1024 pixels for a
      tablet agent (the portrait clause can never hold there, since such a
      width is above 600); desktop for the rest. `isMobile` and `isDesktop`
      agree with the kind. */
  lemma DetectKind(width: int, height: int, ua: string)
    ensures var r := Detect(width, height, ua);
      && (r.device == Mobile <==> width <= PhoneMax || AgentOverride(width, ua))
      && (r.device == Tablet <==>
            && !AgentOverride(width, ua)
            && (PhoneMax < width <= TabletMax || (TabletMax < width <= LaptopMax && TabletAgent(ua))))
      && (r.device == Desktop <==>
            && !AgentOverride(width, ua)
            && (width > LaptopMax || (TabletMax < width <= LaptopMax && !TabletAgent(ua))))
      && (r.isMobile <==> r.device == Mobile)
      && (r.isDesktop <==> r.device == Desktop)
  {
  }

  /** On a 601-768 pixel screen with a phone agent the result is both mobile
      and tablet: the override leaves `isTablet` set. */
  lemma MobileAndTablet(width: int, height: int, ua: string)
    requires AgentMin < width <= TabletMax && MobileAgent(ua) && !TabletAgent(ua)
    ensures Detect(width, height, ua).isMobile && Detect(width, height, ua).isTablet
    ensures Detect(width, height, ua).device == Mobile
  {
  }

  /** A concrete case: an iPhone agent on a 700 by 900 window. */
  lemma MobileAndTabletExample()
    ensures Detect(700, 900, "iPhone").isMobile && Detect(700, 900, "iPhone").isTablet
  {
    var l := Lower("iPhone");
    assert l == "iphone";
    assert OccursAt(l, MobileWords[2], 0);
    assert !Contains(l, "ipad") by {
      forall k | 0 <= k <= |l| - 4 ensures !OccursAt(l, "ipad", k) {
        assert l[k..k + 4] != "ipad" by {
          if k == 0 { assert l[2] != 'a'; }
          if k == 1 { assert l[1] != 'i'; }
          if k == 2 { assert l[2] != 'i'; }
        }
      }
    }
    assert !Contains(l, "android") by {
      assert |l| < 7;
    }
    MobileAndTablet(700, 900, "iPhone");
  }

  /** The detection with the override also clearing `isTablet`, so the three
      flags always describe the single kind reported. */
  function DetectExclusive(width: int, height: int, ua: string): (r: Detection)
    ensures r.isMobile <==> r.device == Mobile
    ensures r.isTablet <==> r.device == Tablet
    ensures r.isDesktop <==> r.device == Desktop
    ensures r.device == Detect(width, height, ua).device
  {
    var d := Detect(width, height, ua);
    DetectKind(width, height, ua);
    if AgentOverride(width, ua) then d.(isTablet := false) else d
  }

  /** Exactly one flag is set by the corrected detection. */
  lemma DetectExclusiveOneFlag(width: int, height: int, ua: string)
    ensures var r := DetectExclusive(width, height, ua);
      (if r.isMobile then 1 else 0) + (if r.isTablet then 1 else 0) + (if r.isDesktop then 1 else 0) == 1
  {
  }
}

=== FILE: expression.dfy ===
/**
 * The character-level passes of `clean_expression` in GeoSolveAI/app.py: the
 * caret rewrite, the implicit-multiplication pass and the whitespace collapse.
 * The two regular-expression rewrites between the caret rewrite and the
 * implicit-multiplication pass are an opaque step supplied by the caller.
 */
module Expression {
  import opened Text

  predicate IsStar(c: char) { c == '*' }

  predicate IsStarOrCaret(c: char) { c == '*' || c == '^' }

  // ---------------------------------------------------------------------
  // Caret rewrite (`expr.replace('^', '**')`)
  // ---------------------------------------------------------------------

  /** Every `^` becomes `**`; the result has no `^` left. */
  function ExpandCarets(s: string): (r: string)
    ensures '^' !in r
    ensures forall c :: c in r ==> c in s || c == '*'
  {
    ReplaceCharRemovesIt(s, '^', "**");
    ReplaceAllChars(s, "^", "**");
    ReplaceAll(s, "^", "**")
  }

  /** The caret rewrite changes nothing but carets and stars: once both are
      ignored, input and output agree. */
  lemma {:induction false} ExpandCaretsOnlyTouchesCarets(s: string)
    ensures Without(ExpandCarets(s), IsStarOrCaret) == Without(s, IsStarOrCaret)
    decreases |s|
  {
    var d := IsStarOrCaret;
    if |s| == 0 {
    } else if s[..1] == "^" {
      ExpandCaretsOnlyTouchesCarets(s[1..]);
      assert ExpandCarets(s) == "**" + ExpandCarets(s[1..]);
      WithoutConcat("**", ExpandCarets(s[1..]), d);
      WithoutAllDropped("**", d);
      assert s[0] == '^' by { assert s[..1] == [s[0]]; }
    } else {
      ExpandCaretsOnlyTouchesCarets(s[1..]);
      assert ExpandCarets(s) == [s[0]] + ExpandCarets(s[1..]);
      WithoutConcat([s[0]], ExpandCarets(s[1..]), d);
    }
  }

  /** The rewrite distributes over concatenation, so it is fixed by what it
      does to single characters. */
  lemma ExpandCaretsConcat(a: string, b: string)
    ensures ExpandCarets(a + b) == ExpandCarets(a) + ExpandCarets(b)
  {
    ReplaceCharConcat(a, b, '^', "**");
  }

  /** On one character: `^` becomes `**`, anything else stays. */
  lemma ExpandCaretsChar(c: char)
    ensures ExpandCarets([c]) == if c == '^' then "**" else [c]
  {
    var s := [c];
    assert s[..1] == s && s[1..] == [];
    assert ReplaceAll(s[1..], "^", "**") == [];
    if c == '^' {
      assert ReplaceAll(s, "^", "**") == "**" + ReplaceAll(s[1..], "^", "**");
    } else {
      assert ReplaceAll(s, "^", "**") == [s[0]] + ReplaceAll(s[1..], "^", "**");
    }
  }

  // ---------------------------------------------------------------------
  // Implicit multiplication
  // ---------------------------------------------------------------------

  /** The condition under which a `*` is inserted between `cur` and `next`:
      digit-or-`)` before letter-or-`(`, letter before `(`, `)` before `(` or
      digit. */
  predicate NeedsStar(cur: char, next: char) {
    || ((IsDigit(cur) || cur == ')') && (IsLetter(next) || next == '('))
    || (IsLetter(cur) && next == '(' && !IsPySpace(cur))
    || (cur == ')' && (next == '(' || IsDigit(next)))
  }

  /** A `*` goes after index `i` of `s`. */
  predicate StarAfter(s: string, i: int) {
    0 <= i < |s| - 1 && NeedsStar(s[i], s[i + 1])
  }

  /** What the pass emits for index `i`: the character, then a star if due. */
  function Piece(s: string, i: nat): string
    requires i < |s|
  {
    [s[i]] + (if StarAfter(s, i) then "*" else "")
  }

  /** The output of the pass after its first `n` iterations. */
  function Pieces(s: string, n: nat): string
    requires n <= |s|
  {
    if n == 0 then "" else Pieces(s, n - 1) + Piece(s, n - 1)
  }

  /** Number of stars inserted after the indices below `n`. */
  function StarsBefore(s: string, n: nat): (k: nat)
    requires n <= |s|
    ensures k <= n
  {
    if n == 0 then 0 else StarsBefore(s, n - 1) + (if StarAfter(s, n - 1) then 1 else 0)
  }

  /** The pass as the source writes it: append each character, and append a
      `*` after it when the next character calls for one and the output does
      not already end in `"* "`. */
  method ImplicitMultiplication(expr: string) returns (out: string)
    ensures out == Pieces(expr, |expr|)
    ensures |out| == |expr| + StarsBefore(expr, |expr|)
    ensures forall i :: 0 <= i < |expr| ==> Pos(expr, i) + (if StarAfter(expr, i) then 1 else 0) < |out|
    ensures forall i :: 0 <= i < |expr| ==> out[Pos(expr, i)] == expr[i]
    ensures forall i :: 0 <= i < |expr| && StarAfter(expr, i) ==> out[Pos(expr, i) + 1] == '*'
  {
    out := "";
    var i := 0;
    while i < |expr|
      invariant 0 <= i <= |expr|
      invariant out == Pieces(expr, i)
    {
      var ch := expr[i];
      out := out + [ch];
      if i < |expr| - 1 {
        var next := expr[i + 1];
        if NeedsStar(ch, next) {
          var tail := if |out| >= 2 then out[|out| - 2..] else out;
          GuardPasses(out, tail, ch, next);
          if tail != "* " {
            out := out + "*";
          }
        }
      }
      i := i + 1;
    }
    PiecesLayout(expr, |expr|);
  }

  /** The `"* "` guard never suppresses a due star: the output ends in the
      character just emitted, which cannot be a space. */
  lemma GuardPasses(out: string, tail: string, ch: char, next: char)
    requires |out| > 0 && out[|out| - 1] == ch && NeedsStar(ch, next)
    requires tail == if |out| >= 2 then out[|out| - 2..] else out
    ensures tail != "* "
  {
    assert tail[|tail| - 1] == ch;
  }

  /** Output index of input character `i`. */
  function Pos(s: string, i: nat): nat
    requires i <= |s|
  {
    i + StarsBefore(s, i)
  }

  /** Where every input character and every inserted star lands in the
      output of the first `n` iterations. */
  lemma PiecesLayout(s: string, n: nat)
    requires n <= |s|
    ensures |Pieces(s, n)| == n + StarsBefore(s, n)
    ensures forall i :: 0 <= i < n ==> Pos(s, i) + (if StarAfter(s, i) then 1 else 0) < |Pieces(s, n)|
    ensures forall i :: 0 <= i < n ==> Pieces(s, n)[Pos(s, i)] == s[i]
    ensures forall i :: 0 <= i < n && StarAfter(s, i) ==> Pieces(s, n)[Pos(s, i) + 1] == '*'
  {
    PiecesLength(s, n);
    forall i | 0 <= i < n
      ensures Pos(s, i) + (if StarAfter(s, i) then 1 else 0) < |Pieces(s, n)|
      ensures Pieces(s, n)[Pos(s, i)] == s[i]
      ensures StarAfter(s, i) ==> Pieces(s, n)[Pos(s, i) + 1] == '*'
    {
      PiecesAt(s, n, i);
    }
  }

  /** Each iteration emits one character and at most one star. */
  lemma {:induction false} PiecesLength(s: string, n: nat)
    requires n <= |s|
    ensures |Pieces(s, n)| == n + StarsBefore(s, n)
    decreases n
  {
    if n > 0 {
      PiecesLength(s, n - 1);
    }
  }

  /** Input character `i` and the star after it, if any, stay where
      iteration `i` put them. */
  lemma {:induction false} PiecesAt(s: string, n: nat, i: nat)
    requires i < n <= |s|
    ensures Pos(s, i) + (if StarAfter(s, i) then 1 else 0) < |Pieces(s, n)|
    ensures Pieces(s, n)[Pos(s, i)] == s[i]
    ensures StarAfter(s, i) ==> Pieces(s, n)[Pos(s, i) + 1] == '*'
    decreases n
  {
    PiecesLength(s, n);
    PiecesLength(s, n - 1);
    var p := Pieces(s, n - 1);
    var q := Pieces(s, n);
    assert q == p + Piece(s, n - 1);
    if i < n - 1 {
      PiecesAt(s, n - 1, i);
      assert q[Pos(s, i)] == p[Pos(s, i)];
      if StarAfter(s, i) {
        assert q[Pos(s, i) + 1] == p[Pos(s, i) + 1];
      }
    } else {
      assert Pos(s, i) == |p|;
    }
  }

  /** The pass only inserts stars: dropping stars from input and output
      gives the same string. */
  lemma {:induction false} PiecesOnlyInsertStars(s: string, n: nat)
    requires n <= |s|
    ensures Without(Pieces(s, n), IsStar) == Without(s[..n], IsStar)
    decreases n
  {
    if n > 0 {
      PiecesOnlyInsertStars(s, n - 1);
      var star := if StarAfter(s, n - 1) then "*" else "";
      WithoutConcat(Pieces(s, n - 1), [s[n - 1]] + star, IsStar);
      WithoutConcat([s[n - 1]], star, IsStar);
      assert s[..n] == s[..n - 1] + [s[n - 1]];
      WithoutConcat(s[..n - 1], [s[n - 1]], IsStar);
    }
  }

  /** The only character the pass introduces is `*`. */
  lemma {:induction false} PiecesChars(s: string, n: nat)
    requires n <= |s|
    ensures forall c :: c in Pieces(s, n) ==> c in s || c == '*'
    decreases n
  {
    if n > 0 {
      PiecesChars(s, n - 1);
    }
  }

  /** The guard against an existing `"* "` never fires: the character just
      appended is never a star or a space whenever a star is called for. */
  lemma StarGuardVacuous(cur: char, next: char)
    requires NeedsStar(cur, next)
    ensures cur != '*' && cur != ' '
  {
  }

  /** `2x` becomes `2*x` and `sin(x)` becomes `sin*(x)`. */
  lemma ImplicitMultiplicationExamples()
    ensures Pieces("2x", 2) == "2*x"
    ensures Pieces("sin(x)", 6) == "sin*(x)"
  {
    assert StarAfter("2x", 0);
    assert !StarAfter("2x", 1);
    assert Pieces("2x", 1) == "2*";
    var t := "sin(x)";
    assert !StarAfter(t, 0) && !StarAfter(t, 1) && StarAfter(t, 2);
    assert !StarAfter(t, 3) && !StarAfter(t, 4) && !StarAfter(t, 5);
    assert Pieces(t, 3) == "sin*";
    assert Pieces(t, 4) == "sin*(";
    assert Pieces(t, 5) == "sin*(x";
  }

  // ---------------------------------------------------------------------
  // Whitespace collapse (`' '.join(expr.split())`)
  // ---------------------------------------------------------------------

  /** Layout of a space-joined word list: whitespace occurs only as single
      spaces with a non-space on each side. */
  predicate SingleSpaced(r: string) {
    && (|r| > 0 ==> !IsPySpace(r[0]) && !IsPySpace(r[|r| - 1]))
    && forall i :: 0 <= i < |r| && IsPySpace(r[i]) ==>
         r[i] == ' ' && 0 < i < |r| - 1 && !IsPySpace(r[i - 1]) && !IsPySpace(r[i + 1])
  }

  lemma {:induction false} JoinWordsSingleSpaced(ws: seq<string>)
    requires forall i :: 0 <= i < |ws| ==> IsWord(ws[i])
    ensures SingleSpaced(Join(ws, " "))
    decreases |ws|
  {
    if |ws| >= 2 {
      JoinWordsSingleSpaced(ws[1..]);
      var w := ws[0];
      var rest := Join(ws[1..], " ");
      var r := Join(ws, " ");
      assert r == w + " " + rest;
      assert |rest| > 0 by { JoinWordsNonEmpty(ws[1..]); }
      forall i | 0 <= i < |r| && IsPySpace(r[i])
        ensures r[i] == ' ' && 0 < i < |r| - 1 && !IsPySpace(r[i - 1]) && !IsPySpace(r[i + 1])
      {
        if i < |w| {
          assert false;
        } else if i == |w| {
          assert r[i + 1] == rest[0];
        } else {
          assert r[i] == rest[i - |w| - 1];
          assert r[i + 1] == rest[i - |w|];
        }
      }
    }
  }

  lemma JoinWordsNonEmpty(ws: seq<string>)
    requires |ws| > 0
    requires forall i :: 0 <= i < |ws| ==> IsWord(ws[i])
    ensures |Join(ws, " ")| > 0
  {
  }

  lemma {:induction false} JoinChars(ws: seq<string>, sep: string, c: char)
    requires c in Join(ws, sep)
    ensures c in sep || exists i :: 0 <= i < |ws| && c in ws[i]
    decreases |ws|
  {
    if |ws| >= 2 {
      if c in ws[0] || c in sep {
      } else {
        JoinChars(ws[1..], sep, c);
        var i :| 0 <= i < |ws[1..]| && c in ws[1..][i];
        assert c in ws[i + 1];
      }
    }
  }

  lemma {:induction false} WordsChars(s: string, c: char)
    requires exists i :: 0 <= i < |Words(s)| && c in Words(s)[i]
    ensures c in s
    decreases |s|
  {
    var i :| 0 <= i < |Words(s)| && c in Words(s)[i];
    if IsPySpace(s[0]) {
      WordsChars(s[1..], c);
    } else {
      var n := WordLength(s);
      if i > 0 {
        assert Words(s)[i] == Words(s[n..])[i - 1];
        WordsChars(s[n..], c);
      }
    }
  }

  /** `' '.join(s.split())`: single-spaced, with the same words as `s`. */
  function CollapseSpaces(s: string): (r: string)
    ensures SingleSpaced(r)
    ensures Words(r) == Words(s)
    ensures forall c :: c in r ==> c in s || c == ' '
  {
    var r := Join(Words(s), " ");
    JoinWordsSingleSpaced(Words(s));
    WordsOfJoin(Words(s));
    forall c | c in r ensures c in s || c == ' ' {
      JoinChars(Words(s), " ", c);
      if c != ' ' {
        WordsChars(s, c);
      }
    }
    r
  }

  /** Collapsing twice is collapsing once. */
  lemma CollapseSpacesIdempotent(s: string)
    ensures CollapseSpaces(CollapseSpaces(s)) == CollapseSpaces(s)
  {
  }

  // ---------------------------------------------------------------------
  // The whole normalisation
  // ---------------------------------------------------------------------

  /** The implicit-multiplication pass as a function. */
  function InsertStars(s: string): string {
    Pieces(s, |s|)
  }

  /** `clean_expression(s)`: strip, rewrite carets, apply the opaque regex
      step `rewrite`, insert implicit stars, collapse whitespace. */
  function CleanExpression(s: string, rewrite: string -> string): (r: string)
    ensures SingleSpaced(r)
    ensures '^' in r ==> '^' in rewrite(ExpandCarets(PyStrip(s)))
  {
    var t := rewrite(ExpandCarets(PyStrip(s)));
    PiecesChars(t, |t|);
    CollapseSpaces(InsertStars(t))
  }

  /** With a regex step that introduces no caret, the result has none. */
  lemma CleanExpressionNoCaret(s: string, rewrite: string -> string)
    requires forall t :: '^' !in t ==> '^' !in rewrite(t)
    ensures '^' !in CleanExpression(s, rewrite)
  {
  }
}

=== FILE: geometry.dfy ===
/**
 * Argument validation of the `/api/geometry` handler
 * (GeoSolveAI/app.py:736-847). The command is lower-cased and stripped; a
 * command mentioning "triangle" is read as three side lengths, otherwise one
 * mentioning "circle" as a radius. Python's `float` is the parameter
 * `toFloat` (`None` where it raises `ValueError`, which the handler turns into
 * a 500). Areas, angles, rounding and the plot are floating-point work outside
 * this model; the triangle keeps its perimeter, which is exact.
 */
module Geometry {
  import opened Text

  datatype Shape =
    | Triangle(a: real, b: real, c: real, perimeter: real)
    | Circle(radius: real)

  /** The refusals with status 400. */
  datatype Refusal = TriangleArity | InvalidTriangle | CircleArity | UnknownCommand

  function Message(e: Refusal): string {
    match e
    case TriangleArity => "Triangle requires 3 side lengths"
    case InvalidTriangle => "Invalid triangle: sides do not satisfy triangle inequality"
    case CircleArity => "Circle requires a radius"
    case UnknownCommand => "Unknown geometry command. Use \"triangle 3 4 5\" or \"circle 7\""
  }

  datatype Outcome =
    | Drawn(shape: Shape)
    | BadRequest(refusal: Refusal)  // status 400
    | ServerError                   // status 500: `float` raised

  function Status(o: Outcome): int {
    match o
    case Drawn(_) => 200
    case BadRequest(_) => 400
    case ServerError => 500
  }

  /** The handler's test: each side shorter than the sum of the other two. */
  predicate StrictTriangle(a: real, b: real, c: real) {
    a + b > c && b + c > a && a + c > b
  }

  function Max3(a: real, b: real, c: real): (m: real)
    ensures m >= a && m >= b && m >= c
    ensures m == a || m == b || m == c
  {
    if a >= b && a >= c then a else if b >= c then b else c
  }

  /** Independent reading of the test: the sides are positive and the longest
      is shorter than the other two together. */
  lemma StrictTriangleIffLongest(a: real, b: real, c: real)
    ensures StrictTriangle(a, b, c) <==>
      a > 0.0 && b > 0.0 && c > 0.0 && 2.0 * Max3(a, b, c) < a + b + c
  {
  }

  /** The text after the keyword, split on whitespace. */
  function Arguments(command: string, keyword: string): seq<string>
    requires |keyword| > 0
  {
    Words(PyStrip(ReplaceAll(command, keyword, "")))
  }

  /** Three parsed sides, checked against the triangle inequality. */
  function TriangleOf(parts: seq<string>, toFloat: string -> Option<real>): (o: Outcome)
    ensures o.Drawn? ==> o.shape.Triangle?
    ensures o.Drawn? <==>
      && |parts| >= 3
      && toFloat(parts[0]).Some? && toFloat(parts[1]).Some? && toFloat(parts[2]).Some?
      && StrictTriangle(toFloat(parts[0]).value, toFloat(parts[1]).value, toFloat(parts[2]).value)
    ensures o.Drawn? ==>
      && o.shape.a == toFloat(parts[0]).value
      && o.shape.b == toFloat(parts[1]).value
      && o.shape.c == toFloat(parts[2]).value
      && o.shape.perimeter == o.shape.a + o.shape.b + o.shape.c
    ensures o == BadRequest(TriangleArity) <==> |parts| < 3
    ensures o == ServerError <==>
      |parts| >= 3 && (toFloat(parts[0]).None? || toFloat(parts[1]).None? || toFloat(parts[2]).None?)
    ensures o.BadRequest? ==> o.refusal in {TriangleArity, InvalidTriangle}
  {
    if |parts| < 3 then BadRequest(TriangleArity)
    else
      var a := toFloat(parts[0]);
      var b := toFloat(parts[1]);
      var c := toFloat(parts[2]);
      if a.None? || b.None? || c.None? then ServerError
      else if StrictTriangle(a.value, b.value, c.value) then
        Drawn(Triangle(a.value, b.value, c.value, a.value + b.value + c.value))
      else BadRequest(InvalidTriangle)
  }

  function CircleOf(parts: seq<string>, toFloat: string -> Option<real>): (o: Outcome)
    ensures o.Drawn? ==> o.shape.Circle?
    ensures o.Drawn? <==> |parts| >= 1 && toFloat(parts[0]).Some?
    ensures o.Drawn? ==> o.shape.radius == toFloat(parts[0]).value
    ensures o == BadRequest(CircleArity) <==> |parts| == 0
    ensures o == ServerError <==> |parts| >= 1 && toFloat(parts[0]).None?
  {
    if |parts| == 0 then BadRequest(CircleArity)
    else
      var r := toFloat(parts[0]);
      if r.None? then ServerError else Drawn(Circle(r.value))
  }

  /** The handler on the lower-cased, stripped command: "triangle" wins
      over "circle"; anything else is refused. */
  function RouteCommand(command: string, toFloat: string -> Option<real>): (o: Outcome)
    ensures Contains(command, "triangle") ==> o == TriangleOf(Arguments(command, "triangle"), toFloat)
    ensures !Contains(command, "triangle") && Contains(command, "circle") ==>
      o == CircleOf(Arguments(command, "circle"), toFloat)
    ensures o == BadRequest(UnknownCommand) <==> !Contains(command, "triangle") && !Contains(command, "circle")
  {
    if Contains(command, "triangle") then TriangleOf(Arguments(command, "triangle"), toFloat)
    else if Contains(command, "circle") then CircleOf(Arguments(command, "circle"), toFloat)
    else BadRequest(UnknownCommand)
  }

  function Geometry(raw: string, toFloat: string -> Option<real>): Outcome {
    RouteCommand(PyStrip(Lower(raw)), toFloat)
  }

  /** An accepted triangle has positive sides, and each is below half the
      perimeter, so the radicand of Heron's formula, s(s-a)(s-b)(s-c) with
      s the semi-perimeter, is positive. */
  lemma AcceptedTriangleIsProper(parts: seq<string>, toFloat: string -> Option<real>)
    requires TriangleOf(parts, toFloat).Drawn?
    ensures TriangleOf(parts, toFloat).shape.Triangle?
    ensures var t := TriangleOf(parts, toFloat).shape;
      t.a > 0.0 && t.b > 0.0 && t.c > 0.0
    ensures var t := TriangleOf(parts, toFloat).shape;
      HeronRadicand(t.a, t.b, t.c) > 0.0
  {
    var t := TriangleOf(parts, toFloat).shape;
    assert StrictTriangle(t.a, t.b, t.c);
    HeronPositive(t.a, t.b, t.c);
  }

  /** s(s-a)(s-b)(s-c) with s the semi-perimeter: the square of the area
      by Heron's formula. */
  function HeronRadicand(a: real, b: real, c: real): real {
    var s := (a + b + c) / 2.0;
    s * (s - a) * (s - b) * (s - c)
  }

  /** For sides the handler accepts, Heron's radicand is a product of four
      positive factors, so the area's square root is taken of a positive
      number. */
  lemma HeronPositive(a: real, b: real, c: real)
    requires StrictTriangle(a, b, c)
    ensures HeronRadicand(a, b, c) > 0.0
  {
    var s := (a + b + c) / 2.0;
    var x, y, z := s - a, s - b, s - c;
    assert s > 0.0 && x > 0.0 && y > 0.0 && z > 0.0;
    assert s * x > 0.0;
    assert s * x * y > 0.0;
    assert s * x * y * z > 0.0;
    assert HeronRadicand(a, b, c) == s * x * y * z;
  }

  /** Only the first three arguments matter. */
  lemma TriangleUsesFirstThree(parts: seq<string>, more: seq<string>, toFloat: string -> Option<real>)
    requires |parts| >= 3
    ensures TriangleOf(parts + more, toFloat) == TriangleOf(parts, toFloat)
  {
    assert (parts + more)[..3] == parts[..3];
    assert (parts + more)[0] == parts[0] && (parts + more)[1] == parts[1] && (parts + more)[2] == parts[2];
  }

  /** The radius is not checked for sign: a negative radius is drawn. */
  lemma NegativeRadiusAccepted(toFloat: string -> Option<real>)
    requires toFloat("-7") == Some(-7.0)
    ensures CircleOf(["-7"], toFloat) == Drawn(Circle(-7.0))
  {
  }
}

=== FILE: order.dfy ===
/**
 * JavaScript's default `Array.prototype.sort` on strings: ascending order of
 * code units, a string before every longer string it is a prefix of. The sort
 * is an insertion sort proved to return a sorted permutation of its input.
 */
module StringOrder {

  /** `a < b` on JavaScript strings. */
  predicate Less(a: string, b: string)
    decreases |a|
  {
    if |a| == 0 then |b| > 0
    else if |b| == 0 then false
    else if a[0] != b[0] then a[0] < b[0]
    else Less(a[1..], b[1..])
  }

  predicate LessEq(a: string, b: string) {
    a == b || Less(a, b)
  }

  lemma {:induction false} LessIrreflexive(a: string)
    ensures !Less(a, a)
    decreases |a|
  {
    if |a| > 0 {
      LessIrreflexive(a[1..]);
    }
  }

  lemma {:induction false} LessTransitive(a: string, b: string, c: string)
    requires Less(a, b) && Less(b, c)
    ensures Less(a, c)
    decreases |a|
  {
    if |a| > 0 && a[0] == b[0] && b[0] == c[0] {
      LessTransitive(a[1..], b[1..], c[1..]);
    }
  }

  lemma {:induction false} LessTotal(a: string, b: string)
    ensures a == b || Less(a, b) || Less(b, a)
    decreases |a|
  {
    if |a| > 0 && |b| > 0 && a[0] == b[0] {
      LessTotal(a[1..], b[1..]);
      if a[1..] == b[1..] {
        assert a == [a[0]] + a[1..] && b == [b[0]] + b[1..];
      }
    }
  }

  lemma LessAsymmetric(a: string, b: string)
    requires Less(a, b)
    ensures !Less(b, a)
  {
    if Less(b, a) {
      LessTransitive(a, b, a);
      LessIrreflexive(a);
    }
  }

  predicate Sorted(xs: seq<string>) {
    forall i, j :: 0 <= i < j < |xs| ==> LessEq(xs[i], xs[j])
  }

  /** Insert `x` before the first element that is not less than it. */
  function Insert(x: string, xs: seq<string>): (r: seq<string>)
    ensures multiset(r) == multiset(xs) + multiset{x}
    ensures |r| == |xs| + 1
  {
    if |xs| == 0 then [x]
    else if Less(xs[0], x) then
      var rest := Insert(x, xs[1..]);
      assert xs == [xs[0]] + xs[1..];
      [xs[0]] + rest
    else [x] + xs
  }

  /** A lower bound of `x` and of every element of `xs` bounds every
      element of the insertion. */
  lemma InsertBounded(y: string, x: string, xs: seq<string>)
    requires LessEq(y, x)
    requires forall j :: 0 <= j < |xs| ==> LessEq(y, xs[j])
    ensures forall j :: 0 <= j < |Insert(x, xs)| ==> LessEq(y, Insert(x, xs)[j])
  {
    var r := Insert(x, xs);
    forall j | 0 <= j < |r| ensures LessEq(y, r[j]) {
      assert r[j] in multiset(r);
      if r[j] != x {
        assert r[j] in multiset(xs);
        var k :| 0 <= k < |xs| && xs[k] == r[j];
      }
    }
  }

  lemma {:induction false} InsertSorted(x: string, xs: seq<string>)
    requires Sorted(xs)
    ensures Sorted(Insert(x, xs))
  {
    if |xs| > 0 {
      if Less(xs[0], x) {
        InsertSorted(x, xs[1..]);
        var rest := Insert(x, xs[1..]);
        var r := [xs[0]] + rest;
        assert forall j :: 0 <= j < |xs[1..]| ==> xs[1..][j] == xs[j + 1];
        InsertBounded(xs[0], x, xs[1..]);
        forall i, j | 0 <= i < j < |r| ensures LessEq(r[i], r[j]) {
          if i > 0 {
            assert r[i] == rest[i - 1] && r[j] == rest[j - 1];
          } else {
            assert r[j] == rest[j - 1];
          }
        }
      } else {
        LessTotal(xs[0], x);
        var r := [x] + xs;
        forall i, j | 0 <= i < j < |r| ensures LessEq(r[i], r[j]) {
          if i == 0 {
            assert LessEq(x, xs[0]);
            assert LessEq(xs[0], xs[j - 1]);
            if x != xs[0] && xs[0] != xs[j - 1] {
              LessTransitive(x, xs[0], xs[j - 1]);
            }
          } else {
            assert r[i] == xs[i - 1] && r[j] == xs[j - 1];
          }
        }
      }
    }
  }

  /** `Array.from(xs).sort()`. */
  function Sort(xs: seq<string>): (r: seq<string>)
    ensures multiset(r) == multiset(xs)
    ensures |r| == |xs|
  {
    if |xs| == 0 then []
    else
      assert xs == [xs[0]] + xs[1..];
      Insert(xs[0], Sort(xs[1..]))
  }

  /** The sort returns its input's elements in ascending order. */
  lemma {:induction false} SortSorted(xs: seq<string>)
    ensures Sorted(Sort(xs))
  {
    if |xs| > 0 {
      SortSorted(xs[1..]);
      InsertSorted(xs[0], Sort(xs[1..]));
    }
  }

  /** Sorting keeps exactly the same elements. */
  lemma SortSameElements(xs: seq<string>)
    ensures forall x :: x in Sort(xs) <==> x in xs
  {
    assert forall x :: x in Sort(xs) <==> x in multiset(Sort(xs));
    assert forall x :: x in xs <==> x in multiset(xs);
  }

  /** Sorting a list without repeats gives a strictly ascending list. */
  lemma SortDistinctStrict(xs: seq<string>)
    requires forall i, j :: 0 <= i < j < |xs| ==> xs[i] != xs[j]
    ensures forall i, j :: 0 <= i < j < |Sort(xs)| ==> Less(Sort(xs)[i], Sort(xs)[j])
  {
    var r := Sort(xs);
    SortSorted(xs);
    DistinctMultiset(xs);
    forall i, j | 0 <= i < j < |r| ensures Less(r[i], r[j]) {
      if r[i] == r[j] {
        MultisetTwoPositions(r, i, j);
        assert false;
      }
    }
  }

  lemma MultisetTwoPositions(r: seq<string>, i: int, j: int)
    requires 0 <= i < j < |r| && r[i] == r[j]
    ensures multiset(r)[r[i]] >= 2
  {
    assert r == r[..i] + [r[i]] + r[i + 1..j] + [r[j]] + r[j + 1..];
  }

  lemma {:induction false} DistinctMultiset(xs: seq<string>)
    requires forall i, j :: 0 <= i < j < |xs| ==> xs[i] != xs[j]
    ensures forall x :: multiset(xs)[x] <= 1
  {
    if |xs| > 0 {
      DistinctMultiset(xs[1..]);
      assert xs == [xs[0]] + xs[1..];
      assert xs[0] !in xs[1..];
    }
  }
}

=== FILE: quizcreate.dfy ===
/**
 * The quiz builder form (GeoSolveAI/client/src/components/QuizCreate.jsx).
 * The component's state is one `Form` value; each handler maps the old form
 * to the new one. The server's reply to the create request is a parameter.
 */
module QuizCreate {
  import opened Text

  /** The correct-answer select offers exactly the options a, b, c and d. */
  datatype Choice = A | B | C | D

  function Letter(c: Choice): string {
    match c
    case A => "a"
    case B => "b"
    case C => "c"
    case D => "d"
  }

  datatype Question = Question(text: string, a: string, b: string, c: string, d: string, correct: Choice)

  datatype Form = Form(
    title: string,
    description: string,
    questions: seq<Question>,
    draft: string,
    a: string, b: string, c: string, d: string,
    correct: Choice,
    loading: bool,
    error: string,
    success: string)

  /** The form as first shown, with `saved` the questions kept in the
      session store (none when it is empty or unreadable). */
  function Fresh(saved: seq<Question>): Form {
    Form("", "", saved, "", "", "", "", "", A, false, "", "")
  }

  const FieldsAlert: string := "All fields required"
  const SubmitAlert: string := "Quiz needs a title and at least 1 question"
  const FailedAlert: string := "Failed to create quiz"
  const CreatedNotice: string := "Quiz created successfully! \U{2705}"

  /** The question text and all four options have a non-space character. */
  predicate DraftComplete(f: Form) {
    && !Blank(f.draft, IsJsSpace)
    && !Blank(f.a, IsJsSpace) && !Blank(f.b, IsJsSpace)
    && !Blank(f.c, IsJsSpace) && !Blank(f.d, IsJsSpace)
  }

  /** `addQuestion`. */
  function AddQuestion(f: Form): Form {
    if |JsTrim(f.draft)| == 0 || |JsTrim(f.a)| == 0 || |JsTrim(f.b)| == 0
       || |JsTrim(f.c)| == 0 || |JsTrim(f.d)| == 0
    then f.(error := FieldsAlert)
    else f.(questions := f.questions + [Question(f.draft, f.a, f.b, f.c, f.d, f.correct)],
            draft := "", a := "", b := "", c := "", d := "",
            correct := A,
            error := "")
  }

  /** An incomplete draft only raises the alert; a complete one is appended
      as written (untrimmed) and the draft is reset to empty fields with
      answer a. Title and description are untouched either way. */
  lemma AddQuestionSpec(f: Form)
    ensures !DraftComplete(f) ==> AddQuestion(f) == f.(error := FieldsAlert)
    ensures DraftComplete(f) ==>
      var g := AddQuestion(f);
      && g.questions == f.questions + [Question(f.draft, f.a, f.b, f.c, f.d, f.correct)]
      && g.draft == "" && g.a == "" && g.b == "" && g.c == "" && g.d == ""
      && g.correct == A && g.error == ""
      && g.title == f.title && g.description == f.description
  {
  }

  /** `questions.filter((_, i) => i !== index)`. */
  function Without(qs: seq<Question>, index: int): (r: seq<Question>)
    ensures |r| <= |qs|
  {
    if |qs| == 0 then []
    else Without(qs[..|qs| - 1], index) + (if |qs| - 1 == index then [] else [qs[|qs| - 1]])
  }

  /** Filtering out one position drops exactly that question; an index
      outside the list leaves it unchanged. */
  lemma {:induction false} WithoutSpec(qs: seq<Question>, index: int)
    ensures 0 <= index < |qs| ==> Without(qs, index) == qs[..index] + qs[index + 1..]
    ensures !(0 <= index < |qs|) ==> Without(qs, index) == qs
  {
    if |qs| > 0 {
      var front := qs[..|qs| - 1];
      WithoutSpec(front, index);
      if 0 <= index < |qs| - 1 {
        assert front[..index] == qs[..index];
        assert front[index + 1..] + [qs[|qs| - 1]] == qs[index + 1..];
      } else if index == |qs| - 1 {
        assert qs[..index] == front;
      } else {
        assert front + [qs[|qs| - 1]] == qs;
      }
    }
  }

  /** `removeQuestion`. */
  function RemoveQuestion(f: Form, index: int): Form {
    f.(questions := Without(f.questions, index))
  }

  /** Removing the question just added gives back the list as it was. */
  lemma AddThenRemove(f: Form)
    requires DraftComplete(f)
    ensures RemoveQuestion(AddQuestion(f), |f.questions|).questions == f.questions
  {
    var qs := AddQuestion(f).questions;
    WithoutSpec(qs, |f.questions|);
    assert qs[..|f.questions|] == f.questions;
  }

  /** What the server answered, or the message of the error `fetch` threw. */
  datatype Reply = Ok | NotOk | Threw(message: string)

  /** The body of the create request. */
  datatype Request = Request(title: string, description: string, questions: seq<Question>)

  /** `handleSubmit`: the form afterwards, and the request if one was sent. */
  function Submit(f: Form, reply: Reply): (r: (Form, Option<Request>))
  {
    if |JsTrim(f.title)| == 0 || |f.questions| == 0 then (f.(error := SubmitAlert), None)
    else
      var sent := Some(Request(f.title, f.description, f.questions));
      match reply
      case Ok => (f.(success := CreatedNotice, title := "", description := "", questions := [],
                     loading := false, error := ""), sent)
      case NotOk => (f.(error := FailedAlert, loading := false, success := ""), sent)
      case Threw(m) => (f.(error := "Error: " + m, loading := false, success := ""), sent)
  }

  /** A request is sent exactly when the title has a non-space character and
      at least one question was added; it carries the title, description and
      questions as they stand. Only an accepted request clears the form, and
      a refused one keeps every question. */
  lemma SubmitSpec(f: Form, reply: Reply)
    ensures Submit(f, reply).1.Some? <==> !Blank(f.title, IsJsSpace) && |f.questions| > 0
    ensures Submit(f, reply).1.None? ==> Submit(f, reply).0 == f.(error := SubmitAlert)
    ensures Submit(f, reply).1.Some? ==>
      && Submit(f, reply).1.value == Request(f.title, f.description, f.questions)
      && !Submit(f, reply).0.loading
    ensures Submit(f, reply).1.Some? && reply == Ok ==>
      var g := Submit(f, reply).0;
      g.title == "" && g.description == "" && g.questions == [] && g.error == "" && g.success == CreatedNotice
    ensures Submit(f, reply).1.Some? && reply != Ok ==>
      var g := Submit(f, reply).0;
      && g.questions == f.questions && g.title == f.title && g.success == ""
      && g.error == (if reply == NotOk then FailedAlert else "Error: " + reply.message)
  {
  }
}

=== FILE: quizscore.dfy ===
/**
 * Scoring in the `/api/quiz-submit` handler (GeoSolveAI/app.py:1169-1218).
 * The request carries a quiz id, the submitter's email and a JSON object
 * from question-id strings to answers. The database is abstracted to the set
 * of quiz ids and a map from (question id, quiz id) to the stored correct
 * answer; storing the submission row is outside this model.
 */
module QuizScore {
  import opened Text
  import opened Collections

  /** A JSON object's entries, in order. */
  type Responses = seq<(string, string)>

  datatype Refusal =
    | MissingField                  // 400
    | NoAnswers                     // 400
    | QuizNotFound                  // 404
    | InvalidQuestionId(id: string) // 400

  function Message(e: Refusal): string {
    match e
    case MissingField => "Missing quiz_id or user_email"
    case NoAnswers => "No answers provided"
    case QuizNotFound => "Quiz not found"
    case InvalidQuestionId(id) => "Invalid question ID: " + id
  }

  function Status(e: Refusal): int {
    if e == QuizNotFound then 404 else 400
  }

  datatype Outcome = Scored(score: nat, totalQuestions: nat) | Refused(refusal: Refusal)

  /** Python's `int(s)` on a string: surrounding whitespace, an optional
      sign, then one or more decimal digits. */
  function ParseInt(s: string): (r: Option<int>)
  {
    var t := PyStrip(s);
    if |t| > 0 && (t[0] == '+' || t[0] == '-') then
      var body := t[1..];
      if |body| > 0 && forall i :: 0 <= i < |body| ==> IsDigit(body[i]) then
        var v: int := DigitsValue(body);
        Some(if t[0] == '-' then -v else v)
      else None
    else if |t| > 0 && forall i :: 0 <= i < |t| ==> IsDigit(t[i]) then Some(DigitsValue(t))
    else None
  }

  /** `int` reads back what `str` writes for a whole number. */
  lemma ParseIntOfString(n: int)
    ensures ParseInt(IntToString(n)) == Some(n)
  {
    var m := if n < 0 then -n else n;
    DigitsValueOfNatToString(m);
    if n < 0 {
      var t := IntToString(n);
      assert t[1..] == NatToString(m);
      ParseNegatedDigits(t);
    } else {
      ParseDigits(NatToString(m));
    }
  }

  /** A non-empty digit string parses to its value. */
  lemma ParseDigits(digits: string)
    requires |digits| > 0 && forall i :: 0 <= i < |digits| ==> IsDigit(digits[i])
    ensures ParseInt(digits) == Some(DigitsValue(digits))
  {
    assert IsDigit(digits[0]) && IsDigit(digits[|digits| - 1]);
    StripUnpadded(digits, IsPySpace);
    assert PyStrip(digits) == digits;
    assert digits[0] != '+' && digits[0] != '-';
  }

  /** `-` followed by a non-empty digit string parses to the negated value. */
  lemma ParseNegatedDigits(t: string)
    requires |t| >= 2 && t[0] == '-'
    requires forall i :: 1 <= i < |t| ==> IsDigit(t[i])
    ensures ParseInt(t) == Some(-(DigitsValue(t[1..]) as int))
  {
    assert PyStrip(t) == t by {
      assert IsDigit(t[|t| - 1]);
      StripUnpadded(t, IsPySpace);
    }
    ParseSigned(t);
  }

  /** Once nothing is stripped, the signed branch reads the digits. */
  lemma ParseSigned(t: string)
    requires |t| >= 2 && t[0] == '-' && PyStrip(t) == t
    requires forall i :: 1 <= i < |t| ==> IsDigit(t[i])
    ensures ParseInt(t) == Some(-(DigitsValue(t[1..]) as int))
  {
    assert forall i :: 0 <= i < |t[1..]| ==> IsDigit(t[1..][i]);
  }

  function IntToString(n: int): string {
    if n < 0 then "-" + NatToString(-n) else NatToString(n)
  }

  /** The response earns a point: its id parses, the question belongs to the
      quiz, and the stored answer equals the given one. */
  predicate Earns(entry: (string, string), quizId: int, correct: map<(int, int), string>) {
    var q := ParseInt(entry.0);
    q.Some? && (q.value, quizId) in correct && correct[(q.value, quizId)] == entry.1
  }

  /** The points earned by the responses, counted the way the loop counts. */
  function Points(rs: Responses, quizId: int, correct: map<(int, int), string>): nat {
    Count(rs, e => Earns(e, quizId, correct))
  }

  /** The points are the number of responses that earn one, so the score
      never exceeds the number of responses. */
  lemma PointsCountsEarners(rs: Responses, quizId: int, correct: map<(int, int), string>)
    ensures Points(rs, quizId, correct) == |Positions(rs, e => Earns(e, quizId, correct))|
  {
    CountIsCardinality(rs, e => Earns(e, quizId, correct));
  }

  /** Whether a response's id is accepted by `int`. */
  predicate ValidId(entry: (string, string)) {
    ParseInt(entry.0).Some?
  }

  /** The scoring loop: walks the responses in order, stops at the first
      whose id is not `valid`, and otherwise counts those that `earns`. */
  method ScoreResponses(rs: Responses, valid: ((string, string)) -> bool, earns: ((string, string)) -> bool)
    returns (o: Outcome)
    ensures o.Scored? <==> FirstFailing(rs, valid).None?
    ensures o.Scored? ==> o.totalQuestions == |rs| && o.score == Count(rs, earns)
    ensures o.Refused? ==>
      FirstFailing(rs, valid).Some? && o.refusal == InvalidQuestionId(rs[FirstFailing(rs, valid).value].0)
  {
    var score: nat := 0;
    var i := 0;
    while i < |rs|
      invariant 0 <= i <= |rs|
      invariant forall j :: 0 <= j < i ==> valid(rs[j])
      invariant score == Count(rs[..i], earns)
    {
      if !valid(rs[i]) {
        return Refused(InvalidQuestionId(rs[i].0));
      }
      assert rs[..i + 1][..i] == rs[..i];
      if earns(rs[i]) {
        score := score + 1;
      }
      i := i + 1;
    }
    assert rs[..i] == rs;
    return Scored(score, |rs|);
  }

  /** The handler: `quizId` and `email` are `None` when absent; a quiz id of
      0 and an empty email are falsy in Python and refused the same way. */
  method SubmitQuiz(quizId: Option<int>, email: Option<string>, rs: Responses,
                    quizzes: set<int>, correct: map<(int, int), string>) returns (o: Outcome)
    ensures (quizId.None? || quizId.value == 0 || email.None? || email.value == "") <==> o == Refused(MissingField)
    ensures o == Refused(NoAnswers) <==>
      quizId.Some? && quizId.value != 0 && email.Some? && email.value != "" && |rs| == 0
    ensures o == Refused(QuizNotFound) <==>
      quizId.Some? && quizId.value != 0 && email.Some? && email.value != "" && |rs| > 0
      && quizId.value !in quizzes
    ensures o.Scored? <==>
      && quizId.Some? && quizId.value != 0 && email.Some? && email.value != "" && |rs| > 0
      && quizId.value in quizzes && FirstFailing(rs, ValidId).None?
    ensures o.Scored? ==> o.totalQuestions == |rs| && o.score <= |rs|
    ensures o.Scored? ==> o.score == Points(rs, quizId.value, correct)
    ensures o.Refused? && o.refusal.InvalidQuestionId? ==>
      FirstFailing(rs, ValidId).Some? && o.refusal.id == rs[FirstFailing(rs, ValidId).value].0
  {
    if quizId.None? || quizId.value == 0 || email.None? || email.value == "" {
      return Refused(MissingField);
    }
    if |rs| == 0 {
      return Refused(NoAnswers);
    }
    if quizId.value !in quizzes {
      return Refused(QuizNotFound);
    }
    o := ScoreResponses(rs, ValidId, e => Earns(e, quizId.value, correct));
  }
}

=== FILE: register.dfy ===
/**
 * Field validation of the `/api/register` handler (GeoSolveAI/app.py:155-198).
 * The three fields are stripped and checked in a fixed order; an accepted
 * registration inserts a row into the `users` table, whose `email` column is
 * UNIQUE (GeoSolveAI/app.py:36), so a second registration with the same email
 * is refused with 409. The table is a map keyed by email; SHA-256 is the
 * parameter `hash`.
 */
module Register {
  import opened Text

  datatype User = User(name: string, email: string, passwordHash: string)

  /** The refusals, in the order the handler checks them. */
  datatype Refusal = MissingField | ShortPassword | InvalidEmail | EmailTaken

  function Message(e: Refusal): string {
    match e
    case MissingField => "All fields are required"
    case ShortPassword => "Password must be at least 8 characters"
    case InvalidEmail => "Invalid email format"
    case EmailTaken => "Email already registered"
  }

  function Status(e: Refusal): int {
    if e == EmailTaken then 409 else 400
  }

  const MinPasswordLength: nat := 8

  datatype Outcome = Created(users: map<string, User>) | Refused(refusal: Refusal)

  /** The handler on the raw fields and the current `users` table. */
  function Register(name: string, email: string, password: string,
                    users: map<string, User>, hash: string -> string): (o: Outcome)
    ensures o.Created? ==> o.users == users[PyStrip(email) := User(PyStrip(name), PyStrip(email), hash(PyStrip(password)))]
  {
    var n, e, p := PyStrip(name), PyStrip(email), PyStrip(password);
    if |n| == 0 || |e| == 0 || |p| == 0 then Refused(MissingField)
    else if |p| < MinPasswordLength then Refused(ShortPassword)
    else if '@' !in e then Refused(InvalidEmail)
    else if e in users then Refused(EmailTaken)
    else Created(users[e := User(n, e, hash(p))])
  }

  /** Independent statement of which inputs are accepted: every field has a
      non-blank character, the stripped password is at least eight long, the
      email holds `@` and is not registered yet. */
  predicate Acceptable(name: string, email: string, password: string, users: map<string, User>) {
    && !Blank(name, IsPySpace) && !Blank(email, IsPySpace)
    && |PyStrip(password)| >= MinPasswordLength
    && '@' in email
    && PyStrip(email) !in users
  }

  /** The handler creates the account exactly for acceptable input. */
  lemma RegisterAcceptsExactly(name: string, email: string, password: string,
                               users: map<string, User>, hash: string -> string)
    ensures Register(name, email, password, users, hash).Created? <==> Acceptable(name, email, password, users)
  {
    EmailAtSign(email);
  }

  /** An accepted registration adds one user under the stripped email, which
      was not registered before, and keeps every other row. */
  lemma RegisterAddsOne(name: string, email: string, password: string,
                        users: map<string, User>, hash: string -> string)
    requires Register(name, email, password, users, hash).Created?
    ensures var u := Register(name, email, password, users, hash).users;
      && u.Keys == users.Keys + {PyStrip(email)}
      && PyStrip(email) !in users
      && forall k :: k in users ==> u[k] == users[k]
  {
  }

  /** The refusal reported is the first failing check, in the order fields,
      password length, email format, uniqueness: each refusal happens exactly
      when its own check fails and every earlier one passed. */
  lemma RegisterRefusalOrder(name: string, email: string, password: string,
                             users: map<string, User>, hash: string -> string)
    ensures var o := Register(name, email, password, users, hash);
      var filled := !Blank(name, IsPySpace) && !Blank(email, IsPySpace) && !Blank(password, IsPySpace);
      var longEnough := |PyStrip(password)| >= MinPasswordLength;
      && (o == Refused(MissingField) <==> !filled)
      && (o == Refused(ShortPassword) <==> filled && !longEnough)
      && (o == Refused(InvalidEmail) <==> filled && longEnough && '@' !in email)
      && (o == Refused(EmailTaken) <==> filled && longEnough && '@' in email && PyStrip(email) in users)
  {
    EmailAtSign(email);
  }

  /** Stripping keeps or drops no `@`: the stripped email holds one exactly
      when the raw one does. */
  lemma EmailAtSign(email: string)
    ensures ('@' in PyStrip(email)) <==> ('@' in email)
  {
    StripChars(email, IsPySpace);
    if '@' in email {
      StripKeepsOther(email, IsPySpace, '@');
    }
  }

  /** Registering again with the same email, however it is padded with
      whitespace, is refused with 409. */
  lemma SecondRegistrationRefused(name: string, email: string, password: string,
                                  name2: string, password2: string,
                                  users: map<string, User>, hash: string -> string)
    requires Register(name, email, password, users, hash).Created?
    requires !Blank(name2, IsPySpace) && |PyStrip(password2)| >= MinPasswordLength
    ensures var u := Register(name, email, password, users, hash).users;
      Register(name2, email, password2, u, hash) == Refused(EmailTaken)
  {
    RegisterAcceptsExactly(name, email, password, users, hash);
  }
}

=== FILE: seating.dfy ===
/**
 * The exam-hall seating component
 * (GeoSolveAI/client/src/components/SeatingArrangement.jsx). Its React state
 * is one `Hall` value and each handler is a function from the old hall to the
 * new one. The selection is a JavaScript `Set`, read here as the list of its
 * members in insertion order; the seat map is a `Map` from seat id to
 * "allocated". The random allocation colour is a parameter.
 */
module Seating {
  import opened Text
  import opened Collections
  import opened StringOrder

  datatype Allocation = Allocation(name: string, seats: seq<string>, color: string)

  datatype Hall = Hall(
    examName: string,
    rows: int,
    seatsPerRow: int,
    selected: seq<string>,
    seatMap: map<string, bool>,
    rollNumber: string,
    allocations: seq<Allocation>)

  /** The state the component starts in. */
  const Initial: Hall := Hall("", 8, 10, [], map[], "", [])

  /** The setup form is shown instead of the hall while the seat map is empty. */
  predicate OnSetupScreen(h: Hall) {
    |h.seatMap| == 0
  }

  // ---------------------------------------------------------------------
  // Seat ids and the grid

  /** The id `${r}-${s}` of seat `s` in row `r`. */
  function SeatId(r: nat, s: nat): string {
    NatToString(r) + "-" + NatToString(s)
  }

  /** Different seats have different ids. */
  lemma SeatIdInjective(r1: nat, s1: nat, r2: nat, s2: nat)
    requires SeatId(r1, s1) == SeatId(r2, s2)
    ensures r1 == r2 && s1 == s2
  {
    var a, b, c, d := NatToString(r1), NatToString(s1), NatToString(r2), NatToString(s2);
    var x := SeatId(r1, s1);
    assert x == a + "-" + b && x == c + "-" + d;
    // The first '-' of the id ends the row number.
    assert x[|a|] == '-' && x[|c|] == '-';
    assert forall k :: 0 <= k < |a| ==> x[k] == a[k];
    assert forall k :: 0 <= k < |c| ==> x[k] == c[k];
    assert |a| == |c|;
    assert a == x[..|a|] == c;
    assert b == x[|a| + 1..] == d;
    NatToStringInjective(r1, r2);
    NatToStringInjective(s1, s2);
  }

  /** Seats 1..n of row `r`, in order. */
  function Row(r: nat, n: nat): (ids: seq<string>)
    ensures |ids| == n
  {
    if n == 0 then [] else Row(r, n - 1) + [SeatId(r, n)]
  }

  /** Rows 1..rows, each with `perRow` seats, in the order they are created. */
  function Grid(rows: nat, perRow: nat): (ids: seq<string>)
    ensures |ids| == rows * perRow
  {
    if rows == 0 then [] else Grid(rows - 1, perRow) + Row(rows, perRow)
  }

  lemma {:induction false} RowMembers(r: nat, n: nat)
    ensures forall x :: x in Row(r, n) <==> exists s :: 1 <= s <= n && x == SeatId(r, s)
  {
    if n > 0 {
      RowMembers(r, n - 1);
    }
  }

  /** The grid holds exactly the seats `r-s` with 1 <= r <= rows and
      1 <= s <= perRow. */
  lemma {:induction false} GridMembers(rows: nat, perRow: nat)
    ensures forall x :: x in Grid(rows, perRow) <==>
      exists r, s :: 1 <= r <= rows && 1 <= s <= perRow && x == SeatId(r, s)
  {
    if rows > 0 {
      GridMembers(rows - 1, perRow);
      RowMembers(rows, perRow);
    }
  }

  lemma {:induction false} RowDistinct(r: nat, n: nat)
    ensures Distinct(Row(r, n))
  {
    if n > 0 {
      RowDistinct(r, n - 1);
      RowMembers(r, n - 1);
      var ids := Row(r, n);
      forall i, j | 0 <= i < j < |ids| ensures ids[i] != ids[j] {
        if j == n - 1 && ids[i] == ids[j] {
          assert ids[i] in Row(r, n - 1);
          var s :| 1 <= s <= n - 1 && ids[i] == SeatId(r, s);
          SeatIdInjective(r, s, r, n);
          assert false;
        }
      }
    }
  }

  /** No seat id is created twice. */
  lemma {:induction false} GridDistinct(rows: nat, perRow: nat)
    ensures Distinct(Grid(rows, perRow))
  {
    if rows > 0 {
      GridDistinct(rows - 1, perRow);
      RowDistinct(rows, perRow);
      GridMembers(rows - 1, perRow);
      RowMembers(rows, perRow);
      var g := Grid(rows - 1, perRow);
      var w := Row(rows, perRow);
      var ids := g + w;
      forall i, j | 0 <= i < j < |ids| ensures ids[i] != ids[j] {
        if i < |g| <= j && ids[i] == ids[j] {
          assert ids[i] in g && ids[j] in w;
          var r1, s1 :| 1 <= r1 <= rows - 1 && 1 <= s1 <= perRow && ids[i] == SeatId(r1, s1);
          var s2 :| 1 <= s2 <= perRow && ids[j] == SeatId(rows, s2);
          SeatIdInjective(r1, s1, rows, s2);
          assert false;
        } else if j < |g| {
          assert ids[i] == g[i] && ids[j] == g[j];
        } else if |g| <= i {
          assert ids[i] == w[i - |g|] && ids[j] == w[j - |g|];
        }
      }
    }
  }

  /** The number of loop rounds `for (let r = 1; r <= n; r++)` makes. */
  function Rounds(n: int): nat {
    if n > 0 then n else 0
  }

  /** `generateSeats`: one free seat per grid position. */
  method GenerateSeatMap(rows: int, perRow: int) returns (m: map<string, bool>)
    ensures m.Keys == Elements(Grid(Rounds(rows), Rounds(perRow)))
    ensures forall id :: id in m ==> !m[id]
  {
    m := map[];
    var r := 1;
    while r <= rows
      invariant 1 <= r && r - 1 <= Rounds(rows)
      invariant m.Keys == Elements(Grid(r - 1, Rounds(perRow)))
      invariant forall id :: id in m ==> !m[id]
    {
      var s := 1;
      while s <= perRow
        invariant 1 <= s && s - 1 <= Rounds(perRow)
        invariant m.Keys == Elements(Grid(r - 1, Rounds(perRow))) + Elements(Row(r, s - 1))
        invariant forall id :: id in m ==> !m[id]
      {
        m := m[SeatId(r, s) := false];
        s := s + 1;
      }
      assert s - 1 == Rounds(perRow);
      assert Grid(r, Rounds(perRow)) == Grid(r - 1, Rounds(perRow)) + Row(r, Rounds(perRow));
      r := r + 1;
    }
  }

  /** The generated hall has exactly rows x seatsPerRow seats. */
  lemma GridSize(rows: int, perRow: int)
    ensures |Elements(Grid(Rounds(rows), Rounds(perRow)))| == Rounds(rows) * Rounds(perRow)
  {
    GridDistinct(Rounds(rows), Rounds(perRow));
    DistinctCardinality(Grid(Rounds(rows), Rounds(perRow)));
  }

  /** `generateSeats` on the whole state: a fresh hall with nothing selected
      or allocated. */
  method Generate(h: Hall) returns (h': Hall)
    ensures h'.seatMap.Keys == Elements(Grid(Rounds(h.rows), Rounds(h.seatsPerRow)))
    ensures |h'.seatMap| == Rounds(h.rows) * Rounds(h.seatsPerRow)
    ensures forall id :: id in h'.seatMap ==> !h'.seatMap[id]
    ensures h'.selected == [] && h'.allocations == [] && Valid(h')
    ensures h' == h.(seatMap := h'.seatMap, selected := [], allocations := [])
  {
    var m := GenerateSeatMap(h.rows, h.seatsPerRow);
    GridSize(h.rows, h.seatsPerRow);
    h' := h.(seatMap := m, selected := [], allocations := []);
  }

  // ---------------------------------------------------------------------
  // Selection

  /** `Set.prototype.delete` on the list of members. */
  function Remove(xs: seq<string>, x: string): (r: seq<string>)
    ensures forall y :: y in r <==> y in xs && y != x
    ensures Distinct(xs) ==> Distinct(r)
  {
    if |xs| == 0 then []
    else if xs[0] == x then Remove(xs[1..], x)
    else
      var rest := Remove(xs[1..], x);
      assert Distinct(xs) ==> xs[0] !in xs[1..];
      [xs[0]] + rest
  }

  /** Removing a member that is absent changes nothing. */
  lemma {:induction false} RemoveAbsent(xs: seq<string>, x: string)
    requires x !in xs
    ensures Remove(xs, x) == xs
  {
    if |xs| > 0 {
      RemoveAbsent(xs[1..], x);
    }
  }

  /** `toggleSeat`: a selected seat is dropped, any other is added at the end. */
  function Toggle(h: Hall, id: string): (h': Hall)
    ensures id in h'.selected <==> id !in h.selected
    ensures forall y :: y != id ==> (y in h'.selected <==> y in h.selected)
    ensures Distinct(h.selected) ==> Distinct(h'.selected)
    ensures h' == h.(selected := h'.selected)
  {
    if id in h.selected then h.(selected := Remove(h.selected, id))
    else h.(selected := h.selected + [id])
  }

  /** Toggling twice gives back the same members; when the seat was not
      selected, the very same list. */
  lemma ToggleTwice(h: Hall, id: string)
    ensures forall y :: y in Toggle(Toggle(h, id), id).selected <==> y in h.selected
    ensures id !in h.selected ==> Toggle(Toggle(h, id), id) == h
  {
    if id !in h.selected {
      RemoveAbsent(h.selected, id);
      RemoveAppended(h.selected, id);
    }
  }

  lemma {:induction false} RemoveAppended(xs: seq<string>, x: string)
    requires x !in xs
    ensures Remove(xs + [x], x) == xs
  {
    if |xs| == 0 {
    } else {
      assert (xs + [x])[1..] == xs[1..] + [x];
      RemoveAppended(xs[1..], x);
    }
  }

  /** The seat map marks the seat as allocated (`seatMap.get` is truthy). */
  predicate Allocated(h: Hall, id: string) {
    id in h.seatMap && h.seatMap[id]
  }

  /** A button is drawn for `id`: the hall is shown and `id` is one of the
      `rows` x `seatsPerRow` grid ids it lays out. */
  predicate Rendered(h: Hall, id: string) {
    !OnSetupScreen(h) && id in Grid(Rounds(h.rows), Rounds(h.seatsPerRow))
  }

  /** A click on seat `id`: only a drawn button that is not allocated
      toggles; an id the map does not know counts as free. */
  function Click(h: Hall, id: string): (h': Hall)
    ensures !Rendered(h, id) || Allocated(h, id) ==> h' == h
    ensures Rendered(h, id) && !Allocated(h, id) ==>
      (id in h'.selected <==> id !in h.selected)
    ensures forall y :: y != id ==> (y in h'.selected <==> y in h.selected)
  {
    if Rendered(h, id) && !Allocated(h, id) then Toggle(h, id) else h
  }

  // ---------------------------------------------------------------------
  // Allocation

  /** Each id of `ids` set to true in the map, in order. */
  function MarkAll(m: map<string, bool>, ids: seq<string>): (r: map<string, bool>)
    decreases |ids|
    ensures forall k :: k in r <==> k in m || k in ids
    ensures forall k :: k in r ==> r[k] == (k in ids || m[k])
  {
    if |ids| == 0 then m
    else MarkAll(m[ids[0] := true], ids[1..])
  }

  const ExamNameAlert: string := "Please enter exam name"
  const RollNumberAlert: string := "Please enter roll number"
  const NoSeatAlert: string := "Please select at least one seat"

  /** The allocate button. The guards are checked in order and only alert;
      otherwise the selection becomes a new allocation, its seats are marked,
      and the selection and both text fields are cleared. */
  function Allocate(h: Hall, color: string): (r: (Hall, Option<string>))
  {
    if |JsTrim(h.examName)| == 0 then (h, Some(ExamNameAlert))
    else if |JsTrim(h.rollNumber)| == 0 then (h, Some(RollNumberAlert))
    else if |h.selected| == 0 then (h, Some(NoSeatAlert))
    else
      var a := Allocation(h.examName + " - Roll: " + h.rollNumber, Sort(h.selected), color);
      (h.(allocations := h.allocations + [a],
          seatMap := MarkAll(h.seatMap, h.selected),
          selected := [],
          examName := "",
          rollNumber := ""),
       None)
  }

  /** The guards leave the hall unchanged and report the first failing one. */
  lemma AllocateGuards(h: Hall, color: string)
    ensures Allocate(h, color).1 == Some(ExamNameAlert) <==> Blank(h.examName, IsJsSpace)
    ensures Allocate(h, color).1 == Some(RollNumberAlert) <==>
      !Blank(h.examName, IsJsSpace) && Blank(h.rollNumber, IsJsSpace)
    ensures Allocate(h, color).1 == Some(NoSeatAlert) <==>
      !Blank(h.examName, IsJsSpace) && !Blank(h.rollNumber, IsJsSpace) && |h.selected| == 0
    ensures Allocate(h, color).1.Some? ==> Allocate(h, color).0 == h
  {
  }

  /** A successful allocation appends one allocation, named after the exam and
      roll number and holding the selected seats in ascending order; it marks
      exactly those seats and leaves every other entry of the seat map alone. */
  lemma AllocateEffect(h: Hall, color: string)
    requires Allocate(h, color).1.None?
    ensures var h' := Allocate(h, color).0;
      && |h'.allocations| == |h.allocations| + 1
      && h'.allocations[..|h.allocations|] == h.allocations
      && h'.allocations[|h.allocations|].name == h.examName + " - Roll: " + h.rollNumber
      && h'.allocations[|h.allocations|].color == color
      && Sorted(h'.allocations[|h.allocations|].seats)
      && multiset(h'.allocations[|h.allocations|].seats) == multiset(h.selected)
      && (forall id :: id in h.selected ==> id in h'.seatMap && h'.seatMap[id])
      && (forall id :: id !in h.selected ==> (id in h'.seatMap <==> id in h.seatMap))
      && (forall id :: id !in h.selected && id in h.seatMap ==> h'.seatMap[id] == h.seatMap[id])
      && h'.selected == [] && h'.examName == "" && h'.rollNumber == ""
      && h'.rows == h.rows && h'.seatsPerRow == h.seatsPerRow
  {
    var h' := Allocate(h, color).0;
    SortSorted(h.selected);
    assert (h.allocations + [h'.allocations[|h.allocations|]])[..|h.allocations|] == h.allocations;
  }

  // ---------------------------------------------------------------------
  // Colours

  const SelectedColor: string := "#ffd700"
  const FreeColor: string := "#e0e0e0"

  /** The first allocation, in order, that holds the seat. */
  function FirstHolding(allocations: seq<Allocation>, id: string): (r: Option<nat>)
    ensures r.Some? ==> r.value < |allocations| && id in allocations[r.value].seats
    ensures r.Some? ==> forall i :: 0 <= i < r.value ==> id !in allocations[i].seats
    ensures r.None? ==> forall i :: 0 <= i < |allocations| ==> id !in allocations[i].seats
  {
    if |allocations| == 0 then None
    else if id in allocations[0].seats then Some(0)
    else
      var rest := FirstHolding(allocations[1..], id);
      assert forall i :: 1 <= i < |allocations| ==> allocations[i] == allocations[1..][i - 1];
      if rest.None? then None else Some(rest.value + 1)
  }

  /** `getSeatColor`. */
  function SeatColor(h: Hall, id: string): string {
    var k := FirstHolding(h.allocations, id);
    if k.Some? then h.allocations[k.value].color
    else if id in h.selected then SelectedColor
    else FreeColor
  }

  // ---------------------------------------------------------------------
  // Reset and report

  /** `clearAllocation`: back to an empty setup screen. */
  function ClearAll(h: Hall): (h': Hall)
    ensures OnSetupScreen(h') && h'.allocations == [] && h'.selected == []
    ensures h'.examName == "" && h'.rollNumber == ""
    ensures h'.rows == h.rows && h'.seatsPerRow == h.seatsPerRow
  {
    h.(allocations := [], selected := [], seatMap := map[], examName := "", rollNumber := "")
  }

  /** "Change Setup": only the seat map is emptied. */
  function ChangeSetup(h: Hall): (h': Hall)
    ensures OnSetupScreen(h')
    ensures h' == h.(seatMap := map[])
  {
    h.(seatMap := map[])
  }

  const ReportHeader: string := "SEATING ARRANGEMENT REPORT\n=============================\n\n"

  /** One allocation's lines in the report, numbered `n`. */
  function ReportBlock(n: nat, a: Allocation): string {
    NatToString(n) + ". " + a.name + "\n" + "   Seats: " + Join(a.seats, ", ") + "\n\n"
  }

  /** The blocks of `allocations`, numbered from `first`. */
  function ReportBlocks(allocations: seq<Allocation>, first: nat): string {
    if |allocations| == 0 then ""
    else ReportBlock(first, allocations[0]) + ReportBlocks(allocations[1..], first + 1)
  }

  /** `downloadReport`: nothing (only an alert) without allocations. */
  function Report(h: Hall): (r: Option<string>)
    ensures r.None? <==> |h.allocations| == 0
  {
    if |h.allocations| == 0 then None
    else Some(ReportHeader + ReportBlocks(h.allocations, 1))
  }

  /** The report holds every allocation's block, numbered by its position
      from 1. */
  lemma {:induction false} ReportBlocksHoldEach(allocations: seq<Allocation>, first: nat, i: nat)
    requires i < |allocations|
    ensures Contains(ReportBlocks(allocations, first), ReportBlock(first + i, allocations[i]))
    decreases i
  {
    var whole := ReportBlocks(allocations, first);
    var head := ReportBlock(first, allocations[0]);
    var tail := ReportBlocks(allocations[1..], first + 1);
    assert whole == head + tail;
    if i == 0 {
      assert OccursAt(whole, head, 0);
    } else {
      ReportBlocksHoldEach(allocations[1..], first + 1, i - 1);
      var b := ReportBlock(first + i, allocations[i]);
      assert allocations[1..][i - 1] == allocations[i];
      assert OccursAt(whole, tail, |head|);
      ContainsOfSlice(whole, tail, |head|, b);
    }
  }

  // ---------------------------------------------------------------------
  // Invariants

  /** What every reachable hall satisfies: the selection has no repeats and no
      allocated seat; no seat belongs to two allocations or to an allocation
      and the selection; every allocated seat still in the map is marked, and
      while the hall is shown every allocated seat is in the map. */
  predicate Valid(h: Hall) {
    && Distinct(h.selected)
    && (forall id :: id in h.selected ==> !Allocated(h, id))
    && (forall i :: 0 <= i < |h.allocations| ==> Distinct(h.allocations[i].seats))
    && (forall i, id :: 0 <= i < |h.allocations| && id in h.allocations[i].seats ==>
          && id !in h.selected
          && (id in h.seatMap ==> h.seatMap[id])
          && (!OnSetupScreen(h) ==> id in h.seatMap))
    && (forall i, j, id :: 0 <= i < j < |h.allocations| && id in h.allocations[i].seats ==>
          id !in h.allocations[j].seats)
  }

  lemma InitialValid()
    ensures Valid(Initial)
  {
  }

  lemma ClickKeepsValid(h: Hall, id: string)
    requires Valid(h)
    ensures Valid(Click(h, id))
  {
  }

  /** The allocate button is only drawn with the hall, so allocation starts
      from a non-empty seat map. */
  lemma AllocateKeepsValid(h: Hall, color: string)
    requires Valid(h) && !OnSetupScreen(h)
    ensures Valid(Allocate(h, color).0)
  {
    if Allocate(h, color).1.None? {
      var h' := Allocate(h, color).0;
      var a := h'.allocations[|h.allocations|];
      SortSameElements(h.selected);
      SortDistinctStrict(h.selected);
      forall i, j | 0 <= i < j < |a.seats| ensures a.seats[i] != a.seats[j] {
        LessIrreflexive(a.seats[i]);
      }
      ValidAfterAllocation(h, h', a);
    }
  }

  /** Any step that moves the selection into a new allocation, keeps every
      seat of the map and marks every selected seat keeps a hall valid. */
  lemma ValidAfterAllocation(h: Hall, h': Hall, a: Allocation)
    requires Valid(h) && !OnSetupScreen(h)
    requires h'.allocations == h.allocations + [a] && h'.selected == []
    requires Distinct(a.seats)
    requires forall id :: id in a.seats <==> id in h.selected
    requires forall id :: id in h.seatMap ==> id in h'.seatMap
    requires forall id :: id in h.selected ==> id in h'.seatMap && h'.seatMap[id]
    requires forall id :: id in h'.seatMap && id !in h.selected ==> id in h.seatMap && h'.seatMap[id] == h.seatMap[id]
    ensures Valid(h')
  {
    var n := |h.allocations|;
    assert !OnSetupScreen(h') by {
      var k :| k in h.seatMap;
      assert k in h'.seatMap;
    }
    forall i | 0 <= i < |h'.allocations|
      ensures Distinct(h'.allocations[i].seats)
    {
      if i < n {
        assert h'.allocations[i] == h.allocations[i];
      }
    }
    forall i, id | 0 <= i < |h'.allocations| && id in h'.allocations[i].seats
      ensures id in h'.seatMap && h'.seatMap[id]
    {
      if i < n {
        assert h'.allocations[i] == h.allocations[i];
      } else {
        assert h'.allocations[i] == a;
      }
    }
    forall i, j, id | 0 <= i < j < |h'.allocations| && id in h'.allocations[i].seats
      ensures id !in h'.allocations[j].seats
    {
      assert h'.allocations[i] == h.allocations[i];
      if j < n {
        assert h'.allocations[j] == h.allocations[j];
      } else {
        assert h'.allocations[j] == a;
      }
    }
  }

  lemma ResetsKeepValid(h: Hall)
    requires Valid(h)
    ensures Valid(ClearAll(h)) && Valid(ChangeSetup(h))
  {
  }

  /** In a valid hall a seat belongs to at most one allocation, so its colour
      is that allocation's colour, whichever way the allocations are
      searched. */
  lemma SeatColorOfOwner(h: Hall, id: string, i: nat)
    requires Valid(h)
    requires i < |h.allocations| && id in h.allocations[i].seats
    ensures SeatColor(h, id) == h.allocations[i].color
  {
    var k := FirstHolding(h.allocations, id);
    assert k.Some?;
  }

  /** A seat in no allocation is gold when selected and grey otherwise. */
  lemma SeatColorUnallocated(h: Hall, id: string)
    requires forall i :: 0 <= i < |h.allocations| ==> id !in h.allocations[i].seats
    ensures SeatColor(h, id) == (if id in h.selected then SelectedColor else FreeColor)
  {
  }
}

=== FILE: solve.dfy ===
/**
 * Keyword dispatch of the `/api/solve` handler (GeoSolveAI/app.py:402-576).
 * The handler trims the query, picks one branch by keyword tests that are
 * tried in a fixed order, and strips the branch keywords from the query before
 * handing it to the symbolic engine. The symbolic work itself (sympy, `eval`)
 * and `handle_trig_constant` are outside this model: the latter is the
 * parameter `answers`, true exactly when it returns a non-empty result.
 */
module Solve {
  import opened Text

  datatype TrigFunc = Sin | Cos | Tan

  function FuncName(f: TrigFunc): string {
    match f
    case Sin => "sin"
    case Cos => "cos"
    case Tan => "tan"
  }

  /** The order in which the trig branch tries the functions. */
  const TrigOrder: seq<TrigFunc> := [Sin, Cos, Tan]

  /** The branches of the handler, in the order their tests are tried. */
  datatype Branch = SolveBranch | IntegrateBranch | DifferentiateBranch
                  | FactorBranch | TrigBranch | SimplifyBranch

  const BranchOrder: seq<Branch> :=
    [SolveBranch, IntegrateBranch, DifferentiateBranch, FactorBranch, TrigBranch, SimplifyBranch]

  /** What the handler goes on to do with the query. */
  datatype Route =
    | NoQuery                                  // 400 "No query provided"
    | Equation(equation: string)               // sympy solve of the equation text
    | Integration(integrand: string)           // sympy integrate
    | Differentiation(derivand: string)        // sympy diff
    | Factorization(polynomial: string)        // sympy factor
    | TrigConstant(func: TrigFunc, angle: string)  // answer of handle_trig_constant
    | Untyped                                  // trig branch without an answer: type None
    | Simplification(expression: string)       // eval or sympy simplify

  function BranchOf(r: Route): Branch
    requires !r.NoQuery?
  {
    match r
    case Equation(_) => SolveBranch
    case Integration(_) => IntegrateBranch
    case Differentiation(_) => DifferentiateBranch
    case Factorization(_) => FactorBranch
    case TrigConstant(_, _) => TrigBranch
    case Untyped => TrigBranch
    case Simplification(_) => SimplifyBranch
  }

  const NoQueryError: string := "No query provided"

  /** The keyword test of each branch, on the trimmed query and its
      lower-cased form. */
  predicate Fires(b: Branch, query: string, lower: string) {
    match b
    case SolveBranch => Contains(lower, "solve") || '=' in query
    case IntegrateBranch => Contains(lower, "integrate") || '∫' in query
    case DifferentiateBranch =>
      || Contains(lower, "differentiate") || Contains(lower, "diff")
      || Contains(lower, "derivative") || Contains(lower, "d/dx")
    case FactorBranch => Contains(lower, "factor")
    case TrigBranch => Contains(lower, "sin") || Contains(lower, "cos") || Contains(lower, "tan")
    case SimplifyBranch => true
  }

  /** Reference reading of an if/elif chain: the first branch in `order`
      whose test fires. */
  function FirstFiring(order: seq<Branch>, query: string, lower: string): Option<Branch> {
    if |order| == 0 then None
    else if Fires(order[0], query, lower) then Some(order[0])
    else FirstFiring(order[1..], query, lower)
  }

  /** `s.replace(w1, '').replace(w2, '')...`: the keywords removed one after
      the other, in the given order. */
  function RemoveWords(s: string, words: seq<string>): (r: string)
    requires forall i :: 0 <= i < |words| ==> |words[i]| > 0
    decreases |words|
  {
    if |words| == 0 then s
    else RemoveWords(ReplaceAll(s, words[0], ""), words[1..])
  }

  /** Removing words never introduces a character. */
  lemma {:induction false} RemoveWordsChars(s: string, words: seq<string>)
    requires forall i :: 0 <= i < |words| ==> |words[i]| > 0
    ensures forall c :: c in RemoveWords(s, words) ==> c in s
    decreases |words|
  {
    if |words| > 0 {
      ReplaceAllChars(s, words[0], "");
      RemoveWordsChars(ReplaceAll(s, words[0], ""), words[1..]);
    }
  }

  /** Words that do not occur are removed without effect. */
  lemma {:induction false} RemoveWordsAbsent(s: string, words: seq<string>)
    requires forall i :: 0 <= i < |words| ==> |words[i]| > 0 && !Contains(s, words[i])
    ensures RemoveWords(s, words) == s
    decreases |words|
  {
    if |words| > 0 {
      ReplaceAllAbsent(s, words[0], "");
      RemoveWordsAbsent(s, words[1..]);
    }
  }

  /** A query made of keyword `k` followed by text free of every keyword,
      where no earlier keyword occurs, loses exactly that keyword. */
  lemma {:induction false} RemoveWordsLeading(s: string, words: seq<string>, k: nat, rest: string)
    requires forall i :: 0 <= i < |words| ==> |words[i]| > 0 && !Contains(rest, words[i])
    requires k < |words| && s == words[k] + rest
    requires forall i :: 0 <= i < k ==> !Contains(s, words[i])
    ensures RemoveWords(s, words) == rest
    decreases |words|
  {
    if k == 0 {
      ReplaceAllLeading(words[0], rest, "");
      ReplaceAllAbsent(rest, words[0], "");
      assert ReplaceAll(s, words[0], "") == rest;
      RemoveWordsAbsent(rest, words[1..]);
    } else {
      ReplaceAllAbsent(s, words[0], "");
      RemoveWordsLeading(s, words[1..], k - 1, rest);
    }
  }

  /** The text handed to a branch: the query with the branch's keywords
      removed, stripped. Its characters all come from the query and it has no
      outer whitespace; a query holding none of the keywords is only
      stripped. */
  function Payload(query: string, words: seq<string>): (r: string)
    requires forall i :: 0 <= i < |words| ==> |words[i]| > 0
    ensures forall c :: c in r ==> c in query
    ensures NoOuterSpace(r)
    ensures (forall i :: 0 <= i < |words| ==> !Contains(query, words[i])) ==> r == PyStrip(query)
  {
    PayloadFacts(query, words);
    PyStrip(RemoveWords(query, words))
  }

  lemma PayloadFacts(query: string, words: seq<string>)
    requires forall i :: 0 <= i < |words| ==> |words[i]| > 0
    ensures var r := PyStrip(RemoveWords(query, words));
      && (forall c :: c in r ==> c in query)
      && NoOuterSpace(r)
      && ((forall i :: 0 <= i < |words| ==> !Contains(query, words[i])) ==> r == PyStrip(query))
  {
    var removed := RemoveWords(query, words);
    PyStripEnds(removed);
    assert forall c :: c in PyStrip(removed) ==> c in query by {
      RemoveWordsChars(query, words);
      StripChars(removed, IsPySpace);
    }
    if forall i :: 0 <= i < |words| ==> !Contains(query, words[i]) {
      assert removed == query by {
        RemoveWordsAbsent(query, words);
      }
    }
  }

  /** A query that opens with one of the keywords and holds no other keyword
      occurrence is handed on as the remainder, stripped. */
  lemma PayloadAfterKeyword(query: string, words: seq<string>, k: nat, rest: string)
    requires forall i :: 0 <= i < |words| ==> |words[i]| > 0 && !Contains(rest, words[i])
    requires k < |words| && query == words[k] + rest
    requires forall i :: 0 <= i < k ==> !Contains(query, words[i])
    ensures Payload(query, words) == PyStrip(rest)
  {
    RemoveWordsLeading(query, words, k, rest);
  }

  /** "solve x + 1 = 3" hands "x + 1 = 3" to the equation solver. */
  lemma PayloadExample(query: string)
    requires query == "solve x + 1 = 3"
    ensures Payload(query, SolveWords) == "x + 1 = 3"
  {
    var rest := query[5..];
    KeywordFreeExample(rest);
    assert ReplaceAll(query, "solve", "") == rest by {
      assert query == "solve" + rest;
      ReplaceAllLeading("solve", rest, "");
      ReplaceAllAbsent(rest, "solve", "");
    }
    assert ReplaceAll(rest, "Solve", "") == rest by {
      ReplaceAllAbsent(rest, "Solve", "");
    }
    RemoveTwoWords(query, "solve", "Solve");
  }

  /** Removing two words is two replacements. */
  lemma RemoveTwoWords(s: string, a: string, b: string)
    requires |a| > 0 && |b| > 0
    ensures RemoveWords(s, [a, b]) == ReplaceAll(ReplaceAll(s, a, ""), b, "")
  {
    var t := ReplaceAll(s, a, "");
    assert [a, b][1..] == [b];
    assert RemoveWords(s, [a, b]) == RemoveWords(t, [b]);
    assert [b][1..] == [];
    assert RemoveWords(t, [b]) == RemoveWords(ReplaceAll(t, b, ""), []);
  }

  lemma KeywordFreeExample(rest: string)
    requires rest == " x + 1 = 3"
    ensures !Contains(rest, "solve") && !Contains(rest, "Solve")
    ensures PyStrip(rest) == "x + 1 = 3"
  {
    ContainsFirstChar(rest, "solve");
    ContainsFirstChar(rest, "Solve");
    assert rest == rest[..1] + rest[1..] + "";
    StripUnique(rest, rest[..1], rest[1..], "", IsPySpace);
  }

  const SolveWords: seq<string> := ["solve", "Solve"]
  const IntegrateWords: seq<string> := ["integrate", "Integrate", "∫"]
  const DifferentiateWords: seq<string> :=
    ["differentiate", "Differentiate", "diff", "Diff", "derivative", "Derivative", "d/dx"]
  const FactorWords: seq<string> := ["factor", "Factor"]

  // ---------------------------------------------------------------------
  // The trig pattern  func \s* \(? \s* (\d+(?:\.\d+)?)  and `re.search`

  /** Where the angle's first digit sits if the pattern matches at `p`:
      after the name and spaces, either a digit, or `(`, spaces and a digit. */
  function DigitStart(s: string, name: string, p: nat): Option<nat>
    requires p + |name| <= |s|
  {
    var q := p + |name| + RunFrom(s, p + |name|, IsPySpace);
    if q < |s| && IsDigit(s[q]) then Some(q)
    else if q < |s| && s[q] == '(' then
      var q2 := q + 1 + RunFrom(s, q + 1, IsPySpace);
      if q2 < |s| && IsDigit(s[q2]) then Some(q2) else None
    else None
  }

  /** The regex matches with its first character at position `p`. */
  predicate MatchesAt(s: string, name: string, p: int) {
    0 <= p && p + |name| <= |s| && OccursAt(s, name, p) && DigitStart(s, name, p).Some?
  }

  /** `re.search`: the leftmost position from `from` on where the pattern
      matches. */
  function Search(s: string, name: string, from: nat): (r: Option<nat>)
    ensures r.Some? ==> from <= r.value && MatchesAt(s, name, r.value)
    ensures r.Some? ==> forall p :: from <= p < r.value ==> !MatchesAt(s, name, p)
    ensures r.None? ==> forall p :: from <= p ==> !MatchesAt(s, name, p)
    decreases |s| - from
  {
    if from + |name| > |s| then None
    else if MatchesAt(s, name, from) then Some(from)
    else Search(s, name, from + 1)
  }

  /** Group 1 of the pattern, read from its first digit `d`: a digit run,
      then `.` and a second digit run if a digit follows the dot. */
  function AngleAt(s: string, d: nat): (angle: string)
    requires d < |s| && IsDigit(s[d])
    ensures |angle| > 0 && IsDigit(angle[0])
    ensures OccursAt(s, angle, d)
    ensures forall i :: 0 <= i < |angle| ==> IsDigit(angle[i]) || angle[i] == '.'
    ensures IsDigit(angle[|angle| - 1])
    ensures forall i, j :: 0 <= i < j < |angle| && angle[i] == '.' ==> angle[j] != '.'
  {
    var n1 := RunFrom(s, d, IsDigit);
    var e := d + n1;
    if e + 1 < |s| && s[e] == '.' && IsDigit(s[e + 1]) then
      var n2 := RunFrom(s, e + 1, IsDigit);
      s[d..e + 1 + n2]
    else
      s[d..e]
  }

  /** The angle text of the leftmost match, if there is one. */
  function FindAngle(lower: string, f: TrigFunc): (r: Option<string>)
    ensures r.Some? <==> exists p | 0 <= p <= |lower| :: MatchesAt(lower, FuncName(f), p)
  {
    var m := Search(lower, FuncName(f), 0);
    if m.None? then None
    else
      var d := DigitStart(lower, FuncName(f), m.value).value;
      Some(AngleAt(lower, d))
  }

  /** The loop over `['sin', 'cos', 'tan']`: the first function that matches
      and that `handle_trig_constant` answers wins; otherwise the handler
      falls through with the result still untyped. */
  function TrigLoop(lower: string, funcs: seq<TrigFunc>, answers: (TrigFunc, string) -> bool): (r: Route)
    ensures r.TrigConstant? || r == Untyped
    ensures r.TrigConstant? ==>
      && r.func in funcs
      && FindAngle(lower, r.func) == Some(r.angle)
      && answers(r.func, r.angle)
    ensures r == Untyped <==>
      forall i :: 0 <= i < |funcs| ==>
        FindAngle(lower, funcs[i]).None? || !answers(funcs[i], FindAngle(lower, funcs[i]).value)
  {
    if |funcs| == 0 then Untyped
    else
      var a := FindAngle(lower, funcs[0]);
      if a.Some? && answers(funcs[0], a.value) then TrigConstant(funcs[0], a.value)
      else
        var rest := TrigLoop(lower, funcs[1..], answers);
        assert forall i :: 1 <= i < |funcs| ==> funcs[i] == funcs[1..][i - 1];
        rest
  }

  // ---------------------------------------------------------------------
  // The handler

  /** The branch the if/elif chain of the handler takes. */
  function TakenBranch(query: string, lower: string): Branch {
    if Fires(SolveBranch, query, lower) then SolveBranch
    else if Fires(IntegrateBranch, query, lower) then IntegrateBranch
    else if Fires(DifferentiateBranch, query, lower) then DifferentiateBranch
    else if Fires(FactorBranch, query, lower) then FactorBranch
    else if Fires(TrigBranch, query, lower) then TrigBranch
    else SimplifyBranch
  }

  /** What the taken branch does with an already trimmed, non-empty query. */
  function RouteQuery(query: string, lower: string, answers: (TrigFunc, string) -> bool): (r: Route)
    ensures !r.NoQuery?
  {
    match TakenBranch(query, lower)
    case SolveBranch => Equation(Payload(query, SolveWords))
    case IntegrateBranch => Integration(Payload(query, IntegrateWords))
    case DifferentiateBranch => Differentiation(Payload(query, DifferentiateWords))
    case FactorBranch => Factorization(Payload(query, FactorWords))
    case TrigBranch => TrigLoop(lower, TrigOrder, answers)
    case SimplifyBranch => Simplification(query)
  }

  /** The handler: trim the query, reject a blank one, otherwise route it.
      The keyword tests look at `query.lower().strip()`. */
  function Dispatch(raw: string, answers: (TrigFunc, string) -> bool): Route {
    var query := PyStrip(raw);
    if |query| == 0 then NoQuery
    else RouteQuery(query, PyStrip(Lower(query)), answers)
  }

  /** The status code and error message of the routes that stop the handler
      before any symbolic work. */
  function ErrorOf(r: Route): (e: Option<(int, string)>)
    ensures e.Some? <==> r.NoQuery?
    ensures e.Some? ==> e.value.0 == 400
  {
    if r.NoQuery? then Some((400, NoQueryError)) else None
  }

  /** The query is refused exactly when it is blank after trimming. */
  lemma DispatchBlank(raw: string, answers: (TrigFunc, string) -> bool)
    ensures Dispatch(raw, answers) == NoQuery <==> Blank(raw, IsPySpace)
  {
    var query := PyStrip(raw);
    if |query| > 0 {
      var r := RouteQuery(query, PyStrip(Lower(query)), answers);
      assert !r.NoQuery?;
    }
  }

  lemma {:induction false} FirstFiringIsFirst(order: seq<Branch>, query: string, lower: string, k: nat)
    requires k < |order| && Fires(order[k], query, lower)
    requires forall j :: 0 <= j < k ==> !Fires(order[j], query, lower)
    ensures FirstFiring(order, query, lower) == Some(order[k])
  {
    if k > 0 {
      assert forall j :: 0 <= j < k - 1 ==> order[1..][j] == order[j + 1];
      FirstFiringIsFirst(order[1..], query, lower, k - 1);
    }
  }

  /** The route belongs to the branch the chain takes. */
  lemma RouteBranch(query: string, lower: string, answers: (TrigFunc, string) -> bool)
    ensures BranchOf(RouteQuery(query, lower, answers)) == TakenBranch(query, lower)
  {
    var b := TakenBranch(query, lower);
    var r := RouteQuery(query, lower, answers);
    match b
    case SolveBranch => assert r.Equation?;
    case IntegrateBranch => assert r.Integration?;
    case DifferentiateBranch => assert r.Differentiation?;
    case FactorBranch => assert r.Factorization?;
    case TrigBranch => assert r.TrigConstant? || r.Untyped?;
    case SimplifyBranch => assert r.Simplification?;
  }

  /** The first branch whose keyword test fires, in the handler's order, is
      the one taken. */
  lemma TakenBranchIsFirstFiring(query: string, lower: string)
    ensures FirstFiring(BranchOrder, query, lower) == Some(TakenBranch(query, lower))
  {
    if Fires(SolveBranch, query, lower) {
      FirstFiringIsFirst(BranchOrder, query, lower, 0);
    } else if Fires(IntegrateBranch, query, lower) {
      FirstFiringIsFirst(BranchOrder, query, lower, 1);
    } else if Fires(DifferentiateBranch, query, lower) {
      FirstFiringIsFirst(BranchOrder, query, lower, 2);
    } else if Fires(FactorBranch, query, lower) {
      FirstFiringIsFirst(BranchOrder, query, lower, 3);
    } else if Fires(TrigBranch, query, lower) {
      FirstFiringIsFirst(BranchOrder, query, lower, 4);
    } else {
      FirstFiringIsFirst(BranchOrder, query, lower, 5);
    }
  }

  /** In the trig branch the handler answers with a trig constant exactly
      when some function, tried in the order sin, cos, tan, both matches the
      pattern and is answered; when none is, the untyped result is returned. */
  lemma TrigBranchOutcome(query: string, lower: string, answers: (TrigFunc, string) -> bool)
    requires TakenBranch(query, lower) == TrigBranch
    ensures RouteQuery(query, lower, answers) == Untyped <==>
      forall i :: 0 <= i < |TrigOrder| ==>
        FindAngle(lower, TrigOrder[i]).None? || !answers(TrigOrder[i], FindAngle(lower, TrigOrder[i]).value)
  {
  }

  /** How the solve branch reads the cleaned equation text: a bare
      expression (set to zero), or `lhs, rhs = cleaned.split('=')`, whose
      unpacking fails when the text holds more than one `=`. */
  datatype EquationForm = WholeExpression(expr: string) | Sides(lhs: string, rhs: string) | TooManySides

  /** The 400 message the failed unpacking produces, as Python up to 3.12
      words it (3.13 adds the count found). */
  const TooManySidesError: string := "Error solving equation: too many values to unpack (expected 2)"

  function SplitEquation(cleaned: string): (r: EquationForm)
    ensures r.WholeExpression? <==> '=' !in cleaned
    ensures r.WholeExpression? ==> r.expr == cleaned
    ensures r.Sides? ==> cleaned == r.lhs + "=" + r.rhs && '=' !in r.lhs && '=' !in r.rhs
    ensures r.TooManySides? ==>
      exists i, j | 0 <= i < j < |cleaned| :: cleaned[i] == '=' && cleaned[j] == '='
  {
    if '=' !in cleaned then WholeExpression(cleaned)
    else
      var parts := SplitOn(cleaned, '=');
      if |parts| == 2 then
        assert Join(parts[1..], "=") == parts[1];
        Sides(parts[0], parts[1])
      else
        TwoBreaks(parts);
        TooManySides
  }

  /** Three or more pieces joined by `=` hold two `=`. */
  lemma TwoBreaks(parts: seq<string>)
    requires |parts| != 2
    requires forall i :: 0 <= i < |parts| ==> '=' !in parts[i]
    requires '=' in Join(parts, "=")
    ensures var s := Join(parts, "=");
      exists i, j | 0 <= i < j < |s| :: s[i] == '=' && s[j] == '='
  {
    var s := Join(parts, "=");
    var rest := Join(parts[2..], "=");
    assert Join(parts[1..], "=") == parts[1] + "=" + rest;
    assert s == parts[0] + "=" + parts[1] + "=" + rest;
    var i := |parts[0]|;
    var j := |parts[0]| + 1 + |parts[1]|;
    assert s[i] == '=' && s[j] == '=';
  }

  // ---------------------------------------------------------------------
  // Worked cases

  /** "sin45" asks for the angle "45". */
  lemma SinExample()
    ensures FindAngle("sin45", Sin) == Some("45")
  {
    var s := "sin45";
    assert DigitStart(s, "sin", 0) == Some(3) by {
      assert RunFrom(s, 3, IsPySpace) == 0;
    }
    assert Search(s, "sin", 0) == Some(0) by {
      assert OccursAt(s, "sin", 0) by { assert s[0..3] == "sin"; }
    }
    assert AngleAt(s, 3) == "45" by {
      assert RunFrom(s, 5, IsDigit) == 0;
      assert RunFrom(s, 4, IsDigit) == 1;
      assert RunFrom(s, 3, IsDigit) == 2;
      assert s[3..5] == "45";
    }
  }

  /** In "cos(30.5)" the angle group takes the fractional part too. */
  lemma CosExample()
    ensures FindAngle("cos(30.5)", Cos) == Some("30.5")
  {
    var s := "cos(30.5)";
    CosDigitStart();
    assert Search(s, "cos", 0) == Some(0) by {
      assert OccursAt(s, "cos", 0) by { assert s[0..3] == "cos"; }
    }
    CosAngle();
  }

  /** The digits of "cos(30.5)" start after the parenthesis. */
  lemma CosDigitStart()
    ensures DigitStart("cos(30.5)", "cos", 0) == Some(4)
  {
    var s := "cos(30.5)";
    assert RunFrom(s, 3, IsPySpace) == 0;
    assert RunFrom(s, 4, IsPySpace) == 0;
  }

  /** The group read from position 4 of "cos(30.5)". */
  lemma CosAngle()
    ensures AngleAt("cos(30.5)", 4) == "30.5"
  {
    var s := "cos(30.5)";
    assert RunFrom(s, 8, IsDigit) == 0;
    assert RunFrom(s, 7, IsDigit) == 1;
    assert RunFrom(s, 6, IsDigit) == 0;
    assert RunFrom(s, 5, IsDigit) == 1;
    assert RunFrom(s, 4, IsDigit) == 2;
    assert s[4..8] == "30.5";
  }

  /** "distance" holds "tan" and none of the earlier keywords, so it reaches
      the trig branch. */
  lemma DistanceReachesTrig()
    ensures TakenBranch("distance", "distance") == TrigBranch
  {
    var s := "distance";
    assert OccursAt(s, "tan", 3);
    assert 'o' !in s && 'f' !in s && '/' !in s && 'r' !in s;
    ContainsChars(s, "solve");
    ContainsChars(s, "diff");
    ContainsChars(s, "d/dx");
    ContainsChars(s, "derivative");
    ContainsChars(s, "differentiate");
    ContainsChars(s, "integrate");
    ContainsChars(s, "factor");
  }

  /** The only function name in "distance" is the "tan" at position 3. */
  lemma DistanceNames(f: TrigFunc)
    ensures forall p :: 0 <= p && OccursAt("distance", FuncName(f), p) ==> f == Tan && p == 3
  {
    var s := "distance";
    forall p | 0 <= p && OccursAt(s, FuncName(f), p) ensures f == Tan && p == 3 {
      assert s[p..p + 3][0] == s[p] && s[p..p + 3][1] == s[p + 1];
    }
  }

  /** No function name in "distance" is followed by a number. */
  lemma DistanceHasNoAngle(f: TrigFunc)
    ensures FindAngle("distance", f).None?
  {
    DistanceNames(f);
    assert RunFrom("distance", 6, IsPySpace) == 0;
  }

  /** So "distance" comes back from the handler untyped. */
  lemma DistanceExample(answers: (TrigFunc, string) -> bool)
    ensures RouteQuery("distance", "distance", answers) == Untyped
  {
    DistanceReachesTrig();
    DistanceHasNoAngle(Sin);
    DistanceHasNoAngle(Cos);
    DistanceHasNoAngle(Tan);
    TrigBranchOutcome("distance", "distance", answers);
  }
}

=== FILE: text.dfy ===
/**
 * String primitives shared by the server helpers (Python `str` methods) and the
 * client components (JavaScript `String` methods). Strings are `seq<char>`;
 * character classes are stated explicitly so that the difference between
 * Python's and JavaScript's notion of whitespace is visible.
 */
module Text {

  /** A value that may be absent: Python's `None`, JavaScript's `undefined`. */
  datatype Option<T> = None | Some(value: T)

  /** Whitespace as Python's `str.isspace`, `str.strip`, `str.split()` and the
      regex class `\s` see it. */
  predicate IsPySpace(c: char) {
    || c == ' '
    || ('\t' <= c <= '\r')
    || ('\U{1C}' <= c <= '\U{1F}')
    || c == '\U{85}' || c == '\U{A0}' || c == '\U{1680}'
    || ('\U{2000}' <= c <= '\U{200A}')
    || c == '\U{2028}' || c == '\U{2029}' || c == '\U{202F}' || c == '\U{205F}' || c == '\U{3000}'
  }

  /** Whitespace as JavaScript's `String.prototype.trim` sees it. */
  predicate IsJsSpace(c: char) {
    || c == ' '
    || ('\t' <= c <= '\r')
    || c == '\U{A0}' || c == '\U{1680}'
    || ('\U{2000}' <= c <= '\U{200A}')
    || c == '\U{2028}' || c == '\U{2029}' || c == '\U{202F}' || c == '\U{205F}' || c == '\U{3000}'
    || c == '\U{FEFF}'
  }

  /** ASCII stand-ins for `str.isdigit` / `str.isalpha`. */
  predicate IsDigit(c: char) { '0' <= c <= '9' }

  predicate IsLetter(c: char) { ('a' <= c <= 'z') || ('A' <= c <= 'Z') }

  function LowerChar(c: char): (r: char)
    ensures IsLetter(c) <==> IsLetter(r)
    ensures !('A' <= r <= 'Z')
  {
    if 'A' <= c <= 'Z' then (c as int + 32) as char else c
  }

  function UpperChar(c: char): (r: char)
    ensures IsLetter(c) <==> IsLetter(r)
    ensures !('a' <= r <= 'z')
  {
    if 'a' <= c <= 'z' then (c as int - 32) as char else c
  }

  /** `s.lower()` / `s.toLowerCase()` on the ASCII range. */
  function Lower(s: string): (r: string)
    ensures |r| == |s|
    ensures forall i :: 0 <= i < |s| ==> r[i] == LowerChar(s[i])
  {
    if |s| == 0 then [] else [LowerChar(s[0])] + Lower(s[1..])
  }

  /** Every character satisfies `ws`: the string is empty after stripping. */
  predicate Blank(s: string, ws: char -> bool) {
    forall i :: 0 <= i < |s| ==> ws(s[i])
  }

  /** Number of leading characters of `s` that satisfy `ws`. */
  function LeadingCount(s: string, ws: char -> bool): (n: nat)
    ensures n <= |s|
    ensures forall i :: 0 <= i < n ==> ws(s[i])
    ensures n < |s| ==> !ws(s[n])
  {
    if |s| == 0 || !ws(s[0]) then 0 else 1 + LeadingCount(s[1..], ws)
  }

  /** Length of `s` once its trailing characters satisfying `ws` are dropped. */
  function KeptLength(s: string, ws: char -> bool): (n: nat)
    ensures n <= |s|
    ensures forall i :: n <= i < |s| ==> ws(s[i])
    ensures n > 0 ==> !ws(s[n - 1])
  {
    if |s| == 0 || !ws(s[|s| - 1]) then |s| else KeptLength(s[..|s| - 1], ws)
  }

  /** `s.lstrip()`: drops the longest all-whitespace prefix. */
  function StripLeft(s: string, ws: char -> bool): (r: string)
    ensures |r| <= |s| && r == s[|s| - |r|..]
    ensures |r| > 0 ==> !ws(r[0])
    ensures forall i :: 0 <= i < |s| - |r| ==> ws(s[i])
  {
    s[LeadingCount(s, ws)..]
  }

  /** `s.rstrip()`: drops the longest all-whitespace suffix. */
  function StripRight(s: string, ws: char -> bool): (r: string)
    ensures |r| <= |s| && r == s[..|r|]
    ensures |r| > 0 ==> !ws(r[|r| - 1])
    ensures forall i :: |r| <= i < |s| ==> ws(s[i])
  {
    s[..KeptLength(s, ws)]
  }

  /** `s.strip()` / `s.trim()`: the result is a slice of `s` with no
      whitespace at either end, and it is empty exactly for blank input. */
  function Strip(s: string, ws: char -> bool): (r: string)
    ensures exists k | 0 <= k <= |s| - |r| :: OccursAt(s, r, k)
    ensures |r| > 0 ==> !ws(r[0]) && !ws(r[|r| - 1])
    ensures |r| == 0 <==> Blank(s, ws)
  {
    var l := StripLeft(s, ws);
    var r := StripRight(l, ws);
    assert OccursAt(s, r, |s| - |l|);
    StripBothBlank(s, l, r, ws);
    r
  }

  lemma StripBothBlank(s: string, l: string, r: string, ws: char -> bool)
    requires |l| <= |s| && l == s[|s| - |l|..]
    requires forall i :: 0 <= i < |s| - |l| ==> ws(s[i])
    requires |r| <= |l| && r == l[..|r|]
    requires forall i :: |r| <= i < |l| ==> ws(l[i])
    ensures |r| == 0 ==> Blank(s, ws)
  {
    if |r| == 0 {
      forall i | 0 <= i < |s| ensures ws(s[i]) {
        if i >= |s| - |l| {
          assert s[i] == l[i - (|s| - |l|)];
        }
      }
    }
  }

  /** Where the stripped text sits in the original: everything before and
      after it is whitespace. */
  lemma StripFrame(s: string, ws: char -> bool)
    ensures var r := Strip(s, ws); var k := |s| - |StripLeft(s, ws)|;
      && OccursAt(s, r, k)
      && (forall i :: 0 <= i < k ==> ws(s[i]))
      && (forall i :: k + |r| <= i < |s| ==> ws(s[i]))
  {
    var l := StripLeft(s, ws);
    var r := StripRight(l, ws);
    var k := |s| - |l|;
    assert Strip(s, ws) == r;
    forall i | k + |r| <= i < |s| ensures ws(s[i]) {
      assert s[i] == l[i - k];
    }
  }

  /** Text with no whitespace at either end is its own strip. */
  lemma StripUnpadded(s: string, ws: char -> bool)
    requires |s| > 0 ==> !ws(s[0]) && !ws(s[|s| - 1])
    ensures Strip(s, ws) == s
  {
    assert LeadingCount(s, ws) == 0;
    assert StripLeft(s, ws) == s;
    assert KeptLength(s, ws) == |s|;
  }

  /** Stripping never introduces a character. */
  lemma StripChars(s: string, ws: char -> bool)
    ensures forall c :: c in Strip(s, ws) ==> c in s
  {
    StripFrame(s, ws);
    var r := Strip(s, ws);
    var k := |s| - |StripLeft(s, ws)|;
    forall c | c in r ensures c in s {
      var j :| 0 <= j < |r| && r[j] == c;
      assert s[k..k + |r|][j] == s[k + j];
    }
  }

  /** Stripping only removes characters satisfying `ws`: one that does not is
      kept. */
  lemma StripKeepsOther(s: string, ws: char -> bool, c: char)
    requires c in s && !ws(c)
    ensures c in Strip(s, ws)
  {
    StripFrame(s, ws);
    var r := Strip(s, ws);
    var k := |s| - |StripLeft(s, ws)|;
    var i :| 0 <= i < |s| && s[i] == c;
    assert r[i - k] == s[k..k + |r|][i - k];
  }

  function PyStrip(s: string): string { Strip(s, IsPySpace) }

  function JsTrim(s: string): string { Strip(s, IsJsSpace) }

  /** Neither end of `s` is Python whitespace. */
  predicate NoOuterSpace(s: string) {
    |s| > 0 ==> !IsPySpace(s[0]) && !IsPySpace(s[|s| - 1])
  }

  /** `strip()` leaves no whitespace at either end. */
  lemma PyStripEnds(s: string)
    ensures NoOuterSpace(PyStrip(s))
  {
    var r := Strip(s, IsPySpace);
    if |r| > 0 {
      assert !IsPySpace(r[0]) && !IsPySpace(r[|r| - 1]);
    }
  }

  /** `sub in s` (Python) / `s.includes(sub)` (JavaScript). */
  predicate Contains(s: string, sub: string) {
    exists k | 0 <= k <= |s| - |sub| :: OccursAt(s, sub, k)
  }

  /** A text holding a pattern holds the pattern's first character. */
  lemma ContainsFirstChar(s: string, sub: string)
    ensures Contains(s, sub) && |sub| > 0 ==> sub[0] in s
  {
    if Contains(s, sub) && |sub| > 0 {
      var k :| 0 <= k <= |s| - |sub| && OccursAt(s, sub, k);
      assert s[k..k + |sub|][0] == s[k];
    }
  }

  /** A text holding a pattern holds every character of the pattern. */
  lemma ContainsChars(s: string, sub: string)
    ensures Contains(s, sub) ==> forall c :: c in sub ==> c in s
  {
    if Contains(s, sub) {
      var k :| 0 <= k <= |s| - |sub| && OccursAt(s, sub, k);
      forall c | c in sub ensures c in s {
        var j :| 0 <= j < |sub| && sub[j] == c;
        assert s[k..k + |sub|][j] == s[k + j];
      }
    }
  }

  /** `sub` occurs in `s` starting at index `k`. */
  predicate OccursAt(s: string, sub: string, k: int) {
    0 <= k <= |s| - |sub| && s[k..k + |sub|] == sub
  }

  /** `s.replace(pat, rep)`: every non-overlapping occurrence of `pat`, scanning
      from the left, is replaced by `rep`. */
  function ReplaceAll(s: string, pat: string, rep: string): (r: string)
    requires |pat| > 0
    decreases |s|
  {
    if |s| < |pat| then s
    else if s[..|pat|] == pat then rep + ReplaceAll(s[|pat|..], pat, rep)
    else [s[0]] + ReplaceAll(s[1..], pat, rep)
  }

  /** Every character of a replacement result comes from the input or from
      the replacement text. */
  lemma {:induction false} ReplaceAllChars(s: string, pat: string, rep: string)
    requires |pat| > 0
    ensures forall c :: c in ReplaceAll(s, pat, rep) ==> c in s || c in rep
    decreases |s|
  {
    if |s| < |pat| {
    } else if s[..|pat|] == pat {
      ReplaceAllChars(s[|pat|..], pat, rep);
      assert forall c :: c in s[|pat|..] ==> c in s;
    } else {
      ReplaceAllChars(s[1..], pat, rep);
      assert forall c :: c in s[1..] ==> c in s;
    }
  }

  /** Replacing a one-character pattern by text that does not contain it
      removes every occurrence of that character. */
  lemma {:induction false} ReplaceCharRemovesIt(s: string, c: char, rep: string)
    requires c !in rep
    ensures c !in ReplaceAll(s, [c], rep)
    decreases |s|
  {
    if |s| < 1 {
    } else if s[..1] == [c] {
      ReplaceCharRemovesIt(s[1..], c, rep);
    } else {
      assert s[0] != c by { assert s[..1] == [s[0]]; }
      ReplaceCharRemovesIt(s[1..], c, rep);
    }
  }

  /** Python's `s.replace(c, rep)` for one character distributes over
      concatenation: no occurrence can straddle the seam. */
  lemma {:induction false} ReplaceCharConcat(a: string, b: string, c: char, rep: string)
    ensures ReplaceAll(a + b, [c], rep) == ReplaceAll(a, [c], rep) + ReplaceAll(b, [c], rep)
    decreases |a|
  {
    if |a| == 0 {
      assert a + b == b;
    } else {
      var ab := a + b;
      assert ab[..1] == a[..1];
      assert ab[1..] == a[1..] + b;
      ReplaceCharConcat(a[1..], b, c, rep);
    }
  }

  /** A text without the pattern is left unchanged by the replacement. */
  lemma {:induction false} ReplaceAllAbsent(s: string, pat: string, rep: string)
    requires |pat| > 0 && !Contains(s, pat)
    ensures ReplaceAll(s, pat, rep) == s
    decreases |s|
  {
    if |s| >= |pat| {
      assert !OccursAt(s, pat, 0);
      assert !Contains(s[1..], pat) by {
        forall k | 0 <= k <= |s[1..]| - |pat| ensures !OccursAt(s[1..], pat, k) {
          assert !OccursAt(s, pat, k + 1);
          assert s[1..][k..k + |pat|] == s[k + 1..k + 1 + |pat|];
        }
      }
      ReplaceAllAbsent(s[1..], pat, rep);
      assert s == [s[0]] + s[1..];
    }
  }

  /** A text that starts with the pattern loses that occurrence first, and
      the rest is replaced on its own. */
  lemma ReplaceAllLeading(pat: string, rest: string, rep: string)
    requires |pat| > 0
    ensures ReplaceAll(pat + rest, pat, rep) == rep + ReplaceAll(rest, pat, rep)
  {
    var s := pat + rest;
    assert s[..|pat|] == pat;
    assert s[|pat|..] == rest;
  }

  /** `s` with every character satisfying `drop` removed. */
  function Without(s: string, drop: char -> bool): string {
    if |s| == 0 then ""
    else (if drop(s[0]) then "" else [s[0]]) + Without(s[1..], drop)
  }

  lemma {:induction false} WithoutConcat(a: string, b: string, drop: char -> bool)
    ensures Without(a + b, drop) == Without(a, drop) + Without(b, drop)
    decreases |a|
  {
    if |a| == 0 {
      assert a + b == b;
    } else {
      var ab := a + b;
      var head := if drop(a[0]) then "" else [a[0]];
      assert ab[0] == a[0];
      assert ab[1..] == a[1..] + b;
      WithoutConcat(a[1..], b, drop);
      var wa, wb := Without(a[1..], drop), Without(b, drop);
      assert Without(ab, drop) == head + (wa + wb);
      assert Without(a, drop) == head + wa;
      assert head + (wa + wb) == (head + wa) + wb;
    }
  }

  lemma {:induction false} WithoutAllDropped(s: string, drop: char -> bool)
    requires forall i :: 0 <= i < |s| ==> drop(s[i])
    ensures Without(s, drop) == ""
    decreases |s|
  {
    if |s| > 0 {
      WithoutAllDropped(s[1..], drop);
    }
  }

  lemma {:induction false} WithoutNoneDropped(s: string, drop: char -> bool)
    requires forall i :: 0 <= i < |s| ==> !drop(s[i])
    ensures Without(s, drop) == s
    decreases |s|
  {
    if |s| > 0 {
      WithoutNoneDropped(s[1..], drop);
      assert s == [s[0]] + s[1..];
    }
  }

  /** A run of dropped characters at the front makes no difference. */
  lemma WithoutDroppedRun(s: string, i: nat, m: nat, drop: char -> bool)
    requires i + m <= |s|
    requires forall j :: i <= j < i + m ==> drop(s[j])
    ensures Without(s[i..], drop) == Without(s[i + m..], drop)
  {
    var x := s[i..i + m];
    assert s[i..] == x + s[i + m..];
    WithoutConcat(x, s[i + m..], drop);
    WithoutAllDropped(x, drop);
  }

  /** Deleting every occurrence of a pattern made only of dropped characters
      is invisible once those characters are dropped. */
  lemma {:induction false} WithoutReplaceAll(s: string, pat: string, drop: char -> bool)
    requires |pat| > 0 && forall i :: 0 <= i < |pat| ==> drop(pat[i])
    ensures Without(ReplaceAll(s, pat, ""), drop) == Without(s, drop)
    decreases |s|
  {
    if |s| < |pat| {
    } else if s[..|pat|] == pat {
      WithoutReplaceAll(s[|pat|..], pat, drop);
      assert s == pat + s[|pat|..];
      WithoutConcat(pat, s[|pat|..], drop);
      WithoutAllDropped(pat, drop);
      assert ReplaceAll(s, pat, "") == ReplaceAll(s[|pat|..], pat, "");
    } else {
      WithoutReplaceAll(s[1..], pat, drop);
      assert s == [s[0]] + s[1..];
      WithoutConcat([s[0]], s[1..], drop);
      WithoutConcat([s[0]], ReplaceAll(s[1..], pat, ""), drop);
    }
  }

  /** Length of the run of characters satisfying `P` that starts at `i`. */
  function RunFrom(s: string, i: nat, P: char -> bool): (n: nat)
    requires i <= |s|
    ensures i + n <= |s|
    ensures forall j :: i <= j < i + n ==> P(s[j])
    ensures i + n < |s| ==> !P(s[i + n])
    decreases |s| - i
  {
    if i < |s| && P(s[i]) then 1 + RunFrom(s, i + 1, P) else 0
  }

  /** `sep.join(parts)`. */
  function Join(parts: seq<string>, sep: string): string {
    if |parts| == 0 then ""
    else if |parts| == 1 then parts[0]
    else parts[0] + sep + Join(parts[1..], sep)
  }

  /** The first character of a join is that of its first non-empty piece
      when the first piece is non-empty. */
  lemma JoinFirstChar(parts: seq<string>, sep: string)
    requires |parts| > 0 && |parts[0]| > 0
    ensures |Join(parts, sep)| > 0 && Join(parts, sep)[0] == parts[0][0]
  {
    if |parts| > 1 {
      assert Join(parts, sep) == parts[0] + (sep + Join(parts[1..], sep));
    }
  }

  /** The last character of a join is that of its last piece when that piece
      is non-empty. */
  lemma {:induction false} JoinLastChar(parts: seq<string>, sep: string)
    requires |parts| > 0 && |parts[|parts| - 1]| > 0
    ensures var j := Join(parts, sep); |j| > 0 && j[|j| - 1] == parts[|parts| - 1][|parts[|parts| - 1]| - 1]
    decreases |parts|
  {
    if |parts| > 1 {
      JoinLastChar(parts[1..], sep);
      var rest := Join(parts[1..], sep);
      assert Join(parts, sep) == (parts[0] + sep) + rest;
    }
  }

  /** Splitting the first piece in two splits the join the same way. */
  lemma JoinFirstSplit(x: string, y: string, rest: seq<string>, sep: string)
    ensures Join([x + y] + rest, sep) == x + Join([y] + rest, sep)
  {
    if |rest| > 0 {
      assert ([x + y] + rest)[1..] == rest;
      assert ([y] + rest)[1..] == rest;
    }
  }

  /** Two all-whitespace strings make an all-whitespace string. */
  lemma BlankConcat(a: string, b: string, ws: char -> bool)
    requires Blank(a, ws) && Blank(b, ws)
    ensures Blank(a + b, ws)
  {
    forall i | 0 <= i < |a + b| ensures ws((a + b)[i]) {
      if i >= |a| {
        assert (a + b)[i] == b[i - |a|];
      }
    }
  }

  /** Stripping finds the one split into whitespace, a core with no
      whitespace at its ends, and whitespace. */
  lemma StripUnique(s: string, a: string, m: string, b: string, ws: char -> bool)
    requires s == a + m + b
    requires Blank(a, ws) && Blank(b, ws)
    requires |m| > 0 && !ws(m[0]) && !ws(m[|m| - 1])
    ensures Strip(s, ws) == m
  {
    forall i | 0 <= i < |a| ensures ws(s[i]) {
      assert s[i] == a[i];
    }
    assert !ws(s[|a|]) by { assert s[|a|] == m[0]; }
    var n := LeadingCount(s, ws);
    assert n == |a|;
    var l := StripLeft(s, ws);
    assert l == m + b;
    forall i | |m| <= i < |l| ensures ws(l[i]) {
      assert l[i] == b[i - |m|];
    }
    assert !ws(l[|m| - 1]) by { assert l[|m| - 1] == m[|m| - 1]; }
    assert KeptLength(l, ws) == |m|;
    assert StripRight(l, ws) == m;
  }

  /** Length of the longest prefix of `s` with no character equal to `c`. */
  function SegmentLength(s: string, c: char): (n: nat)
    ensures n <= |s|
    ensures c !in s[..n]
    ensures n < |s| ==> s[n] == c
  {
    if |s| == 0 || s[0] == c then 0 else 1 + SegmentLength(s[1..], c)
  }

  /** `s.split(c)` for a one-character separator: always at least one piece,
      empty pieces kept. */
  function SplitOn(s: string, c: char): (parts: seq<string>)
    ensures |parts| >= 1
    ensures forall i :: 0 <= i < |parts| ==> c !in parts[i]
    ensures Join(parts, [c]) == s
    decreases |s|
  {
    var n := SegmentLength(s, c);
    if n == |s| then [s]
    else
      var rest := SplitOn(s[n + 1..], c);
      assert s == s[..n] + [c] + s[n + 1..];
      [s[..n]] + rest
  }

  /** Round trip: splitting a joined list of separator-free pieces gives the
      pieces back. */
  lemma {:induction false} SplitOnJoin(parts: seq<string>, c: char)
    requires |parts| >= 1
    requires forall i :: 0 <= i < |parts| ==> c !in parts[i]
    ensures SplitOn(Join(parts, [c]), c) == parts
    decreases |parts|
  {
    var p0 := parts[0];
    if |parts| == 1 {
      assert Join(parts, [c]) == p0;
      assert SegmentLength(p0, c) == |p0| by {
        forall i | 0 <= i < |p0| ensures p0[i] != c {
          assert p0[i] in p0;
        }
      }
    } else {
      var rest := Join(parts[1..], [c]);
      var s := Join(parts, [c]);
      assert s == p0 + [c] + rest;
      forall i | 0 <= i < |p0| ensures s[i] != c {
        assert s[i] == p0[i] && p0[i] in p0;
      }
      assert s[|p0|] == c;
      assert SegmentLength(s, c) == |p0|;
      assert s[..|p0|] == p0;
      assert s[|p0| + 1..] == rest;
      SplitOnJoin(parts[1..], c);
      assert parts == [p0] + parts[1..];
    }
  }

  /** Length of the longest prefix of `s` without Python whitespace. */
  function WordLength(s: string): (n: nat)
    ensures n <= |s|
    ensures forall i :: 0 <= i < n ==> !IsPySpace(s[i])
    ensures n < |s| ==> IsPySpace(s[n])
  {
    if |s| == 0 || IsPySpace(s[0]) then 0 else 1 + WordLength(s[1..])
  }

  /** A piece of `s.split()`: non-empty and free of whitespace. */
  predicate IsWord(w: string) {
    |w| > 0 && forall i :: 0 <= i < |w| ==> !IsPySpace(w[i])
  }

  /** `s.split()` with no argument: the maximal runs of non-whitespace. */
  function Words(s: string): (ws: seq<string>)
    ensures forall i :: 0 <= i < |ws| ==> IsWord(ws[i])
    decreases |s|
  {
    if |s| == 0 then []
    else if IsPySpace(s[0]) then Words(s[1..])
    else
      var n := WordLength(s);
      [s[..n]] + Words(s[n..])
  }

  /** A word followed by whitespace splits as that word first. */
  lemma WordsOfWordThenSpace(w: string, t: string)
    requires IsWord(w)
    requires |t| > 0 && IsPySpace(t[0])
    ensures Words(w + t) == [w] + Words(t)
  {
    var s := w + t;
    assert s[..|w|] == w;
    assert WordLength(s) == |w| by {
      WordLengthOfPrefix(s, |w|);
    }
    assert s[|w|..] == t;
  }

  lemma {:induction false} WordLengthOfPrefix(s: string, n: nat)
    requires n < |s| && IsPySpace(s[n])
    requires forall i :: 0 <= i < n ==> !IsPySpace(s[i])
    ensures WordLength(s) == n
    decreases n
  {
    if n > 0 {
      WordLengthOfPrefix(s[1..], n - 1);
    }
  }

  /** Round trip: splitting a space-joined list of words gives the words back. */
  lemma {:induction false} WordsOfJoin(ws: seq<string>)
    requires forall i :: 0 <= i < |ws| ==> IsWord(ws[i])
    ensures Words(Join(ws, " ")) == ws
    decreases |ws|
  {
    if |ws| == 0 {
    } else if |ws| == 1 {
      var w := ws[0];
      assert WordLength(w) == |w| by { WordLengthAll(w); }
      assert w[..|w|] == w;
      assert w[|w|..] == [];
    } else {
      var rest := Join(ws[1..], " ");
      WordsOfJoin(ws[1..]);
      assert Join(ws, " ") == ws[0] + (" " + rest);
      WordsOfWordThenSpace(ws[0], " " + rest);
      assert (" " + rest)[1..] == rest;
    }
  }

  lemma {:induction false} WordLengthAll(w: string)
    requires forall i :: 0 <= i < |w| ==> !IsPySpace(w[i])
    ensures WordLength(w) == |w|
    decreases |w|
  {
    if |w| > 0 {
      WordLengthAll(w[1..]);
    }
  }

  /** Decimal digits of a natural number, most significant first, as
      JavaScript template literals and Python f-strings render it. */
  function NatToString(n: nat): (r: string)
    ensures |r| > 0
    ensures forall i :: 0 <= i < |r| ==> IsDigit(r[i])
    ensures |r| > 1 ==> r[0] != '0'
    decreases n
  {
    if n < 10 then [('0' as int + n) as char]
    else NatToString(n / 10) + [('0' as int + n % 10) as char]
  }

  /** Value of a string of decimal digits. */
  function DigitsValue(s: string): nat
    requires forall i :: 0 <= i < |s| ==> IsDigit(s[i])
  {
    if |s| == 0 then 0
    else
      assert IsDigit(s[|s| - 1]);
      10 * DigitsValue(s[..|s| - 1]) + (s[|s| - 1] as int - '0' as int)
  }

  /** Round trip: reading back a rendered number gives the number. */
  lemma {:induction false} DigitsValueOfNatToString(n: nat)
    ensures DigitsValue(NatToString(n)) == n
    decreases n
  {
    if n >= 10 {
      var s := NatToString(n);
      DigitsValueOfNatToString(n / 10);
      assert s[..|s| - 1] == NatToString(n / 10);
    }
  }

  /** Different numbers render differently. */
  lemma NatToStringInjective(a: nat, b: nat)
    requires NatToString(a) == NatToString(b)
    ensures a == b
  {
    DigitsValueOfNatToString(a);
    DigitsValueOfNatToString(b);
  }

  /** Joining two non-empty lists is joining each and putting one separator
      between them. */
  lemma {:induction false} JoinAppend(a: seq<string>, b: seq<string>, sep: string)
    requires |a| > 0 && |b| > 0
    ensures Join(a + b, sep) == Join(a, sep) + sep + Join(b, sep)
    decreases |a|
  {
    if |a| == 1 {
      assert (a + b)[1..] == b;
    } else {
      assert (a + b)[1..] == a[1..] + b;
      JoinAppend(a[1..], b, sep);
    }
  }

  /** A character property held by every piece and by the separator holds
      throughout the joined string. */
  lemma {:induction false} JoinKeeps(parts: seq<string>, sep: string, P: char -> bool)
    requires forall i, j :: 0 <= i < |parts| && 0 <= j < |parts[i]| ==> P(parts[i][j])
    requires forall j :: 0 <= j < |sep| ==> P(sep[j])
    ensures forall j :: 0 <= j < |Join(parts, sep)| ==> P(Join(parts, sep)[j])
    decreases |parts|
  {
    if |parts| >= 2 {
      JoinKeeps(parts[1..], sep, P);
      var r := Join(parts, sep);
      var rest := Join(parts[1..], sep);
      assert r == parts[0] + sep + rest;
      forall j | 0 <= j < |r| ensures P(r[j]) {
        if j < |parts[0]| {
          assert r[j] == parts[0][j];
        } else if j < |parts[0]| + |sep| {
          assert r[j] == sep[j - |parts[0]|];
        } else {
          assert r[j] == rest[j - |parts[0]| - |sep|];
        }
      }
    } else if |parts| == 1 {
      assert Join(parts, sep) == parts[0];
    }
  }

  /** A character property of the whole string holds in every piece of its
      split. */
  lemma {:induction false} SplitOnKeeps(s: string, c: char, P: char -> bool)
    requires forall j :: 0 <= j < |s| ==> P(s[j])
    ensures forall i, j :: 0 <= i < |SplitOn(s, c)| && 0 <= j < |SplitOn(s, c)[i]| ==> P(SplitOn(s, c)[i][j])
    decreases |s|
  {
    var n := SegmentLength(s, c);
    if n < |s| {
      SplitOnKeeps(s[n + 1..], c, P);
      var parts := SplitOn(s, c);
      assert parts == [s[..n]] + SplitOn(s[n + 1..], c);
      forall i, j | 0 <= i < |parts| && 0 <= j < |parts[i]| ensures P(parts[i][j]) {
        if i > 0 {
          assert parts[i] == SplitOn(s[n + 1..], c)[i - 1];
        }
      }
    }
  }

  /** A character property of `s` holds in every slice of it, and in
      particular in its stripped form. */
  lemma SliceKeeps(s: string, r: string, k: int, P: char -> bool)
    requires forall j :: 0 <= j < |s| ==> P(s[j])
    requires OccursAt(s, r, k)
    ensures forall j :: 0 <= j < |r| ==> P(r[j])
  {
    forall j | 0 <= j < |r| ensures P(r[j]) {
      assert r[j] == s[k + j];
    }
  }

  lemma StripKeeps(s: string, ws: char -> bool, P: char -> bool)
    requires forall j :: 0 <= j < |s| ==> P(s[j])
    ensures forall j :: 0 <= j < |Strip(s, ws)| ==> P(Strip(s, ws)[j])
  {
    var r := Strip(s, ws);
    var k :| 0 <= k <= |s| - |r| && OccursAt(s, r, k);
    SliceKeeps(s, r, k, P);
  }

  /** Whatever occurs in a slice of `s` occurs in `s`. */
  lemma ContainsOfSlice(s: string, r: string, k: int, sub: string)
    requires OccursAt(s, r, k)
    requires Contains(r, sub)
    ensures Contains(s, sub)
  {
    var m :| 0 <= m <= |r| - |sub| && OccursAt(r, sub, m);
    assert r == s[k..k + |r|];
    forall j | 0 <= j < |sub| ensures s[k + m + j] == sub[j] {
      assert sub[j] == r[m + j];
    }
    assert s[k + m..k + m + |sub|] == sub;
    assert OccursAt(s, sub, k + m);
  }

  /** A suffix occurs where it starts. */
  lemma SuffixOccurs(s: string, k: nat)
    requires k <= |s|
    ensures OccursAt(s, s[k..], k)
  {
    assert s[k..k + |s[k..]|] == s[k..];
  }

  /** A slice of a slice is a slice. */
  lemma OccursAtTrans(s: string, m: string, k1: int, r: string, k2: int)
    requires OccursAt(s, m, k1) && OccursAt(m, r, k2)
    ensures OccursAt(s, r, k1 + k2)
  {
    assert m == s[k1..k1 + |m|];
    assert r == m[k2..k2 + |r|];
    forall j | 0 <= j < |r| ensures s[k1 + k2 + j] == r[j] {
      assert r[j] == m[k2 + j];
    }
    assert s[k1 + k2..k1 + k2 + |r|] == r;
  }
}

=== FILE: textbook.dfy ===
/**
 * The two text post-processors of GeoSolveAI/app.py: `format_textbook_solution`
 * (numbered solution steps followed by the final answer) and `clean_markdown`
 * (markdown stripped from an explanation before it is shown).
 */
module Textbook {
  import opened Text

  // ---------------------------------------------------------------------
  // format_textbook_solution
  // ---------------------------------------------------------------------

  /** A step is printed when it is non-empty after stripping. */
  predicate Printed(step: string) {
    !Blank(step, IsPySpace)
  }

  /** The line printed for the step at 1-based position `number`. */
  function StepLine(number: nat, step: string): string {
    NatToString(number) + ". " + PyStrip(step)
  }

  /** The 0-based positions of the printed steps, in increasing order. */
  function PrintedIndices(steps: seq<string>): (ix: seq<nat>)
    ensures forall k :: 0 <= k < |ix| ==> ix[k] < |steps| && Printed(steps[ix[k]])
    ensures forall k, l :: 0 <= k < l < |ix| ==> ix[k] < ix[l]
    ensures forall i :: 0 <= i < |steps| && Printed(steps[i]) ==> i in ix
  {
    if |steps| == 0 then []
    else
      var front := steps[..|steps| - 1];
      var ix := PrintedIndices(front);
      assert forall k :: 0 <= k < |ix| ==> steps[ix[k]] == front[ix[k]];
      ix + (if Printed(steps[|steps| - 1]) then [|steps| - 1] else [])
  }

  /** The printed steps paired with their 1-based positions, built the way
      the source's `enumerate` loop builds them. */
  function NumberedSteps(steps: seq<string>): seq<(nat, string)> {
    if |steps| == 0 then []
    else
      NumberedSteps(steps[..|steps| - 1])
      + (if Printed(steps[|steps| - 1]) then [(|steps|, steps[|steps| - 1])] else [])
  }

  /** Exactly the printed steps, in order, each with its original position:
      a blank step is skipped but still consumes its number. */
  lemma {:induction false} NumberedStepsSpec(steps: seq<string>)
    ensures NumberedMatchesIndices(steps)
  {
    if |steps| > 0 {
      NumberedStepsSpec(steps[..|steps| - 1]);
      NumberedStepsLast(steps);
    }
  }

  /** `NumberedSteps` lists the printed steps at `PrintedIndices`, numbered from 1. */
  predicate NumberedMatchesIndices(steps: seq<string>) {
    && |NumberedSteps(steps)| == |PrintedIndices(steps)|
    && forall k :: 0 <= k < |NumberedSteps(steps)| ==>
      NumberedSteps(steps)[k] == (PrintedIndices(steps)[k] + 1, steps[PrintedIndices(steps)[k]])
  }

  /** The step of `NumberedStepsSpec`: appending one step keeps the pairing. */
  lemma NumberedStepsLast(steps: seq<string>)
    requires |steps| > 0 && NumberedMatchesIndices(steps[..|steps| - 1])
    ensures NumberedMatchesIndices(steps)
  {
    if Printed(steps[|steps| - 1]) {
      NumberedPrintedLast(steps);
    } else {
      NumberedBlankLast(steps);
    }
  }

  /** A printed last step adds its own pair. */
  lemma NumberedPrintedLast(steps: seq<string>)
    requires |steps| > 0 && NumberedMatchesIndices(steps[..|steps| - 1]) && Printed(steps[|steps| - 1])
    ensures NumberedMatchesIndices(steps)
  {
    var front := steps[..|steps| - 1];
    var ix, ns := PrintedIndices(front), NumberedSteps(front);
    assert PrintedIndices(steps) == ix + [|steps| - 1];
    assert NumberedSteps(steps) == ns + [(|steps|, steps[|steps| - 1])];
    PairingAppend(steps, ix, ns, [|steps| - 1], [(|steps|, steps[|steps| - 1])],
                  PrintedIndices(steps), NumberedSteps(steps));
  }

  /** A blank last step adds no pair. */
  lemma NumberedBlankLast(steps: seq<string>)
    requires |steps| > 0 && NumberedMatchesIndices(steps[..|steps| - 1]) && !Printed(steps[|steps| - 1])
    ensures NumberedMatchesIndices(steps)
  {
    var front := steps[..|steps| - 1];
    var ix, ns := PrintedIndices(front), NumberedSteps(front);
    assert PrintedIndices(steps) == ix + [];
    assert NumberedSteps(steps) == ns + [];
    PairingAppend(steps, ix, ns, [], [], PrintedIndices(steps), NumberedSteps(steps));
  }

  /** Pairs `(i + 1, steps[i])` over a prefix of `steps`, followed by such
      pairs over `steps` itself, are such pairs over `steps`. */
  lemma PairingAppend(steps: seq<string>, ix: seq<nat>, ns: seq<(nat, string)>,
                      moreIx: seq<nat>, moreNs: seq<(nat, string)>,
                      allIx: seq<nat>, allNs: seq<(nat, string)>)
    requires |steps| > 0 && |ns| == |ix| && |moreNs| == |moreIx|
    requires allIx == ix + moreIx && allNs == ns + moreNs
    requires forall k :: 0 <= k < |ix| ==> ix[k] < |steps| - 1
    requires forall k :: 0 <= k < |ns| ==> ns[k] == (ix[k] + 1, steps[..|steps| - 1][ix[k]])
    requires forall k :: 0 <= k < |moreIx| ==> moreIx[k] < |steps|
    requires forall k :: 0 <= k < |moreNs| ==> moreNs[k] == (moreIx[k] + 1, steps[moreIx[k]])
    ensures |allNs| == |allIx|
    ensures forall k :: 0 <= k < |allNs| ==> allNs[k] == (allIx[k] + 1, steps[allIx[k]])
  {
    forall k | 0 <= k < |allNs|
      ensures allNs[k] == (allIx[k] + 1, steps[allIx[k]])
    {
      if k < |ns| {
        assert steps[..|steps| - 1][ix[k]] == steps[ix[k]];
      } else {
        assert allNs[k] == moreNs[k - |ns|];
      }
    }
  }

  /** The lines printed for the numbered steps. */
  function NumberedLines(steps: seq<string>): seq<string> {
    var ns := NumberedSteps(steps);
    seq(|ns|, k requires 0 <= k < |ns| => StepLine(ns[k].0, ns[k].1))
  }

  /** With no printed step there are no numbered lines. */
  lemma NoNumberedLines(steps: seq<string>)
    requires forall i :: 0 <= i < |steps| ==> !Printed(steps[i])
    ensures |NumberedLines(steps)| == 0
  {
    NumberedStepsSpec(steps);
    NoPrintedIndices(steps);
  }

  /** No index is listed exactly when no step is printed. */
  lemma {:induction false} NoPrintedIndices(steps: seq<string>)
    ensures |PrintedIndices(steps)| == 0 <==> forall i :: 0 <= i < |steps| ==> !Printed(steps[i])
  {
    if |steps| > 0 {
      var front := steps[..|steps| - 1];
      NoPrintedIndices(front);
      assert forall i :: 0 <= i < |front| ==> front[i] == steps[i];
    }
  }

  /** One line per printed step, then an empty line and the final answer, all
      joined by newlines; with every step blank only the empty line and the
      answer remain. */
  function FormatTextbookSolution(steps: seq<string>, solution: string): (r: string)
    ensures (forall i :: 0 <= i < |steps| ==> !Printed(steps[i])) ==> r == "\nFinal Answer: " + solution
    ensures |NumberedLines(steps)| > 0 ==>
      r == Join(NumberedLines(steps), "\n") + "\n" + "\nFinal Answer: " + solution
  {
    var lines := NumberedLines(steps);
    var tail := ["", "Final Answer: " + solution];
    FormatTail(lines, tail, solution);
    if forall i :: 0 <= i < |steps| ==> !Printed(steps[i]) then
      NoNumberedLines(steps);
      Join(lines + tail, "\n")
    else Join(lines + tail, "\n")
  }

  lemma FormatTail(lines: seq<string>, tail: seq<string>, solution: string)
    requires tail == ["", "Final Answer: " + solution]
    ensures |lines| == 0 ==> Join(lines + tail, "\n") == "\nFinal Answer: " + solution
    ensures |lines| > 0 ==> Join(lines + tail, "\n") == Join(lines, "\n") + "\n" + "\nFinal Answer: " + solution
  {
    var f := "Final Answer: " + solution;
    assert Join(tail, "\n") == "\nFinal Answer: " + solution by {
      assert tail[1..] == [f];
      assert Join(tail, "\n") == "" + "\n" + f;
      AnswerLine(solution);
    }
    if |lines| > 0 {
      JoinAppend(lines, tail, "\n");
    } else {
      assert lines + tail == tail;
    }
  }

  /** The answer line after its line break. */
  lemma AnswerLine(solution: string)
    ensures "" + "\n" + ("Final Answer: " + solution) == "\nFinal Answer: " + solution
  {
    assert "\n" + "Final Answer: " == "\nFinal Answer: ";
  }

  /** A blank step is skipped but still consumes its number. */
  lemma NumberedStepsExample()
    ensures NumberedSteps(["x + 1 = 3", "  ", "x = 2"]) == [(1, "x + 1 = 3"), (3, "x = 2")]
  {
    var steps := ["x + 1 = 3", "  ", "x = 2"];
    assert Printed(steps[0]) by { assert !IsPySpace(steps[0][0]); }
    assert !Printed(steps[1]);
    assert Printed(steps[2]) by { assert !IsPySpace(steps[2][0]); }
    assert steps[..2][..1] == steps[..1];
    assert steps[..1][..0] == [];
    assert NumberedSteps(steps[..1]) == [(1, "x + 1 = 3")];
    assert NumberedSteps(steps[..2]) == [(1, "x + 1 = 3")];
  }

  // ---------------------------------------------------------------------
  // clean_markdown
  // ---------------------------------------------------------------------

  /** The characters removed wholesale: emphasis, code and math markers. */
  predicate IsMarkup(c: char) {
    c == '*' || c == '_' || c == '`' || c == '$'
  }

  predicate MarkupFree(s: string) {
    forall j :: 0 <= j < |s| ==> !IsMarkup(s[j])
  }

  predicate NotBreak(c: char) { c != '\n' }

  /** Index `i` is where a line of `s` begins (the regex anchor `^` under
      `re.MULTILINE`). */
  predicate LineStart(s: string, i: nat) {
    i == 0 || (0 < i <= |s| && s[i - 1] == '\n')
  }

  predicate IsHash(c: char) { c == '#' }

  /** The characters a header match consumes. */
  predicate IsHashOrSpace(c: char) { c == '#' || IsPySpace(c) }

  /** Length of the match of `^#+\s+` at index `i`, 0 when there is none:
      at a line start, the whole run of `#` followed by a non-empty run of
      whitespace, taken whole (`\s` crosses line ends). */
  function HeaderMatch(s: string, i: nat): (n: nat)
    requires i <= |s|
    ensures i + n <= |s|
    ensures n > 0 <==>
      LineStart(s, i) && RunFrom(s, i, IsHash) > 0 && RunFrom(s, i + RunFrom(s, i, IsHash), IsPySpace) > 0
    ensures n > 0 ==> n == RunFrom(s, i, IsHash) + RunFrom(s, i + RunFrom(s, i, IsHash), IsPySpace)
  {
    if !LineStart(s, i) then 0
    else
      var h := RunFrom(s, i, IsHash);
      if h == 0 then 0
      else
        var w := RunFrom(s, i + h, IsPySpace);
        if w == 0 then 0 else h + w
  }

  /** `re.sub(r'^#+\s+', '', s[i..], flags=re.MULTILINE)`, matches scanned from
      the left and never overlapping. */
  function RemoveHeadersFrom(s: string, i: nat): (r: string)
    requires i <= |s|
    ensures |r| <= |s| - i
    decreases |s| - i
  {
    if i == |s| then ""
    else
      var m := HeaderMatch(s, i);
      if m > 0 then RemoveHeadersFrom(s, i + m)
      else [s[i]] + RemoveHeadersFrom(s, i + 1)
  }

  function RemoveHeaders(s: string): string {
    RemoveHeadersFrom(s, 0)
  }

  /** Text with no header marker at any line start is left unchanged. */
  lemma {:induction false} RemoveHeadersIdentity(s: string, i: nat)
    requires i <= |s|
    requires forall j :: i <= j < |s| ==> HeaderMatch(s, j) == 0
    ensures RemoveHeadersFrom(s, i) == s[i..]
    decreases |s| - i
  {
    if i < |s| {
      RemoveHeadersIdentity(s, i + 1);
      assert s[i..] == [s[i]] + s[i + 1..];
    }
  }

  /** Header removal deletes nothing but `#` and whitespace: with those
      ignored, the text is unchanged. */
  lemma RemoveHeadersOnlyDeletes(s: string, i: nat)
    requires i <= |s|
    ensures Without(RemoveHeadersFrom(s, i), IsHashOrSpace) == Without(s[i..], IsHashOrSpace)
  {
    OnlyDeletesFrom(s, i, IsHashOrSpace);
  }

  /** `drop` holds at least for `#` and whitespace. */
  predicate DropsHeaderChars(drop: char -> bool) {
    forall c {:trigger IsHashOrSpace(c)} :: IsHashOrSpace(c) ==> drop(c)
  }

  /** The induction behind `RemoveHeadersOnlyDeletes`, for any `drop` that
      ignores at least `#` and whitespace. */
  lemma {:induction false} OnlyDeletesFrom(s: string, i: nat, drop: char -> bool)
    requires i <= |s| && DropsHeaderChars(drop)
    ensures Without(RemoveHeadersFrom(s, i), drop) == Without(s[i..], drop)
    decreases |s| - i, 1
  {
    if i == |s| {
      assert s[i..] == [];
    } else if HeaderMatch(s, i) > 0 {
      HeaderBranch(s, i, drop);
    } else {
      KeptBranch(s, i, drop);
    }
  }

  /** `OnlyDeletesFrom` at a position where a header match starts. */
  lemma {:induction false} HeaderBranch(s: string, i: nat, drop: char -> bool)
    requires i < |s| && HeaderMatch(s, i) > 0 && DropsHeaderChars(drop)
    ensures Without(RemoveHeadersFrom(s, i), drop) == Without(s[i..], drop)
    decreases |s| - i, 0
  {
    var m := HeaderMatch(s, i);
    OnlyDeletesFrom(s, i + m, drop);
    assert Without(RemoveHeadersFrom(s, i + m), drop) == Without(s[i + m..], drop);
    HeaderMatchDropped(s, i, m, drop);
  }

  /** `OnlyDeletesFrom` at a position where no header match starts. */
  lemma {:induction false} KeptBranch(s: string, i: nat, drop: char -> bool)
    requires i < |s| && HeaderMatch(s, i) == 0 && DropsHeaderChars(drop)
    ensures Without(RemoveHeadersFrom(s, i), drop) == Without(s[i..], drop)
    decreases |s| - i, 0
  {
    OnlyDeletesFrom(s, i + 1, drop);
    assert Without(RemoveHeadersFrom(s, i + 1), drop) == Without(s[i + 1..], drop);
    KeptCharStep(s, i, drop);
  }

  /** A character that starts no header match is kept in front of the rest. */
  lemma KeptCharStep(s: string, i: nat, drop: char -> bool)
    requires i < |s| && HeaderMatch(s, i) == 0
    requires Without(RemoveHeadersFrom(s, i + 1), drop) == Without(s[i + 1..], drop)
    ensures Without(RemoveHeadersFrom(s, i), drop) == Without(s[i..], drop)
  {
    RemoveHeadersKeep(s, i);
    SliceCons(s, i);
    WithoutCons(s[i], RemoveHeadersFrom(s, i + 1), s[i + 1..], RemoveHeadersFrom(s, i), s[i..], drop);
  }

  /** A character that starts no header match is copied. */
  lemma RemoveHeadersKeep(s: string, i: nat)
    requires i < |s| && HeaderMatch(s, i) == 0
    ensures RemoveHeadersFrom(s, i) == [s[i]] + RemoveHeadersFrom(s, i + 1)
  {
  }

  /** A suffix is its first character in front of the next suffix. */
  lemma SliceCons(s: string, i: nat)
    requires i < |s|
    ensures s[i..] == [s[i]] + s[i + 1..]
  {
  }

  /** Putting the same character in front of two strings that lose the same
      characters keeps them so. */
  lemma WithoutCons(c: char, x: string, y: string, cx: string, cy: string, drop: char -> bool)
    requires Without(x, drop) == Without(y, drop)
    requires cx == [c] + x && cy == [c] + y
    ensures Without(cx, drop) == Without(cy, drop)
  {
    WithoutConcat([c], x, drop);
    WithoutConcat([c], y, drop);
  }

  /** What a header match of length `m` consumes disappears once `#` and
      whitespace are ignored. */
  lemma HeaderMatchDropped(s: string, i: nat, m: nat, drop: char -> bool)
    requires i < |s| && m == HeaderMatch(s, i) && m > 0 && DropsHeaderChars(drop)
    requires Without(RemoveHeadersFrom(s, i + m), drop) == Without(s[i + m..], drop)
    ensures Without(RemoveHeadersFrom(s, i), drop) == Without(s[i..], drop)
  {
    assert RemoveHeadersFrom(s, i) == RemoveHeadersFrom(s, i + m) by {
      RemoveHeadersSkip(s, i);
    }
    assert Without(s[i..], drop) == Without(s[i + m..], drop) by {
      assert forall j :: i <= j < i + m ==> drop(s[j]) by {
        HeaderMatchChars(s, i);
      }
      WithoutDroppedRun(s, i, m, drop);
    }
  }

  /** A header match consumes only `#` and whitespace. */
  lemma HeaderMatchChars(s: string, i: nat)
    requires i <= |s|
    ensures forall j :: i <= j < i + HeaderMatch(s, i) ==> IsHashOrSpace(s[j])
  {
  }

  /** A header match is skipped as a whole. */
  lemma RemoveHeadersSkip(s: string, i: nat)
    requires i < |s| && HeaderMatch(s, i) > 0
    ensures RemoveHeadersFrom(s, i) == RemoveHeadersFrom(s, i + HeaderMatch(s, i))
  {
  }

  /** A `##` heading loses its markers and the following blank. */
  lemma RemoveHeadersExample()
    ensures RemoveHeaders("## Area\nA = 6") == "Area\nA = 6"
  {
    var t := "Area\nA = 6";
    var s := "## " + t;
    assert s == "## Area\nA = 6" by { HeaderExampleText(); }
    assert HeaderMatch(s, 0) == 3 by {
      assert s[0] == '#' && s[1] == '#' && s[2] == ' ' && s[3] == 'A';
      assert RunFrom(s, 2, IsHash) == 0;
      assert RunFrom(s, 0, IsHash) == 2;
      assert RunFrom(s, 3, IsPySpace) == 0;
      assert RunFrom(s, 2, IsPySpace) == 1;
    }
    assert forall j :: 3 <= j < |s| ==> s[j] != '#' by {
      forall j | 3 <= j < |s| ensures s[j] != '#' {
        assert s[j] == t[j - 3];
      }
    }
    NoHashNoHeader(s, 3);
    RemoveHeadersIdentity(s, 3);
    assert s[3..] == t;
  }

  lemma HeaderExampleText()
    ensures "## " + "Area\nA = 6" == "## Area\nA = 6"
  {
  }

  /** Without `#` from `i` on, no header match starts there. */
  lemma NoHashNoHeader(s: string, i: nat)
    requires i <= |s|
    requires forall j :: i <= j < |s| ==> s[j] != '#'
    ensures forall j :: i <= j < |s| ==> HeaderMatch(s, j) == 0
  {
    forall j | i <= j < |s| ensures HeaderMatch(s, j) == 0 {
      assert RunFrom(s, j, IsHash) == 0;
    }
  }

  /** The six marker removals: `**`, `__`, `*`, `_`, backtick, `$`. Since
      the double markers are made of the single ones, exactly the marker
      characters are deleted and everything else is kept in order. */
  function RemoveMarkup(t: string): (r: string)
    ensures MarkupFree(r)
    ensures r == Without(t, IsMarkup)
  {
    var t1 := ReplaceAll(t, "**", "");
    var t2 := ReplaceAll(t1, "__", "");
    var t3 := ReplaceAll(t2, "*", "");
    var t4 := ReplaceAll(t3, "_", "");
    var t5 := ReplaceAll(t4, "`", "");
    var t6 := ReplaceAll(t5, "$", "");
    RemoveMarkupSteps(t, t1, t2, t3, t4, t5, t6);
    t6
  }

  lemma RemoveMarkupSteps(t: string, t1: string, t2: string, t3: string, t4: string, t5: string, t6: string)
    requires t1 == ReplaceAll(t, "**", "") && t2 == ReplaceAll(t1, "__", "")
    requires t3 == ReplaceAll(t2, "*", "") && t4 == ReplaceAll(t3, "_", "")
    requires t5 == ReplaceAll(t4, "`", "") && t6 == ReplaceAll(t5, "$", "")
    ensures MarkupFree(t6)
    ensures t6 == Without(t, IsMarkup)
  {
    WithoutReplaceAll(t, "**", IsMarkup);
    WithoutReplaceAll(t1, "__", IsMarkup);
    WithoutReplaceAll(t2, "*", IsMarkup);
    WithoutReplaceAll(t3, "_", IsMarkup);
    WithoutReplaceAll(t4, "`", IsMarkup);
    WithoutReplaceAll(t5, "$", IsMarkup);
    ReplaceAllChars(t3, "_", "");
    ReplaceAllChars(t4, "`", "");
    ReplaceAllChars(t5, "$", "");
    ReplaceCharRemovesIt(t2, '*', "");
    ReplaceCharRemovesIt(t3, '_', "");
    ReplaceCharRemovesIt(t4, '`', "");
    ReplaceCharRemovesIt(t5, '$', "");
    assert forall j :: 0 <= j < |t6| ==> t6[j] in t6;
    WithoutNoneDropped(t6, IsMarkup);
  }

  /** One line of the cleanup loop: a bullet (`-` or `•` after stripping)
      loses its marker and surrounding blanks; any other line loses only
      trailing blanks. */
  function CleanLine(line: string): string {
    var stripped := PyStrip(line);
    if |stripped| > 0 && (stripped[0] == '-' || stripped[0] == '•') then PyStrip(stripped[1..])
    else StripRight(line, IsPySpace)
  }

  /** A cleaned line is a contiguous slice of the line it came from. */
  lemma CleanLineIsSlice(line: string)
    ensures exists k | 0 <= k <= |line| - |CleanLine(line)| :: OccursAt(line, CleanLine(line), k)
  {
    var stripped := PyStrip(line);
    if |stripped| > 0 && (stripped[0] == '-' || stripped[0] == '•') {
      var rest := stripped[1..];
      var r := PyStrip(rest);
      assert CleanLine(line) == r;
      var k1 :| 0 <= k1 <= |line| - |stripped| && OccursAt(line, stripped, k1);
      var k2 :| 0 <= k2 <= |rest| - |r| && OccursAt(rest, r, k2);
      BulletSlice(line, stripped, k1, r, k2);
    } else {
      var r := StripRight(line, IsPySpace);
      assert CleanLine(line) == r;
      assert OccursAt(line, r, 0);
    }
  }

  /** What occurs inside a line's stripped text past its marker occurs in
      the line. */
  lemma BulletSlice(line: string, stripped: string, k1: int, r: string, k2: int)
    requires |stripped| > 0 && OccursAt(line, stripped, k1)
    requires OccursAt(stripped[1..], r, k2)
    ensures OccursAt(line, r, k1 + 1 + k2)
  {
    SuffixOccurs(stripped, 1);
    OccursAtTrans(line, stripped, k1, stripped[1..], 1);
    OccursAtTrans(line, stripped[1..], k1 + 1, r, k2);
  }

  /** Lines that are blank after stripping. */
  predicate BlankLine(line: string) {
    Blank(line, IsPySpace)
  }

  /** The non-blank lines of `lines`, in order. */
  function NonBlank(lines: seq<string>): seq<string> {
    if |lines| == 0 then []
    else (if BlankLine(lines[0]) then [] else [lines[0]]) + NonBlank(lines[1..])
  }

  /** `lines` without its leading blank lines. */
  function DropLeadingBlank(lines: seq<string>): seq<string>
    decreases |lines|
  {
    if |lines| > 0 && BlankLine(lines[0]) then DropLeadingBlank(lines[1..]) else lines
  }

  /** `lines` without its trailing blank lines. */
  function DropTrailingBlank(lines: seq<string>): seq<string>
    decreases |lines|
  {
    if |lines| > 0 && BlankLine(lines[|lines| - 1]) then DropTrailingBlank(lines[..|lines| - 1]) else lines
  }

  /** `lines` from its first to its last non-blank line. */
  function TrimBlankEnds(lines: seq<string>): seq<string> {
    DropTrailingBlank(DropLeadingBlank(lines))
  }

  /** The blank-line squeeze: a run of blank lines becomes one empty line
      (none at all when the line before was blank); other lines pass
      unchanged. */
  function CollapseBlankLines(lines: seq<string>, prevBlank: bool): seq<string> {
    if |lines| == 0 then []
    else if BlankLine(lines[0]) then
      (if prevBlank then [] else [""]) + CollapseBlankLines(lines[1..], true)
    else
      [lines[0]] + CollapseBlankLines(lines[1..], false)
  }

  /** The shape of a squeezed list: blank entries are exactly the empty
      string, no two of them are adjacent, none comes first after a blank
      line, and the non-blank lines are those of the input, in order. */
  predicate Squeezed(r: seq<string>, prevBlank: bool) {
    && (forall k :: 0 <= k < |r| ==> r[k] == "" || !BlankLine(r[k]))
    && (forall k :: 0 <= k < |r| - 1 ==> !(r[k] == "" && r[k + 1] == ""))
    && (prevBlank && |r| > 0 ==> r[0] != "")
  }

  lemma CollapseBlankLinesSpec(lines: seq<string>, prevBlank: bool)
    ensures Squeezed(CollapseBlankLines(lines, prevBlank), prevBlank)
    ensures NonBlank(CollapseBlankLines(lines, prevBlank)) == NonBlank(lines)
    ensures forall k :: 0 <= k < |CollapseBlankLines(lines, prevBlank)| && CollapseBlankLines(lines, prevBlank)[k] != ""
              ==> CollapseBlankLines(lines, prevBlank)[k] in lines
  {
    CollapseSqueezed(lines, prevBlank);
    CollapseKeepsNonBlank(lines, prevBlank);
    CollapseFromInput(lines, prevBlank);
  }

  /** Whether the line before the next one is blank, after `lines` have been
      read starting from `prevBlank`. */
  function BlankAfter(lines: seq<string>, prevBlank: bool): bool {
    if |lines| == 0 then prevBlank else BlankLine(lines[|lines| - 1])
  }

  /** The squeeze reads the lines one at a time: squeezing a concatenation is
      squeezing the first part, then the second from the first part's last
      line on. With `CollapseBlankLinesOne` this fixes it on every input. */
  lemma {:induction false} CollapseBlankLinesConcat(xs: seq<string>, ys: seq<string>, prevBlank: bool)
    ensures CollapseBlankLines(xs + ys, prevBlank)
            == CollapseBlankLines(xs, prevBlank) + CollapseBlankLines(ys, BlankAfter(xs, prevBlank))
    decreases |xs|
  {
    if |xs| == 0 {
      assert xs + ys == ys;
    } else {
      var b := BlankLine(xs[0]);
      var head := if b then (if prevBlank then [] else [""]) else [xs[0]];
      var mid, tail := CollapseBlankLines(xs[1..], b), CollapseBlankLines(ys, BlankAfter(xs, prevBlank));
      assert CollapseBlankLines(xs + ys, prevBlank) == head + CollapseBlankLines(xs[1..] + ys, b) by {
        CollapseHead(xs + ys, prevBlank);
        assert (xs + ys)[0] == xs[0] && (xs + ys)[1..] == xs[1..] + ys;
      }
      assert CollapseBlankLines(xs[1..] + ys, b) == mid + tail by {
        CollapseBlankLinesConcat(xs[1..], ys, b);
        BlankAfterTail(xs, prevBlank);
      }
      assert CollapseBlankLines(xs, prevBlank) == head + mid by {
        CollapseHead(xs, prevBlank);
      }
      assert head + (mid + tail) == (head + mid) + tail;
    }
  }

  /** The squeeze of a non-empty list: its first line's contribution, then
      the rest. */
  lemma CollapseHead(lines: seq<string>, prevBlank: bool)
    requires |lines| > 0
    ensures var b := BlankLine(lines[0]);
      CollapseBlankLines(lines, prevBlank)
      == (if b then (if prevBlank then [] else [""]) else [lines[0]]) + CollapseBlankLines(lines[1..], b)
  {
  }

  /** Reading the first line and then the rest ends on the same line. */
  lemma BlankAfterTail(xs: seq<string>, prevBlank: bool)
    requires |xs| > 0
    ensures BlankAfter(xs[1..], BlankLine(xs[0])) == BlankAfter(xs, prevBlank)
  {
    if |xs| > 1 {
      assert xs[1..][|xs[1..]| - 1] == xs[|xs| - 1];
    }
  }

  /** One line: a blank line becomes one empty line, or nothing right after
      a blank line; any other line is kept as it is. */
  lemma CollapseBlankLinesOne(line: string, prevBlank: bool)
    ensures CollapseBlankLines([line], prevBlank)
            == if BlankLine(line) then (if prevBlank then [] else [""]) else [line]
  {
    assert [line][1..] == [];
  }

  /** Two blank lines between paragraphs squeeze to one empty line; a
      blank line right at the start stays as one empty line too. */
  lemma CollapseBlankLinesExample(a: string, b: string)
    requires a == "a" && b == "b"
    ensures CollapseBlankLines(["", a, "", " ", b], false) == ["", a, "", b]
  {
    var lines := ["", a, "", " ", b];
    assert !IsPySpace(a[0]) && !IsPySpace(b[0]);
    assert BlankLine("") && BlankLine(" ") && !BlankLine(a) && !BlankLine(b);
    assert lines[1..] == [a, "", " ", b] && lines[2..] == ["", " ", b];
    assert lines[3..] == [" ", b] && lines[4..] == [b] && lines[5..] == [];
    assert CollapseBlankLines(lines[4..], true) == [b];
    assert CollapseBlankLines(lines[3..], true) == [b];
    assert CollapseBlankLines(lines[2..], false) == ["", b];
    assert CollapseBlankLines(lines[1..], true) == [a, "", b];
  }

  lemma {:induction false} CollapseSqueezed(lines: seq<string>, prevBlank: bool)
    ensures Squeezed(CollapseBlankLines(lines, prevBlank), prevBlank)
    decreases |lines|
  {
    if |lines| > 0 {
      var r := CollapseBlankLines(lines, prevBlank);
      if BlankLine(lines[0]) {
        CollapseSqueezed(lines[1..], true);
        var rest := CollapseBlankLines(lines[1..], true);
        if !prevBlank {
          assert r == [""] + rest;
        } else {
          assert r == rest;
        }
      } else {
        CollapseSqueezed(lines[1..], false);
        assert r == [lines[0]] + CollapseBlankLines(lines[1..], false);
      }
    }
  }

  lemma {:induction false} CollapseKeepsNonBlank(lines: seq<string>, prevBlank: bool)
    ensures NonBlank(CollapseBlankLines(lines, prevBlank)) == NonBlank(lines)
    decreases |lines|
  {
    if |lines| > 0 {
      var r := CollapseBlankLines(lines, prevBlank);
      if BlankLine(lines[0]) {
        CollapseKeepsNonBlank(lines[1..], true);
        var rest := CollapseBlankLines(lines[1..], true);
        assert NonBlank(lines) == NonBlank(lines[1..]);
        if !prevBlank {
          assert r == [""] + rest;
          assert r[1..] == rest;
          assert BlankLine("");
        } else {
          assert r == rest;
        }
      } else {
        CollapseKeepsNonBlank(lines[1..], false);
        var rest := CollapseBlankLines(lines[1..], false);
        assert r == [lines[0]] + rest;
        assert r[1..] == rest;
      }
    }
  }

  lemma {:induction false} CollapseFromInput(lines: seq<string>, prevBlank: bool)
    ensures forall k :: 0 <= k < |CollapseBlankLines(lines, prevBlank)| && CollapseBlankLines(lines, prevBlank)[k] != ""
              ==> CollapseBlankLines(lines, prevBlank)[k] in lines
    decreases |lines|
  {
    if |lines| > 0 {
      var r := CollapseBlankLines(lines, prevBlank);
      var blank := BlankLine(lines[0]);
      CollapseFromInput(lines[1..], blank);
      var rest := CollapseBlankLines(lines[1..], blank);
      var head := if blank then (if prevBlank then [] else [""]) else [lines[0]];
      assert r == head + rest;
      forall k | 0 <= k < |r| && r[k] != "" ensures r[k] in lines {
        if k >= |head| {
          assert r[k] == rest[k - |head|];
          assert rest[k - |head|] in lines[1..];
        }
      }
    }
  }

  /** Squeezing twice is squeezing once. */
  lemma CollapseBlankLinesIdempotent(lines: seq<string>, prevBlank: bool)
    ensures CollapseBlankLines(CollapseBlankLines(lines, prevBlank), prevBlank)
            == CollapseBlankLines(lines, prevBlank)
  {
    CollapseBlankLinesSpec(lines, prevBlank);
    CollapseFixed(CollapseBlankLines(lines, prevBlank), prevBlank);
  }

  /** A squeezed list that starts after a blank line is a fixed point. */
  lemma {:induction false} CollapseFixed(r: seq<string>, prevBlank: bool)
    requires Squeezed(r, prevBlank)
    ensures CollapseBlankLines(r, prevBlank) == r
    decreases |r|
  {
    if |r| > 0 {
      if r[0] == "" {
        assert BlankLine(r[0]);
        CollapseFixed(r[1..], true);
      } else {
        CollapseFixed(r[1..], false);
      }
    }
  }

  /** A newline-joined list of newline-free lines begins with a newline only
      when its first line is empty and another line follows. */
  lemma JoinStartsWithBreak(lines: seq<string>)
    requires forall k :: 0 <= k < |lines| ==> '\n' !in lines[k]
    requires |Join(lines, "\n")| > 0 && Join(lines, "\n")[0] == '\n'
    ensures |lines| >= 2 && lines[0] == ""
  {
    if |lines| == 1 {
      assert false;
    } else if lines[0] != "" {
      assert false;
    }
  }

  /** With no two adjacent empty lines, the joined text never holds three
      newlines in a row. */
  lemma {:induction false} JoinNoTripleBreak(lines: seq<string>)
    requires forall k :: 0 <= k < |lines| ==> '\n' !in lines[k]
    requires forall k :: 0 <= k < |lines| - 1 ==> !(lines[k] == "" && lines[k + 1] == "")
    ensures !Contains(Join(lines, "\n"), "\n\n\n")
    decreases |lines|
  {
    if |lines| == 1 {
      var j := Join(lines, "\n");
      assert j == lines[0];
      ContainsFirstChar(j, "\n\n\n");
    } else if |lines| >= 2 {
      var head := lines[0];
      var tail := lines[1..];
      var j := Join(lines, "\n");
      var jt := Join(tail, "\n");
      assert j == head + "\n" + jt;
      JoinNoTripleBreak(tail);
      forall k | 0 <= k <= |j| - 3
        ensures !OccursAt(j, "\n\n\n", k)
      {
        TripleAt(j, k);
        if k < |head| {
          assert j[k] == head[k];
        } else if k > |head| {
          var k' := k - |head| - 1;
          TripleAt(jt, k');
          assert j[k] == jt[k'] && j[k + 1] == jt[k' + 1] && j[k + 2] == jt[k' + 2];
        } else {
          assert j[k + 1] == jt[0];
          if jt[0] == '\n' {
            JoinStartsWithBreak(tail);
            var jr := Join(tail[1..], "\n");
            assert jt == tail[0] + "\n" + jr;
            assert j[k + 2] == jr[0];
            if jr[0] == '\n' {
              assert false;
            }
          }
        }
      }
    }
  }

  /** Three newlines start at `k` exactly when the three characters there
      are newlines. */
  lemma TripleAt(s: string, k: int)
    requires 0 <= k <= |s| - 3
    ensures OccursAt(s, "\n\n\n", k) <==> s[k] == '\n' && s[k + 1] == '\n' && s[k + 2] == '\n'
  {
    assert s[k..k + 3][0] == s[k] && s[k..k + 3][1] == s[k + 1] && s[k..k + 3][2] == s[k + 2];
    if s[k] == '\n' && s[k + 1] == '\n' && s[k + 2] == '\n' {
      assert s[k..k + 3] == "\n\n\n";
    }
  }

  /** The lines of the text once headers and markers are gone, each cleaned
      as the loop cleans it. */
  function CleanedLines(text: string): seq<string> {
    var raw := SplitOn(RemoveMarkup(RemoveHeaders(text)), '\n');
    seq(|raw|, k requires 0 <= k < |raw| => CleanLine(raw[k]))
  }

  /** `clean_markdown(text)`: headers and markers removed, bullets unwrapped,
      trailing blanks dropped, blank-line runs squeezed, outer whitespace
      stripped. The result has no markup character, no outer whitespace and
      never two blank lines in a row. */
  function CleanMarkdown(text: string): (r: string)
    ensures MarkupFree(r)
    ensures |r| > 0 ==> !IsPySpace(r[0]) && !IsPySpace(r[|r| - 1])
    ensures !Contains(r, "\n\n\n")
  {
    var t := RemoveMarkup(RemoveHeaders(text));
    var raw := SplitOn(t, '\n');
    var cleaned := CleanedLines(text);
    var squeezed := CollapseBlankLines(cleaned, false);
    var joined := Join(squeezed, "\n");
    CleanMarkdownFacts(t, raw, cleaned, squeezed);
    var r := PyStrip(joined);
    StripKeeps(joined, IsPySpace, c => !IsMarkup(c));
    StripNoTripleBreak(joined);
    r
  }

  /** The content survives the cleanup: the non-blank lines of the result
      are the non-blank cleaned lines, in order, the first of them also
      stripped on the left by the final `strip()`; the result is empty
      exactly when no cleaned line has content. Line for line, the result
      is the squeezed list from its first to its last content line, so a
      run of blank lines between two content lines stays as one empty
      line. */
  lemma CleanMarkdownKeepsLines(text: string)
    ensures var ne := NonBlank(CleanedLines(text)); var r := CleanMarkdown(text);
      && (r == "" <==> ne == [])
      && (ne != [] ==> NonBlank(SplitOn(r, '\n')) == [StripLeft(ne[0], IsPySpace)] + ne[1..])
    ensures var core := TrimBlankEnds(CollapseBlankLines(CleanedLines(text), false));
      NonBlank(CleanedLines(text)) != [] ==>
        |core| > 0 && SplitOn(CleanMarkdown(text), '\n') == [StripLeft(core[0], IsPySpace)] + core[1..]
  {
    var cleaned := CleanedLines(text);
    var sq := CollapseBlankLines(cleaned, false);
    assert CleanMarkdown(text) == PyStrip(Join(sq, "\n"));
    CleanedLinesTidy(text);
    CollapseTidy(cleaned);
    if NonBlank(sq) == [] {
      StripJoinBlank(sq);
    } else {
      StripJoinContent(sq);
    }
  }

  /** Squeezing tidy lines gives tidy lines with the same content. */
  lemma CollapseTidy(cleaned: seq<string>)
    requires TidyLines(cleaned)
    ensures var sq := CollapseBlankLines(cleaned, false);
      Squeezed(sq, false) && TidyLines(sq) && NonBlank(sq) == NonBlank(cleaned)
  {
    var sq := CollapseBlankLines(cleaned, false);
    CollapseSqueezed(cleaned, false);
    CollapseKeepsNonBlank(cleaned, false);
    CollapseFromInput(cleaned, false);
    forall k | 0 <= k < |sq| ensures Tidy(sq[k]) {
      if sq[k] != "" {
        var j :| 0 <= j < |cleaned| && cleaned[j] == sq[k];
      }
    }
  }

  /** A line that is empty or ends in a non-blank character, with no line
      break inside. */
  predicate Tidy(line: string) {
    && (|line| > 0 ==> !IsPySpace(line[|line| - 1]))
    && '\n' !in line
  }

  predicate TidyLines(lines: seq<string>) {
    forall k :: 0 <= k < |lines| ==> Tidy(lines[k])
  }

  lemma CleanedLinesTidy(text: string)
    ensures TidyLines(CleanedLines(text))
  {
    var t := RemoveMarkup(RemoveHeaders(text));
    var raw := SplitOn(t, '\n');
    var cleaned := CleanedLines(text);
    CleanedLinesFacts(t, raw, cleaned);
    forall k | 0 <= k < |cleaned| ensures Tidy(cleaned[k]) {
      CleanLineEndsSolid(raw[k]);
    }
  }

  /** A cleaned line ends in a non-blank character or is empty. */
  lemma CleanLineEndsSolid(line: string)
    ensures var r := CleanLine(line); |r| > 0 ==> !IsPySpace(r[|r| - 1])
  {
  }

  /** No content: the joined lines are all whitespace and strip to nothing. */
  lemma StripJoinBlank(sq: seq<string>)
    requires NonBlank(sq) == []
    ensures PyStrip(Join(sq, "\n")) == ""
  {
    NonBlankNil(sq);
    JoinKeeps(sq, "\n", IsPySpace);
  }

  /** Some content: stripping removes at most one empty line at each end and
      the indentation of the first line with content. */
  lemma StripJoinContent(sq: seq<string>)
    requires Squeezed(sq, false) && TidyLines(sq) && NonBlank(sq) != []
    ensures var r := PyStrip(Join(sq, "\n")); var ne := NonBlank(sq);
      r != "" && NonBlank(SplitOn(r, '\n')) == [StripLeft(ne[0], IsPySpace)] + ne[1..]
    ensures var core := TrimBlankEnds(sq);
      |core| > 0 && SplitOn(PyStrip(Join(sq, "\n")), '\n') == [StripLeft(core[0], IsPySpace)] + core[1..]
  {
    var pre, core, post := SplitBlankEnds(sq);
    StripCore(core, pre, post);
  }

  /** A squeezed list with content joins as a blank prefix, its lines from
      the first to the last content line, and a blank suffix. */
  lemma SplitBlankEnds(sq: seq<string>) returns (pre: string, core: seq<string>, post: string)
    requires Squeezed(sq, false) && TidyLines(sq) && NonBlank(sq) != []
    ensures Join(sq, "\n") == pre + Join(core, "\n") + post
    ensures Blank(pre, IsPySpace) && Blank(post, IsPySpace)
    ensures TidyLines(core) && |core| > 0 && !BlankLine(core[0]) && !BlankLine(core[|core| - 1])
    ensures NonBlank(core) == NonBlank(sq) && core == TrimBlankEnds(sq)
  {
    var core0;
    pre, core0 := DropFront(sq);
    core, post := DropBack(core0);
    assert Join(sq, "\n") == pre + Join(core, "\n") + post by {
      assert pre + (Join(core, "\n") + post) == pre + Join(core, "\n") + post;
    }
  }

  /** The core of `StripJoinContent`: content lines between blank ends. */
  lemma StripCore(core: seq<string>, pre: string, post: string)
    requires TidyLines(core) && |core| > 0 && !BlankLine(core[0]) && !BlankLine(core[|core| - 1])
    requires Blank(pre, IsPySpace) && Blank(post, IsPySpace)
    ensures var r := PyStrip(pre + Join(core, "\n") + post); var ne := NonBlank(core);
      r != "" && NonBlank(SplitOn(r, '\n')) == [StripLeft(ne[0], IsPySpace)] + ne[1..]
    ensures SplitOn(PyStrip(pre + Join(core, "\n") + post), '\n') == [StripLeft(core[0], IsPySpace)] + core[1..]
  {
    var y := StripLeft(core[0], IsPySpace);
    var m := Join([y] + core[1..], "\n");
    StripCoreValue(core, pre, post, y, m);
    StripCoreLines(core, y, m);
  }

  /** Stripping the padded core removes the first line's indent and the pads. */
  lemma StripCoreValue(core: seq<string>, pre: string, post: string, y: string, m: string)
    requires TidyLines(core) && |core| > 0 && !BlankLine(core[0]) && !BlankLine(core[|core| - 1])
    requires Blank(pre, IsPySpace) && Blank(post, IsPySpace)
    requires y == StripLeft(core[0], IsPySpace) && m == Join([y] + core[1..], "\n")
    ensures PyStrip(pre + Join(core, "\n") + post) == m && |m| > 0
  {
    var w := core[0][..|core[0]| - |y|];
    CoreSplit(core, y, w, m);
    StripPadded(pre, w, m, post);
    assert pre + Join(core, "\n") + post == pre + (w + m) + post;
  }

  /** The joined core is the first line's indent followed by content that
      starts and ends with a non-space. */
  lemma CoreSplit(core: seq<string>, y: string, w: string, m: string)
    requires TidyLines(core) && |core| > 0 && !BlankLine(core[0]) && !BlankLine(core[|core| - 1])
    requires y == StripLeft(core[0], IsPySpace) && w == core[0][..|core[0]| - |y|]
    requires m == Join([y] + core[1..], "\n")
    ensures Join(core, "\n") == w + m && Blank(w, IsPySpace)
    ensures |m| > 0 && !IsPySpace(m[0]) && !IsPySpace(m[|m| - 1])
  {
    SplitIndent(core[0], y, w);
    assert Join(core, "\n") == w + m by {
      assert core == [w + y] + core[1..];
      JoinFirstSplit(w, y, core[1..], "\n");
    }
    ContentEnds(core, y, w, m);
  }

  /** The content lines of the stripped core are those of `core`, the first
      one unindented. */
  lemma StripCoreLines(core: seq<string>, y: string, m: string)
    requires TidyLines(core) && |core| > 0 && !BlankLine(core[0])
    requires y == StripLeft(core[0], IsPySpace) && m == Join([y] + core[1..], "\n")
    ensures NonBlank(core)[0] == core[0] && NonBlank(SplitOn(m, '\n')) == [y] + NonBlank(core)[1..]
    ensures SplitOn(m, '\n') == [y] + core[1..]
  {
    var c0 := core[0];
    SplitIndent(c0, y, c0[..|c0| - |y|]);
    SplitCoreLines(core, y);
    NonBlankCore(core, y);
  }

  /** The joined core, first line unindented, splits back into its lines. */
  lemma SplitCoreLines(core: seq<string>, y: string)
    requires TidyLines(core) && |core| > 0 && '\n' !in y
    ensures SplitOn(Join([y] + core[1..], "\n"), '\n') == [y] + core[1..]
  {
    var lines := [y] + core[1..];
    forall k | 0 <= k < |lines| ensures '\n' !in lines[k] {
      if k > 0 {
        assert lines[k] == core[k] && Tidy(core[k]);
      }
    }
    SplitOnJoin(lines, '\n');
  }

  /** Replacing a content first line by its unindented form keeps the
      content lines otherwise. */
  lemma NonBlankCore(core: seq<string>, y: string)
    requires |core| > 0 && !BlankLine(core[0]) && |y| > 0 && !IsPySpace(y[0])
    ensures NonBlank([y] + core[1..]) == [y] + NonBlank(core)[1..]
    ensures NonBlank(core)[0] == core[0]
  {
    assert ([y] + core[1..])[1..] == core[1..];
  }

  /** Stripping blank padding off a solid middle leaves the middle. */
  lemma StripPadded(pre: string, w: string, m: string, post: string)
    requires Blank(pre, IsPySpace) && Blank(w, IsPySpace) && Blank(post, IsPySpace)
    requires |m| > 0 && !IsPySpace(m[0]) && !IsPySpace(m[|m| - 1])
    ensures PyStrip(pre + (w + m) + post) == m
  {
    BlankConcat(pre, w, IsPySpace);
    assert pre + (w + m) + post == (pre + w) + m + post;
    StripUnique(pre + (w + m) + post, pre + w, m, post, IsPySpace);
  }

  /** A non-blank, break-free line splits into its indentation and the rest. */
  lemma SplitIndent(c0: string, y: string, w: string)
    requires !BlankLine(c0) && '\n' !in c0
    requires y == StripLeft(c0, IsPySpace) && w == c0[..|c0| - |y|]
    ensures c0 == w + y && |y| > 0 && !IsPySpace(y[0]) && '\n' !in y
    ensures Blank(w, IsPySpace)
  {
    var j :| 0 <= j < |c0| && !IsPySpace(c0[j]);
    assert j >= |c0| - |y|;
  }

  /** The joined content starts and ends with a non-blank character. */
  lemma ContentEnds(core: seq<string>, y: string, w: string, m: string)
    requires TidyLines(core) && |core| > 0 && !BlankLine(core[|core| - 1])
    requires core[0] == w + y && |y| > 0 && !IsPySpace(y[0])
    requires m == Join([y] + core[1..], "\n")
    ensures |m| > 0 && !IsPySpace(m[0]) && !IsPySpace(m[|m| - 1])
  {
    var lines := [y] + core[1..];
    JoinFirstChar(lines, "\n");
    var last := lines[|lines| - 1];
    if |core| == 1 {
      assert last == y;
      assert y[|y| - 1] == core[0][|core[0]| - 1];
    } else {
      assert last == core[|core| - 1];
    }
    assert Tidy(core[|core| - 1]);
    JoinLastChar(lines, "\n");
  }

  /** Drops a leading empty line, which joins as one newline. */
  lemma DropFront(sq: seq<string>) returns (pre: string, core: seq<string>)
    requires Squeezed(sq, false) && TidyLines(sq) && NonBlank(sq) != []
    ensures Join(sq, "\n") == pre + Join(core, "\n") && Blank(pre, IsPySpace)
    ensures Squeezed(core, false) && TidyLines(core)
    ensures |core| > 0 && !BlankLine(core[0])
    ensures NonBlank(core) == NonBlank(sq)
    ensures core == DropLeadingBlank(sq)
  {
    if sq[0] == "" {
      pre, core := "\n", sq[1..];
      assert NonBlank(sq) == NonBlank(sq[1..]);
      assert |sq| >= 2;
      assert core[0] == sq[1];
      assert !BlankLine(sq[1]);
      assert DropLeadingBlank(sq) == DropLeadingBlank(sq[1..]);
      assert Join(sq, "\n") == sq[0] + "\n" + Join(sq[1..], "\n");
      forall k | 0 <= k < |core| - 1 ensures !(core[k] == "" && core[k + 1] == "") {
        assert core[k] == sq[k + 1] && core[k + 1] == sq[k + 2];
      }
    } else {
      pre, core := "", sq;
    }
  }

  /** Drops a trailing empty line, which joins as one newline. */
  lemma DropBack(sq: seq<string>) returns (core: seq<string>, post: string)
    requires Squeezed(sq, false) && TidyLines(sq)
    requires |sq| > 0 && !BlankLine(sq[0])
    ensures Join(sq, "\n") == Join(core, "\n") + post && Blank(post, IsPySpace)
    ensures TidyLines(core) && |core| > 0 && !BlankLine(core[0]) && !BlankLine(core[|core| - 1])
    ensures NonBlank(core) == NonBlank(sq)
    ensures core == DropTrailingBlank(sq)
  {
    if sq[|sq| - 1] == "" {
      core, post := sq[..|sq| - 1], "\n";
      assert |sq| >= 2;
      assert sq == core + [""];
      JoinAppend(core, [""], "\n");
      NonBlankAppend(core, [""]);
      assert core[|core| - 1] == sq[|sq| - 2];
      assert DropTrailingBlank(sq) == DropTrailingBlank(core);
    } else {
      core, post := sq, "";
    }
  }

  lemma {:induction false} NonBlankNil(lines: seq<string>)
    requires NonBlank(lines) == []
    ensures forall k :: 0 <= k < |lines| ==> BlankLine(lines[k])
    decreases |lines|
  {
    if |lines| > 0 {
      NonBlankNil(lines[1..]);
      assert forall k :: 1 <= k < |lines| ==> lines[k] == lines[1..][k - 1];
    }
  }

  lemma {:induction false} NonBlankAppend(a: seq<string>, b: seq<string>)
    ensures NonBlank(a + b) == NonBlank(a) + NonBlank(b)
    decreases |a|
  {
    if |a| == 0 {
      assert a + b == b;
    } else {
      assert (a + b)[1..] == a[1..] + b;
      NonBlankAppend(a[1..], b);
    }
  }

  lemma StripNoTripleBreak(s: string)
    requires !Contains(s, "\n\n\n")
    ensures !Contains(PyStrip(s), "\n\n\n")
  {
    var r := PyStrip(s);
    var k :| 0 <= k <= |s| - |r| && OccursAt(s, r, k);
    if Contains(r, "\n\n\n") {
      ContainsOfSlice(s, r, k, "\n\n\n");
    }
  }

  lemma CleanMarkdownFacts(t: string, raw: seq<string>, cleaned: seq<string>, squeezed: seq<string>)
    requires MarkupFree(t)
    requires raw == SplitOn(t, '\n')
    requires |cleaned| == |raw| && forall k :: 0 <= k < |raw| ==> cleaned[k] == CleanLine(raw[k])
    requires squeezed == CollapseBlankLines(cleaned, false)
    ensures MarkupFree(Join(squeezed, "\n"))
    ensures !Contains(Join(squeezed, "\n"), "\n\n\n")
  {
    CleanedLinesFacts(t, raw, cleaned);
    SqueezedLineFacts(cleaned, squeezed);
    JoinKeeps(squeezed, "\n", c => !IsMarkup(c));
    JoinNoTripleBreak(squeezed);
  }

  /** Collapsing blank runs keeps lines markup-free and break-free and leaves
      no two empty lines adjacent. */
  lemma SqueezedLineFacts(cleaned: seq<string>, squeezed: seq<string>)
    requires forall k :: 0 <= k < |cleaned| ==> MarkupFree(cleaned[k]) && '\n' !in cleaned[k]
    requires squeezed == CollapseBlankLines(cleaned, false)
    ensures forall k :: 0 <= k < |squeezed| ==> MarkupFree(squeezed[k]) && '\n' !in squeezed[k]
    ensures forall k :: 0 <= k < |squeezed| - 1 ==> !(squeezed[k] == "" && squeezed[k + 1] == "")
  {
    CollapseBlankLinesSpec(cleaned, false);
    forall k | 0 <= k < |squeezed|
      ensures MarkupFree(squeezed[k]) && '\n' !in squeezed[k]
    {
      if squeezed[k] != "" {
        assert squeezed[k] in cleaned;
      }
    }
  }

  lemma CleanedLinesFacts(t: string, raw: seq<string>, cleaned: seq<string>)
    requires MarkupFree(t)
    requires raw == SplitOn(t, '\n')
    requires |cleaned| == |raw| && forall k :: 0 <= k < |raw| ==> cleaned[k] == CleanLine(raw[k])
    ensures forall k :: 0 <= k < |cleaned| ==> MarkupFree(cleaned[k]) && '\n' !in cleaned[k]
  {
    SplitOnKeeps(t, '\n', c => !IsMarkup(c));
    forall k | 0 <= k < |cleaned|
      ensures MarkupFree(cleaned[k]) && '\n' !in cleaned[k]
    {
      var line := raw[k];
      CleanLineKeeps(line);
    }
  }

  lemma CleanLineKeeps(line: string)
    requires MarkupFree(line) && '\n' !in line
    ensures MarkupFree(CleanLine(line)) && '\n' !in CleanLine(line)
  {
    var r := CleanLine(line);
    CleanLineIsSlice(line);
    var k1 :| 0 <= k1 <= |line| - |r| && OccursAt(line, r, k1);
    SliceKeeps(line, r, k1, c => !IsMarkup(c));
    SliceKeeps(line, r, k1, NotBreak);
  }
}
